=== FILE: README.md ===
# Portal estudiantil IEM — a Dafny model of its logic

The portal lets students of the IEM school sign in with a student code (`IEM` and four
digits), checks the code against a whitelist on an Express server, and renders its pages
from HTML fragments with a small template engine. A Python script builds the whitelist
from a CSV export. This project models the parts of that system that are logic rather
than DOM or I/O glue, as pure Dafny functions over immutable data, and proves what the
code promises about them:

- **Template engine and fragment loader** (`frontend/js/shared/components.js`):
  `processTemplate` with its three passes (`{{ key }}` substitution, `{{#if}}` blocks,
  `{{#each}}` blocks with `{{this}}` and `{{@index}}`), each pass a left-to-right,
  non-overlapping scan like `String.prototype.replace` with a global regular expression;
  the fragment cache of `loadComponent`, `clearComponentCache` and `reloadComponent`; the
  result mapping of `loadMultipleComponents`; the option derivation of `initComponents`;
  and `getInitials`. Modules `TemplateScan`, `TemplateBlocks`, `Template`,
  `TemplateParts` (templates as literal text interleaved with placeholders, and what the
  passes make of all placeholders at once), `ComponentLoader`, `Initials`.
- **Code format** (`frontend/js/validacion.js`): `validarFormatoCodigo`. Module
  `CodeFormat`.
- **Server decisions** (`plate_server.js`): `POST /api/validar` and
  `POST /redirigir-inicio` as functions of the request body, the in-memory list and the
  outcome of rereading `data/usuarios.json`. Module `AccessServer`.
- **Access form** (`frontend/js/script.js`): the submit handler as a step from one page
  state (local storage, message, spinner, button opacity, scheduled navigation) to the
  next, and the input sanitiser. Modules `LoginForm`, `JsonText` (the `JSON.stringify`
  text stored under `userInfo`, with a reader that proves it round-trips).
- **Whitelist builder** (`data/loadStudents.py`): the header check, row cleaning and
  de-duplication of `load_csv_data`, and the merge of `create_usuarios_structure`.
  Module `WhitelistBuilder`.
- **The flow end to end**: the client's submit feeding the server's handler, the
  server reading the whitelist the builder wrote, and the later redirect check. Module
  `AccessRoundTrip`.

Supporting modules: `Wrappers` (`Option`, `Result`), `Fields` (objects and dicts as
association lists, in the order their keys are listed), `PropertyOrder` (the order
`Object.keys` lists an object's properties in: array-index keys such as `0` and `12`
first, ascending, then the other keys in the order they were created, as section
10.1.11.1 of ECMA-262 prescribes), `Ascii` (JavaScript and Python whitespace, trim,
ASCII upper-casing), `JsValues` (JavaScript values as far as truthiness and
`typeof === 'string'` tell them apart), `JsonData` (parsed JSON and property reads),
`Decimal` (decimal text of numbers), `Sequences` (sequence lemmas).

Behaviours of the code worth knowing, which the model keeps:

- A placeholder whose key is not in `data` is left in the output untouched: the
  variable pass only visits the keys `data` has, and only `null` and `undefined`
  values become the empty string (frontend/js/shared/components.js:112-116).
- With `data` empty (or null) `processTemplate` returns the template raw, so `{{#if}}`
  and `{{#each}}` blocks are not evaluated at all (frontend/js/shared/components.js:105-107).
- A `null` or `undefined` item of an `{{#each}}` array takes the primitive branch
  (frontend/js/shared/components.js:161-169), and `{{this}}` becomes `null` or
  `undefined` in its copy.
- The `/api/validar` reply never carries `nombre` (plate_server.js:65-70), although
  the comment at frontend/js/validacion.js:31 lists it among the reply's members; so
  the client always stores the trimmed code as typed as the user's name.
- The sanitiser is attached to an element with id `studentCode`
  (frontend/js/script.js:114), while the submit handler reads `cod_estudiante`
  (frontend/js/script.js:53); the model states the sanitiser's behaviour on its own.
- `create_usuarios_structure` rebuilds `informacion` from three members
  (data/loadStudents.py:87-91), so other members of an existing `informacion` object are
  dropped.

## Model

| member | source | states |
|---|---|---|
| Template.ProcessTemplate | frontend/js/shared/components.js:104-107 | with `data` null or without keys the template comes back unchanged |
| Template.ProcessTemplateLiteral | frontend/js/shared/components.js:104-125 | a template in which no `{{` occurs is returned unchanged whatever the data |
| Template.Get | frontend/js/shared/components.js:137 | `data[name]` is an own binding exactly when `data` has the key, and an inherited member exactly when it lacks it and the name is one `Object.prototype` defines |
| TemplateParts.VarPassReplaces | frontend/js/shared/components.js:112-116 | a placeholder of a key of `data`, anywhere in a template made of literal text and placeholders, is replaced in place by the text of that key's value, whatever other placeholders surround it |
| TemplateParts.VarPassNullValue | frontend/js/shared/components.js:114-115 | a placeholder whose value is `null` or `undefined` is removed, wherever it stands |
| TemplateParts.VarPassKeepsUnknown | frontend/js/shared/components.js:112-116 | a placeholder of a key that `data` lacks is left untouched, wherever it stands |
| Template.VarPassLiteral | frontend/js/shared/components.js:112-116 | the variable pass leaves text without `{{` unchanged |
| TemplateParts.SubstVarParts | frontend/js/shared/components.js:113-115 | one replace call over a template made of literal text and placeholders turns every placeholder of its key into the replacement and keeps every other part |
| TemplateParts.SubstAllParts | frontend/js/shared/components.js:112-116 | the passes, one per key in order, make every placeholder show the text of the first binding of its key and keep every other part, when no inserted text holds `{{` |
| TemplateParts.VarPassParts | frontend/js/shared/components.js:112-116 | the variable pass over a whole template: every placeholder of a key of `data` shows that value's text (`''` for `null` and `undefined`), every other placeholder and all literal text stay |
| Template.SubstAllInBlock | frontend/js/shared/components.js:109-119 | the variable pass leaves block openers and closing tags alone and acts on a block's body only, so it runs before the block passes see the body |
| Template.IfBlock | frontend/js/shared/components.js:133-140 | a block after literal text keeps its body exactly when `data[name]` is truthy and drops it otherwise; the body ends at the nearest `{{/if}}`; the text before is kept and the scan resumes after the closing tag |
| Template.IfUnterminated | frontend/js/shared/components.js:133-140 | text without a closing `{{/if}}` is left as it is, openers included |
| Template.IfBlockAlone | frontend/js/shared/components.js:136-139 | a whole-text block becomes its body or nothing |
| Template.IfBodySeesVariables | frontend/js/shared/components.js:109-122 | a block that is the whole template yields its body after the variable pass and the loop pass when truthy, and nothing otherwise |
| Template.IfBlockShowsValue | frontend/js/shared/components.js:109-139 | `{{#if n}}a{{ k }}b{{/if}}` renders as a, the value of k, b when `data[n]` is truthy and as nothing otherwise |
| Template.EachBlock | frontend/js/shared/components.js:148-176 | a block after literal text becomes the expansion of its body over `data[name]` when that is an array and the empty text otherwise, with the text around it kept |
| Template.EachUnterminated | frontend/js/shared/components.js:148-151 | text without a closing `{{/each}}` is left as it is |
| Template.ExpandLiteral | frontend/js/shared/components.js:157-175 | a body without placeholders is repeated once per element, no more and no fewer |
| TemplateParts.ExpandIndex | frontend/js/shared/components.js:157-175 | for a body whose placeholders all show the index, copy i has every `{{@index}}` written as i in decimal, copies in order, for any elements whose keys cannot capture `@index` |
| TemplateParts.ExpandThis | frontend/js/shared/components.js:157-175 | a loop over primitives renders copy i with every `{{this}}` written as element i and every `{{@index}}` as i, in order, for any body |
| TemplateParts.RenderItemParts | frontend/js/shared/components.js:157-174 | one copy of any body: each placeholder shows its key's text in the item's scope (its own keys or `this`, then `@index`), every other part stays |
| TemplateParts.ExpandParts | frontend/js/shared/components.js:157-175 | a loop over any body and any items renders copy i in the scope of item i, copies joined in order |
| TemplateParts.RenderItemIndex | frontend/js/shared/components.js:171-172 | `{{@index}}` in a copy becomes the element's position in decimal, wherever it stands in the body |
| TemplateParts.RenderItemThis | frontend/js/shared/components.js:166-169 | `{{this}}` in a copy for a primitive element becomes `String(element)`, wherever it stands in the body |
| TemplateParts.RenderItemField | frontend/js/shared/components.js:161-165 | a placeholder of an object element's key becomes `String(element[key])`, wherever it stands in the body |
| Template.RenderItemLiteral | frontend/js/shared/components.js:157-174 | a body without placeholders is copied verbatim for every element |
| TemplateScan.MatchPlaceholderSound | frontend/js/shared/components.js:113 | the matcher accepts only `{{`, whitespace, the key, whitespace, `}}` |
| TemplateScan.MatchPlaceholderComplete | frontend/js/shared/components.js:113 | every placeholder at the start of a text is found, with its length |
| TemplateScan.PlaceholderPrefixUnique | frontend/js/shared/components.js:113 | two placeholders that start at the same place are the same text with the same key |
| TemplateScan.SubstVarReplacesInPlace | frontend/js/shared/components.js:113-115 | one replace call substitutes every placeholder of k in place, whatever surrounds it |
| TemplateScan.SubstVarKeepsOtherKeys | frontend/js/shared/components.js:113-115 | one replace call leaves a placeholder of another key in place |
| TemplateScan.SubstVarIdentity | frontend/js/shared/components.js:113-115 | a text with no placeholder of k anywhere is unchanged by its replace call |
| TemplateScan.SubstVarLiteral | frontend/js/shared/components.js:113-115 | text in which no `{{` can start passes through a replace call unchanged |
| TemplateScan.SubstVarInertHead | frontend/js/shared/components.js:113-115 | a `{{` followed by a character no placeholder continues with (`#`, `/`) is copied unchanged |
| TemplateBlocks.MatchOpenerSound | frontend/js/shared/components.js:134 | the opener matcher accepts only `{{#tag`, whitespace, a `\w+` name, `}}` and reports that name |
| TemplateBlocks.MatchOpenerComplete | frontend/js/shared/components.js:134 | every opener at the start of a text is found, with its name |
| TemplateBlocks.FirstCloseAfterBody | frontend/js/shared/components.js:134 | the lazy body ends at the first closing tag after the opener |
| TemplateBlocks.ReplaceBlocksAtHead | frontend/js/shared/components.js:136-139 | a whole block at the head is replaced by the callback's text for its name and body, and the scan resumes after the closing tag |
| TemplateBlocks.ReplaceBlocksAround | frontend/js/shared/components.js:136-139 | literal text before a block is kept, the block is replaced, and the rest is scanned on its own |
| TemplateBlocks.ReplaceBlocksLiteral | frontend/js/shared/components.js:136-139 | text in which no `{{` can start is unchanged by a block pass |
| TemplateBlocks.ReplaceBlocksUnterminated | frontend/js/shared/components.js:134-139 | without a closing tag no block matches and the text is unchanged |
| Decimal.NatTextRoundTrip | frontend/js/shared/components.js:172 | the decimal text written for an index reads back to that index |
| Decimal.NatTextInjective | frontend/js/shared/components.js:172 | different indices are written differently |
| Decimal.NatTextNoLeadingZero | frontend/js/shared/components.js:172 | the decimal text has a leading zero only for zero |
| ComponentLoader.LoadComponent | frontend/js/shared/components.js:20-96 | null options reject; a bad id, bad path or missing container resolves false and changes nothing; a hit never fetches and a miss always does; the cache gains only the fetched text under the path, only with the cache on; a failed fetch leaves the cache alone and shows the error paragraph; no other container changes; the call resolves true exactly when the text was available and the scripts and callback settled |
| ComponentLoader.Render | frontend/js/shared/components.js:67-85 | inserting the text neither rejects nor touches the cache |
| ComponentLoader.LoadShowsText | frontend/js/shared/components.js:48-75 | a successful call shows the processed text in its container: the cached text on a hit, the fetched text otherwise, after the old HTML when appending |
| ComponentLoader.SecondLoadHits | frontend/js/shared/components.js:48-65 | after a successful call with the cache on, a second call for the same path issues no fetch whatever the network does and renders the same text |
| ComponentLoader.ClearComponentCache | frontend/js/shared/components.js:306-312 | a string path removes exactly that key, a falsy argument empties the cache, a truthy non-string changes nothing |
| ComponentLoader.NoCache | frontend/js/shared/components.js:325-328 | the reload options switch the cache off and keep `data` and `append`, also for null options |
| ComponentLoader.ReloadAlwaysFetches | frontend/js/shared/components.js:321-329 | a reload past the guards always fetches, never rejects, removes the path from the cache and keeps every other entry, and succeeds exactly when the fetch and the scripts do |
| ComponentLoader.ReloadNeverCaches | frontend/js/shared/components.js:321-329 | a reload never adds a cache key and leaves its path uncached |
| ComponentLoader.LoadMultiple | frontend/js/shared/components.js:230-252 | a non-array gives `[]`; a nullish entry rejects the whole call; otherwise one result per entry in order, true exactly when the entry names a container and a path and its load resolved to true |
| ComponentLoader.Settle | frontend/js/shared/components.js:244-248 | each settled promise maps to true exactly when it fulfilled with true |
| ComponentLoader.LoadMultipleIndependent | frontend/js/shared/components.js:236-248 | replacing one entry changes no other entry's result |
| ComponentLoader.LoadMultipleTrueMeansLoaded | frontend/js/shared/components.js:236-248 | a true result comes only from an entry whose load succeeded against an existing container with a non-empty path |
| ComponentLoader.TemplateDataOf | frontend/js/shared/components.js:273-278 | the template data holds every `data-*` attribute but `component`, `cache` and `append`, as strings, with their values |
| ComponentLoader.TemplateDataOrder | frontend/js/shared/components.js:112 | the data lists its keys as `Object.keys` lists the object the loop built: the attributes named like array indices first and ascending, then the others in attribute order |
| ComponentLoader.TemplateDataInDatasetOrder | frontend/js/shared/components.js:273-278 | when no attribute is named like an array index, the data keeps the attributes' order |
| ComponentLoader.IndexKeyListedFirst | frontend/js/shared/components.js:273-278 | for `data-a="{{0}}" data-0="z"` the key `0` comes before `a` |
| ComponentLoader.IndexKeySubstitutedFirst | frontend/js/shared/components.js:112-116 | with that data the fragment `{{a}}` renders as `{{0}}`: the pass for `0` runs before the pass for `a` inserts `{{0}}` |
| PropertyOrder.KeysOrderListed | frontend/js/shared/components.js:112 | the listing is a permutation of the properties with the array-index keys first, in ascending order, and the other keys after them in creation order |
| PropertyOrder.KeysOrderFind | frontend/js/shared/components.js:112-114 | reordering the keys changes no lookup: each key still reads the value it was given |
| PropertyOrder.KeysOrderNoIndex | frontend/js/shared/components.js:112 | without array-index keys the listing is the creation order |
| ComponentLoader.ConfigOf | frontend/js/shared/components.js:268-294 | the entry has the element's id (or a generated non-empty one), the path, the data; the cache is on unless `data-cache` is `"false"`; append is on only when `data-append` is `"true"` |
| ComponentLoader.InitComponentsNeverRejects | frontend/js/shared/components.js:261-299 | `loadMultipleComponents` never rejects on these configurations, and an entry fails only when its path is empty or its load does not succeed |
| Initials.GetInitials | frontend/js/shared/components.js:346-359 | `US` for a missing, non-string or blank name; never more than two characters, none lower-case |
| Initials.GetInitialsOfName | frontend/js/shared/components.js:351-358 | for a usable name the result is the upper-cased first characters of its words, cut to two |
| Initials.GetInitialsShape | frontend/js/shared/components.js:351-358 | for a usable name the result has one or two characters, starts with the name's first character upper-cased and is a prefix of the upper-cased word starts |
| Initials.HeadsOfSplit | frontend/js/shared/components.js:353-356 | splitting on whitespace runs, dropping empty pieces and taking first characters gives exactly the characters that start words |
| Initials.TrimKeepsWordStarts | frontend/js/shared/components.js:352 | trimming a name does not change its word starts |
| Initials.SplitFrom | frontend/js/shared/components.js:353 | splitting always yields at least one piece, as `split` does |
| CodeFormat.ValidarFormatoCodigo | frontend/js/validacion.js:9-18 | false for non-strings and the empty string; otherwise true exactly when the trimmed input is seven characters, `IEM` in any case, then four ASCII digits |
| CodeFormat.PatternOfUpper | frontend/js/validacion.js:15-17 | upper-casing then matching `^IEM\d{4}$` is the case-insensitive shape test |
| CodeFormat.NormalizeIdempotent | frontend/js/validacion.js:15 | trimming and upper-casing twice is doing it once |
| CodeFormat.ValidarDependsOnNormalForm | frontend/js/validacion.js:15-17 | the verdict depends on the input only through its normalised form |
| CodeFormat.AcceptedIsPrefixAndDigits | frontend/js/validacion.js:17 | an accepted input normalises to `IEM` followed by four digits |
| CodeFormat.AcceptsSurroundingBlanks | frontend/js/validacion.js:15-17 | whitespace around a code does not change the verdict |
| CodeFormat.RejectsWrongLength | frontend/js/validacion.js:17 | a trimmed input that is not seven characters long is rejected |
| CodeFormat.AcceptsLowerCase | frontend/js/validacion.js:15-17 | `iem1234` is accepted |
| CodeFormat.AcceptsPaddedExample | frontend/js/validacion.js:15-17 | `  IEM1234 ` is accepted |
| CodeFormat.RejectsShortTail | frontend/js/validacion.js:17 | `IEM123` is rejected |
| CodeFormat.RejectsLongTail | frontend/js/validacion.js:17 | `IEM12345` is rejected |
| CodeFormat.RejectsLetterTail | frontend/js/validacion.js:17 | `IEMABCD` is rejected |
| CodeFormat.RejectsBlankAndNonString | frontend/js/validacion.js:11-13 | a blank string, `undefined` and a non-string are rejected without throwing |
| AccessServer.ApiValidar | plate_server.js:41-71 | a falsy code answers `Código requerido` without reloading; a truthy non-string crashes; a malformed code answers the format message without reloading; a failed reread answers `Error interno` and keeps the old list; otherwise the reread list is installed and `permitido` is true exactly when the normalised code is in it |
| AccessServer.ReloadedList | plate_server.js:55-63 | the reread fails exactly when the file cannot be parsed or holds `null`; a list that is not an array counts as empty |
| AccessServer.ServerAgreesWithClient | plate_server.js:47-50 | the server's format test equals `validarFormatoCodigo` on every string |
| AccessServer.ApiValidarReplyShape | plate_server.js:65-70 | every reply is `{permitido, mensaje}` without `nombre`, and `permitido` is true exactly when the normalised code is in the list just reread |
| AccessServer.ApiValidarIgnoresOldList | plate_server.js:54-65 | the reply does not depend on the list held before the request |
| AccessServer.NonArrayListAdmitsNobody | plate_server.js:57-59 | a file whose list is missing or not an array admits nobody |
| AccessServer.RedirigirInicio | plate_server.js:83-89 | redirects exactly when `nombre` is a string whose trimmed upper-cased form is non-empty and in the in-memory list; crashes exactly on a non-null non-string |
| AccessServer.AdmittedCodeRedirects | plate_server.js:57-88 | a code `/api/validar` admits is recognised by `/redirigir-inicio`, as typed or normalised |
| JsonText.UserInfoRoundTrip | frontend/js/script.js:75-78 | the stored `userInfo` text reads back to the name written and grade `11` |
| JsonText.UserInfoText | frontend/js/script.js:75-78 | the stored text is the `nombre` member and the `grado` member between braces, in that order |
| JsonText.ReadStringOfEscape | frontend/js/script.js:75-78 | the escaped body of a string literal reads back to the string |
| JsonText.ReadQuoted | frontend/js/script.js:75-78 | a quoted string reads back to itself whatever follows it |
| JsonText.ReadEscapeChar | frontend/js/script.js:75-78 | each escaped character reads back to itself |
| LoginForm.Submit | frontend/js/script.js:50-92 | the spinner ends hidden and the text visible; the server is asked exactly when the format is valid; a bad format shows the hint and changes nothing else; storage changes only on a returned object with writable storage, to `userInfo` set; navigation changes only to the home page after the server answered |
| LoginForm.Decide | frontend/js/script.js:69-88 | the branches after the call change storage only to set `userInfo`, and navigation only to the home page |
| LoginForm.Finish | frontend/js/script.js:88-91 | the `finally` block hides the spinner, restores the text and changes nothing else |
| LoginForm.SubmitOutcome | frontend/js/script.js:62-91 | format failure, admission, refusal and failure each end in the state their branch promises: the hint, or `userInfo` stored plus `Acceso permitido` plus the home page, or the server's `mensaje` (or the fallback), or `Error al validar el código`; storage and navigation unchanged except on admission |
| LoginForm.StoredUserInfoReadsBack | frontend/js/script.js:75-78 | the stored record names the server's `nombre` when truthy and the trimmed code otherwise, with grade `11` |
| LoginForm.Sanitize | frontend/js/script.js:114-116 | the sanitised value is no longer than the input and holds only `A-Z0-9` |
| LoginForm.KeepCodeChars | frontend/js/script.js:115 | the filter keeps only code characters and never lengthens the text |
| LoginForm.KeepCodeCharsFixes | frontend/js/script.js:115 | a text of code characters is left as it is |
| LoginForm.SanitizeIdempotent | frontend/js/script.js:115 | sanitising twice is sanitising once |
| LoginForm.SanitizeFixedPoints | frontend/js/script.js:115 | the sanitiser leaves a value unchanged exactly when it is made of code characters |
| LoginForm.KeepCodeCharsConcat | frontend/js/script.js:115 | the filter works character by character over concatenations |
| LoginForm.SanitizeChar | frontend/js/script.js:115 | one character is kept upper-cased exactly when its upper-case form is a code character |
| WhitelistBuilder.CleanRowsMembers | data/loadStudents.py:61-63 | every complete row's cleaned form is kept, and every kept student is the cleaned form of a complete row |
| WhitelistBuilder.CleanRowsAreClean | data/loadStudents.py:62-63 | every kept name is stripped and every kept code is stripped with no lower-case letter |
| WhitelistBuilder.CleanRowsKeepsCompleteRows | data/loadStudents.py:61 | a table without empty cells loses no row, and row k becomes student k |
| WhitelistBuilder.CleanRows | data/loadStudents.py:61-63 | cleaning never adds rows |
| WhitelistBuilder.CleanIsClean | data/loadStudents.py:62-63 | a cleaned row is clean |
| WhitelistBuilder.CleanCodeIsClean | data/loadStudents.py:63 | a cleaned code is stripped and has no lower-case letter |
| WhitelistBuilder.DedupeFromDistinct | data/loadStudents.py:66 | de-duplication keeps no code twice |
| WhitelistBuilder.DedupeFromCodes | data/loadStudents.py:66 | de-duplication keeps exactly the codes not seen before |
| WhitelistBuilder.Dedupe | data/loadStudents.py:66 | the kept codes are distinct and are exactly the codes of the input |
| WhitelistBuilder.DedupeKeepsFirstRows | data/loadStudents.py:66 | every kept student is the first row carrying its code |
| WhitelistBuilder.DedupeKeepsOrder | data/loadStudents.py:66 | the kept students are in the order of their first rows |
| WhitelistBuilder.FirstIndex | data/loadStudents.py:66 | the first row with a code has it, and no earlier row does |
| WhitelistBuilder.MissingColumns | data/loadStudents.py:54-55 | the missing columns are exactly the required ones the header lacks |
| WhitelistBuilder.MissingColumnMessages | data/loadStudents.py:54-72 | the error names exactly the missing columns, `nombre` before `codigo`, behind the CSV prefix |
| WhitelistBuilder.PyListReprOne | data/loadStudents.py:58 | a one-item list is written as Python writes it |
| WhitelistBuilder.LoadCsvData | data/loadStudents.py:54-72 | fails exactly when a required column is missing, with the message naming them; otherwise the codes are distinct and are exactly the codes of the cleaned rows |
| WhitelistBuilder.CodeItemsHas | data/loadStudents.py:78 | a code is listed exactly when a student has it |
| WhitelistBuilder.NombresMatchList | data/loadStudents.py:78-79 | `nombres` has no repeated key, its keys are exactly the listed codes, and each maps to its student's name |
| WhitelistBuilder.Contact | data/loadStudents.py:90 | the support contact lookup fails exactly when `informacion` is present and not a dict |
| WhitelistBuilder.OwnKeysDistinct | data/loadStudents.py:82-93 | the six keys the function writes are distinct |
| WhitelistBuilder.Extras | data/loadStudents.py:95-98 | the carried-over members never use one of the six own keys |
| WhitelistBuilder.ExtrasFind | data/loadStudents.py:95-98 | every other key keeps its value from the existing document |
| WhitelistBuilder.ExtrasDistinct | data/loadStudents.py:95-98 | the carried-over members repeat no key when the existing document has none |
| WhitelistBuilder.CreateUsuariosStructure | data/loadStudents.py:74-100 | fails exactly when the existing document or its `informacion` is not a dict; otherwise writes the six own members and then the carried-over ones |
| WhitelistBuilder.MergeFindsOwnKey | data/loadStudents.py:82-93 | looking up any of the six own keys in the written document finds the value the function computes for it |
| WhitelistBuilder.MergeTakesListsFromCsv | data/loadStudents.py:78-85 | `usuarios_permitidos` and `nombres` always come from the CSV |
| WhitelistBuilder.MergeKeepsComments | data/loadStudents.py:83-92 | `comentario_1`, `comentario_2` and `comentario_3` come from the existing document when present and from the defaults otherwise |
| WhitelistBuilder.MergeWritesInformacion | data/loadStudents.py:87-91 | `informacion` holds the date, `total_usuarios` equal to the number of listed codes, and the existing or default support contact |
| WhitelistBuilder.MergeCarriesOtherKeys | data/loadStudents.py:96-98 | every other key of the existing document is copied with its value |
| WhitelistBuilder.MergeIsDict | data/loadStudents.py:82-98 | the written document has no repeated key |
| WhitelistBuilder.UpdateWhitelist | data/loadStudents.py:115-130 | a missing column stops the run with the missing-columns message |
| WhitelistBuilder.UpdateWhitelistLists | data/loadStudents.py:61-84 | the written list names each code once, and names a code exactly when some complete CSV row has it once stripped and upper-cased |
| WhitelistBuilder.CleanedCodeFromRow | data/loadStudents.py:61-63 | a code is among the cleaned codes exactly when some complete row cleans to it |
| AccessRoundTrip.Login | frontend/js/script.js:53-70 | the server is asked exactly when the client accepts the format, and the server's list is unchanged otherwise |
| AccessRoundTrip.ClientCheckedCodeIsReloaded | plate_server.js:43-63 | a code the client accepts never gets `Código requerido` or the format message, never crashes the handler, and always makes the server reread its file |
| AccessRoundTrip.LoginVerdict | frontend/js/script.js:64-88 | fed the real server's answer, the submit handler admits exactly the codes in the reread list (with storage writable), refuses the others with `Código no permitido`, and refuses with `Error interno` when the reread fails |
| AccessRoundTrip.LoginOutcome | frontend/js/script.js:62-91 | a whole login ends in the page state of its verdict, and an admitted student is stored under the trimmed code they typed with grade `11` |
| AccessRoundTrip.AdmittedThenRedirected | plate_server.js:83-89 | after an admission the stored name is recognised by `/redirigir-inicio` |
| AccessRoundTrip.ReloadedWhitelist | plate_server.js:55-59 | the list the server rereads from the builder's document holds a code exactly when a complete CSV row carries it |
| AccessRoundTrip.CsvStudentAdmitted | data/loadStudents.py:61-84 | with the builder's document on disk, a well-formed code is admitted exactly when a complete CSV row carries it |

## Left out

- DOM insertion, `executeComponentScripts` and the `onLoad` callback: their effect is one
  parameter, `settles`, saying whether they completed without throwing.
- `fetch`, `response.json()`, `fs.readFileSync` and `JSON.parse`: their outcomes are
  parameters (`Fetch`, `ServerOutcome`, `Reload`), and the server is assumed to parse the
  client's `{cod_estudiante}` body back to the string sent.
- Concurrency: `loadMultipleComponents` starts its loads in parallel and they share the
  cache; the model takes each entry's settled outcome as given, so interleavings of
  cache writes are not modelled.
- The random id suffix of `initComponents` is a parameter; `Math.random` is not modelled.
- Template.SubstAll: data keys that are not `\w+` identifiers are skipped, because the code
  interpolates them unescaped into a regular expression whose meaning the model does not
  follow. For a key that is not a valid pattern (`(` or `*`, say) `new RegExp` throws
  (frontend/js/shared/components.js:113, and :163 for item keys), so
  ComponentLoader.LoadComponent in the code writes the error paragraph and resolves
  false (frontend/js/shared/components.js:85-94), after a fetched text has already been
  cached; the model renders the template and resolves true instead.
- TemplateParts.VarPassParts: a value whose text holds `{{` is not covered, because
  the passes for later keys rescan the inserted text and can fill placeholders it
  brings in; the same holds of TemplateParts.RenderItemParts, TemplateParts.ExpandParts
  and the per-placeholder lemmas built on them.
- TemplateScan.MatchPlaceholderSound: the regular expression's `\s` is modelled as ASCII
  whitespace (space, tab, line feed, vertical tab, form feed, carriage return); the
  Unicode spaces JavaScript's `\s` also matches (U+00A0, U+FEFF, U+2028, U+2029 and the
  other space separators) are not.
- TemplateBlocks.MatchOpenerSound: the `\s+` of the block openers is ASCII whitespace
  too, for the same reason.
- AccessServer.RedirigirInicio: `.trim()` on the received name is ASCII, for the same
  reason, and its `.toUpperCase()` (plate_server.js:84) is ASCII upper-casing; the
  Unicode case mappings JavaScript applies beyond ASCII (`'ı'` to `I`, `'ß'` to `SS`) are
  not modelled, so a name that only such a mapping turns into a listed code is refused
  by the model and redirected by the code.
- AccessServer.ApiValidar: the code's `.trim().toUpperCase()` (plate_server.js:47) is
  modelled by `CodeFormat.Normalize`, which trims ASCII whitespace and upper-cases ASCII
  letters only; the code also upper-cases non-ASCII letters with Unicode mappings, so
  `ıem1234` passes its format test as `IEM1234` while the model answers the format
  message.
- ComponentLoader.LoadComponent: the page is a flat map from container id to HTML, so
  setting `innerHTML` (frontend/js/shared/components.js:73-78) neither removes the ids
  nested in the container nor adds the ids the fragment declares; loading into a
  container an earlier fragment created is outside the model, and the clauses that the
  page keeps its ids and that no other container changes hold of this flat page only.
- TemplateScan.SubstVarReplacesInPlace: replacement texts are inserted literally; the `$&`, `$1` and
  `$$` patterns `String.prototype.replace` interprets are not modelled.
- Template.PrimText: numbers are unbounded integers printed with all their digits;
  JavaScript numbers are doubles, so integers are taken to stay below 2^53 in magnitude,
  and the exponent form `String` and `JSON.stringify` use from 1e21 on (`"1e+21"`) is
  not modelled.
- JsonText.Stringify: numbers are printed by Decimal.IntText with all their digits, for
  the same reason; the 2^53 bound and the exponent form are not modelled.
- Template.Get: nested objects and arrays inside `{{#each}}` items, and floating-point
  numbers, are not modelled; values are strings, booleans, integers, `null`,
  `undefined`, and one level of arrays of primitives or flat objects.
- Initials.GetInitials: `trim`, `split(/\s+/)` and `toUpperCase` are ASCII; Unicode
  whitespace and case mappings that change length (`ß` to `SS`) are not modelled.
- CodeFormat.ValidarFormatoCodigo: trimming and upper-casing are ASCII, for the same
  reason.
- LoginForm.Sanitize: upper-casing is ASCII, for the same reason.
- WhitelistBuilder.CleanRows: Python's `str.strip` is modelled over ASCII whitespace
  (including the separators `\x1c`-`\x1f`); Unicode whitespace is not.
- WhitelistBuilder.CleanCode: Python's `str.upper` is modelled as ASCII upper-casing, and
  `str.strip` as above; Unicode case mappings (`'ı'.upper() == 'I'`, `'ß'.upper() ==
  'SS'`) are not.
- The paste handler, `showMessage` styling and timers, the injected CSS, `getUserInfo`
  and the pages that read the stored record are UI code and are not part of this model.
- Express bootstrapping, the start-up load of the whitelist and the process error
  handlers: the in-memory list is a parameter of each handler.
- pandas CSV reading with its encoding fallback, `astype(str)` on non-string cells, the
  JSON file writes and `date.today()`: rows arrive as optional strings and the date as a
  parameter.
- Parsed JSON documents are taken to have distinct keys, as `JSON.parse` and
  `json.load` produce; `MergeIsDict` assumes it of the existing document.
- navigation.js, inicio.js and db_manager.py are not part of this model.
- Purity of `validarFormatoCodigo` holds by construction: it is a Dafny function.

=== FILE: access_round_trip.dfy ===
/** The access flow end to end: the submit handler of frontend/js/script.js calling
    `POST /api/validar` of plate_server.js through `validarCodigoEnServidor`, the server
    rereading the whitelist data/loadStudents.py writes, and the later
    `POST /redirigir-inicio` check. */
module AccessRoundTrip {
  import opened Wrappers
  import opened Ascii
  import opened JsValues
  import opened JsonData
  import opened CodeFormat
  import AccessServer
  import LoginForm
  import JsonText
  import WhitelistBuilder

  /** What `validarCodigoEnServidor` makes of the server's answer: the body it parses, or
      a throw when the handler crashed (Express's error page is not JSON). */
  function Outcome(reply: AccessServer.Reply): LoginForm.ServerOutcome {
    match reply
    case Crash => LoginForm.CallThrows
    case Respond(body) => LoginForm.CallReturns(body)
  }

  /** The request the handler sends for a typed value: `{cod_estudiante}` with the
      trimmed value, which the server parses back to the same string. */
  function Request(list: seq<Json>, value: string, reload: AccessServer.Reload): AccessServer.Handled {
    AccessServer.ApiValidar(list, Some(JStr(Trim(value))), reload)
  }

  /** The page state and the server's in-memory list after one submit. */
  datatype Session = Session(ui: LoginForm.Ui, list: seq<Json>)

  /** One submit of `value`, the server rereading its file with outcome `reload`; no
      request is made when the client rejects the format. */
  function Login(ui: LoginForm.Ui, value: string, list: seq<Json>, reload: AccessServer.Reload,
                 storageWritable: bool): (s: Session)
    ensures !ValidarFormatoCodigo(Str(Trim(value))) ==> s.list == list && !s.ui.asked
    ensures s.ui.asked <==> ValidarFormatoCodigo(Str(Trim(value)))
  {
    if !ValidarFormatoCodigo(Str(Trim(value))) then
      Session(LoginForm.Submit(ui, value, LoginForm.CallThrows, storageWritable), list)
    else
      var h := Request(list, value, reload);
      Session(LoginForm.Submit(ui, value, Outcome(h.reply), storageWritable), h.list)
  }

  /** The verdict a login should reach, read off the two sources' contracts: a bad format
      is rejected on the client; a failed reread is refused with `Error interno`; a code
      in the reread list is admitted when `localStorage` accepts the record, and any
      other code is refused with `Código no permitido`. */
  function Expected(value: string, reload: AccessServer.Reload, storageWritable: bool): LoginForm.Verdict {
    if !ValidarFormatoCodigo(Str(Trim(value))) then LoginForm.FormatRejected
    else
      match AccessServer.ReloadedList(reload)
      case None => LoginForm.Refused(JStr(AccessServer.InternalMessage))
      case Some(l) =>
        if JStr(Normalize(Trim(value))) in l then
          (if storageWritable then LoginForm.Admitted else LoginForm.Failed)
        else LoginForm.Refused(JStr(AccessServer.DeniedMessage))
  }

  /** A code the client accepts passes the server's own checks: the server never answers
      `Código requerido` or the format message for it, never crashes on it, and always
      rereads its file. */
  lemma ClientCheckedCodeIsReloaded(list: seq<Json>, value: string, reload: AccessServer.Reload)
    requires ValidarFormatoCodigo(Str(Trim(value)))
    ensures var h := Request(list, value, reload);
      h.reloaded && h.reply.Respond?
      && h.reply.body != AccessServer.ValidarReply(false, AccessServer.RequiredMessage)
      && h.reply.body != AccessServer.ValidarReply(false, AccessServer.FormatMessage)
  {
    var h := Request(list, value, reload);
    assert AccessServer.RequiredMessage != AccessServer.InternalMessage;
    assert AccessServer.FormatMessage != AccessServer.InternalMessage;
    assert |AccessServer.RequiredMessage| != |AccessServer.DeniedMessage|;
    assert |AccessServer.FormatMessage| != |AccessServer.DeniedMessage|;
  }

  /** The submit handler, fed the real server's answer, reaches the expected verdict. */
  lemma LoginVerdict(list: seq<Json>, value: string, reload: AccessServer.Reload, storageWritable: bool)
    requires ValidarFormatoCodigo(Str(Trim(value)))
    ensures LoginForm.VerdictOf(value, Outcome(Request(list, value, reload).reply), storageWritable)
            == Expected(value, reload, storageWritable)
  {
    ClientCheckedCodeIsReloaded(list, value, reload);
  }

  /** A whole login: the page ends in the state its expected verdict describes, and an
      admitted student's stored record names them by the trimmed code they typed, since
      the server's reply carries no `nombre`. */
  lemma LoginOutcome(ui: LoginForm.Ui, value: string, list: seq<Json>, reload: AccessServer.Reload,
                     storageWritable: bool)
    ensures var s := Login(ui, value, list, reload, storageWritable);
      match Expected(value, reload, storageWritable)
      case FormatRejected =>
        s.ui.message == Some(LoginForm.Message(JStr(LoginForm.FormatHint), LoginForm.KindError))
        && s.ui.storage == ui.storage && s.list == list
      case Admitted =>
        s.ui.message == Some(LoginForm.Message(JStr(LoginForm.GrantedMessage), LoginForm.KindSuccess))
        && s.ui.navigation == Some(LoginForm.HomeUrl)
        && LoginForm.UserInfoKey in s.ui.storage
        && JsonText.ReadUserInfo(s.ui.storage[LoginForm.UserInfoKey]) == Some((Trim(value), "11"))
      case Refused(shown) =>
        s.ui.message == Some(LoginForm.Message(shown, LoginForm.KindError))
        && s.ui.storage == ui.storage && s.ui.navigation == ui.navigation
      case Failed =>
        s.ui.message == Some(LoginForm.Message(JStr(LoginForm.CallFailedMessage), LoginForm.KindError))
        && s.ui.storage == ui.storage && s.ui.navigation == ui.navigation
  {
    if ValidarFormatoCodigo(Str(Trim(value))) {
      var h := Request(list, value, reload);
      var server := Outcome(h.reply);
      LoginVerdict(list, value, reload, storageWritable);
      LoginForm.SubmitOutcome(ui, value, server, storageWritable);
      if Expected(value, reload, storageWritable).Admitted? {
        AccessServer.ApiValidarReplyShape(list, Some(JStr(Trim(value))), reload);
        LoginForm.StoredUserInfoReadsBack(server.data, Trim(value));
      }
    } else {
      LoginForm.SubmitOutcome(ui, value, LoginForm.CallThrows, storageWritable);
    }
  }

  /** After an admission the name stored for the student, sent to `/redirigir-inicio`,
      is recognised by the list the server now holds. */
  lemma AdmittedThenRedirected(ui: LoginForm.Ui, value: string, list: seq<Json>,
                               reload: AccessServer.Reload, storageWritable: bool)
    requires Expected(value, reload, storageWritable).Admitted?
    ensures var s := Login(ui, value, list, reload, storageWritable);
      AccessServer.RedirigirInicio(s.list, Some(JStr(Trim(value))))
      == AccessServer.Respond(AccessServer.RedirectReply)
  {
    var code := Trim(value);
    var h := Request(list, value, reload);
    ClientCheckedCodeIsReloaded(list, value, reload);
    AccessServer.AdmittedCodeRedirects(list, code, reload);
  }

  /** The list the server reloads from a document the whitelist builder wrote holds a
      code exactly when some complete CSV row has it, once stripped and upper-cased. */
  lemma ReloadedWhitelist(columns: seq<string>, rows: seq<WhitelistBuilder.Row>, existing: Json, today: string)
    requires WhitelistBuilder.UpdateWhitelist(columns, rows, existing, today).Success?
    ensures var doc := WhitelistBuilder.UpdateWhitelist(columns, rows, existing, today).value;
      var l := AccessServer.ReloadedList(AccessServer.ReloadParsed(doc));
      && l.Some?
      && forall c :: JStr(c) in l.value <==>
           exists i :: 0 <= i < |rows| && WhitelistBuilder.Complete(rows[i])
                       && WhitelistBuilder.CleanCode(rows[i].1.value) == c
  {
    WhitelistBuilder.UpdateWhitelistLists(columns, rows, existing, today);
  }

  /** A student whose record is in the CSV gets in: with the builder's document on disk,
      a well-formed code is admitted exactly when a complete row carries it. */
  lemma CsvStudentAdmitted(columns: seq<string>, rows: seq<WhitelistBuilder.Row>, existing: Json,
                           today: string, value: string)
    requires WhitelistBuilder.UpdateWhitelist(columns, rows, existing, today).Success?
    requires ValidarFormatoCodigo(Str(Trim(value)))
    ensures var doc := WhitelistBuilder.UpdateWhitelist(columns, rows, existing, today).value;
      Expected(value, AccessServer.ReloadParsed(doc), true) == LoginForm.Admitted <==>
        exists i :: 0 <= i < |rows| && WhitelistBuilder.Complete(rows[i])
                    && WhitelistBuilder.CleanCode(rows[i].1.value) == Normalize(Trim(value))
  {
    ReloadedWhitelist(columns, rows, existing, today);
  }
}

=== FILE: access_server.dfy ===
/** The two decision handlers of plate_server.js: `POST /api/validar`, which checks a
    student code against a freshly reloaded whitelist, and `POST /redirigir-inicio`, which
    checks a name against the whitelist held in memory. Each is a pure function of the
    request body, the in-memory list and (for `/api/validar`) the outcome of rereading
    data/usuarios.json. */
module AccessServer {
  import opened Wrappers
  import opened Ascii
  import opened JsValues
  import opened JsonData
  import opened CodeFormat

  const RequiredMessage: string := "Código requerido"
  const FormatMessage: string := "El código debe comenzar con IEM seguido de 4 números"
  const InternalMessage: string := "Error interno"
  const AllowedMessage: string := "Código permitido"
  const DeniedMessage: string := "Código no permitido"
  const HomeUrl: string := "/frontend/pages/inicio.html"

  /** What Express sends: a JSON body, or (when the handler throws, as `.trim()` on a
      non-string does) its default error response. */
  datatype Reply = Respond(body: Json) | Crash

  /** Rereading data/usuarios.json: reading or parsing fails, or it parses to a value. */
  datatype Reload = ReloadFails | ReloadParsed(doc: Json)

  /** One `/api/validar` request: the reply, the in-memory `usuarios_permitidos`
      afterwards, and whether the file was reread. */
  datatype Handled = Handled(reply: Reply, list: seq<Json>, reloaded: bool)

  /** The `{permitido, mensaje}` reply. */
  function ValidarReply(permitido: bool, mensaje: string): Json {
    JObj([("permitido", JBool(permitido)), ("mensaje", JStr(mensaje))])
  }

  /** The list a successful reread installs: `usuarios_permitidos` when it is an array,
      otherwise `[]`. `None` when reading the property throws (the file holds `null`). */
  function ReloadedList(reload: Reload): (l: Option<seq<Json>>)
    ensures l.None? <==> reload.ReloadFails? || reload.doc.JNull?
    ensures l.Some? && |l.value| > 0 ==> reload.doc.JObj?
  {
    match reload
    case ReloadFails => None
    case ReloadParsed(doc) =>
      match Member(doc, "usuarios_permitidos")
      case ReadThrows => None
      case Read(v) => if v.Some? && v.value.JArr? then Some(v.value.items) else Some([])
  }

  /** The server's format test on a code it has received as a string. */
  predicate ServerAcceptsFormat(s: string) {
    MatchesCodePattern(Normalize(s))
  }

  /** `POST /api/validar` with `req.body.cod_estudiante` = `cod` (`None` when absent). */
  function ApiValidar(list: seq<Json>, cod: Option<Json>, reload: Reload): (h: Handled)
    ensures !ReadTruthy(cod) ==>
              h == Handled(Respond(ValidarReply(false, RequiredMessage)), list, false)
    ensures ReadTruthy(cod) && !cod.value.JStr? ==> h == Handled(Crash, list, false)
    ensures ReadTruthy(cod) && cod.value.JStr? && !ValidarFormatoCodigo(Str(cod.value.s)) ==>
              h == Handled(Respond(ValidarReply(false, FormatMessage)), list, false)
    ensures h.reloaded <==> cod.Some? && cod.value.JStr? && ValidarFormatoCodigo(Str(cod.value.s))
    ensures h.reloaded && ReloadedList(reload).None? ==>
              h == Handled(Respond(ValidarReply(false, InternalMessage)), list, true)
    ensures h.reloaded && ReloadedList(reload).Some? ==>
              var l := ReloadedList(reload).value;
              var p := JStr(Normalize(cod.value.s)) in l;
              h.list == l
              && h.reply == Respond(ValidarReply(p, if p then AllowedMessage else DeniedMessage))
  {
    if !ReadTruthy(cod) then Handled(Respond(ValidarReply(false, RequiredMessage)), list, false)
    else if !cod.value.JStr? then Handled(Crash, list, false)
    else
      var c := Normalize(cod.value.s);
      assert ServerAcceptsFormat(cod.value.s) == ValidarFormatoCodigo(Str(cod.value.s)) by {
        ServerAgreesWithClient(cod.value.s);
      }
      if !MatchesCodePattern(c) then Handled(Respond(ValidarReply(false, FormatMessage)), list, false)
      else
        match ReloadedList(reload)
        case None => Handled(Respond(ValidarReply(false, InternalMessage)), list, true)
        case Some(l) =>
          var p := JStr(c) in l;
          Handled(Respond(ValidarReply(p, if p then AllowedMessage else DeniedMessage)), l, true)
  }

  /** The server's format test is the client's `validarFormatoCodigo`, on every string:
      both trim, upper-case and match `^IEM\d{4}$`. */
  lemma ServerAgreesWithClient(s: string)
    ensures ServerAcceptsFormat(s) == ValidarFormatoCodigo(Str(s))
  {
    if s == "" {
      assert Trim(s) == "";
    }
  }

  /** The reply of `/api/validar` is always the two-member record: it never carries the
      student's name, and `permitido` is true exactly when the normalised code is in the
      list just reloaded. */
  lemma ApiValidarReplyShape(list: seq<Json>, cod: Option<Json>, reload: Reload)
    requires ApiValidar(list, cod, reload).reply.Respond?
    ensures var h := ApiValidar(list, cod, reload);
      h.reply.body.JObj? && |h.reply.body.fields| == 2
      && h.reply.body.fields[0].0 == "permitido" && h.reply.body.fields[1].0 == "mensaje"
      && Member(h.reply.body, "nombre") == Read(None)
      && (h.reply.body.fields[0].1 == JBool(true) <==>
            h.reloaded && ReloadedList(reload).Some?
            && JStr(Normalize(cod.value.s)) in ReloadedList(reload).value)
  {
  }

  /** The decision does not depend on the list held before the request: whatever was in
      memory, the same body and the same file give the same reply. */
  lemma ApiValidarIgnoresOldList(l1: seq<Json>, l2: seq<Json>, cod: Option<Json>, reload: Reload)
    ensures ApiValidar(l1, cod, reload).reply == ApiValidar(l2, cod, reload).reply
  {
  }

  /** The `/redirigir-inicio` replies. */
  const RedirectReply: Json := JObj([("redirigir", JBool(true)), ("url", JStr(HomeUrl))])
  const StayReply: Json := JObj([("redirigir", JBool(false))])

  /** `POST /redirigir-inicio` with `req.body.nombre` = `nombre` (`None` when absent):
      `?.` stops at `null`/`undefined`; the in-memory list is consulted, not reloaded. */
  function RedirigirInicio(list: seq<Json>, nombre: Option<Json>): (r: Reply)
    ensures r == Respond(RedirectReply) <==>
              nombre.Some? && nombre.value.JStr? && Normalize(nombre.value.s) != ""
              && JStr(Normalize(nombre.value.s)) in list
    ensures r.Crash? <==> nombre.Some? && !nombre.value.JNull? && !nombre.value.JStr?
    ensures r.Respond? ==> r.body == RedirectReply || r.body == StayReply
  {
    if nombre.None? || nombre.value.JNull? then Respond(StayReply)
    else if !nombre.value.JStr? then Crash
    else
      var n := Normalize(nombre.value.s);
      if n != "" && JStr(n) in list then Respond(RedirectReply) else Respond(StayReply)
  }

  /** A code admitted by `/api/validar` is recognised by `/redirigir-inicio` until the
      list changes again, whether the name sent is the code as typed or already
      normalised. */
  lemma AdmittedCodeRedirects(list: seq<Json>, s: string, reload: Reload)
    requires var h := ApiValidar(list, Some(JStr(s)), reload);
      h.reply.Respond? && h.reply.body == ValidarReply(true, AllowedMessage)
    ensures var h := ApiValidar(list, Some(JStr(s)), reload);
      RedirigirInicio(h.list, Some(JStr(s))) == Respond(RedirectReply)
      && RedirigirInicio(h.list, Some(JStr(Normalize(s)))) == Respond(RedirectReply)
  {
    var h := ApiValidar(list, Some(JStr(s)), reload);
    assert ValidarReply(true, AllowedMessage) != ValidarReply(false, InternalMessage);
    assert h.reloaded;
    assert MatchesCodePattern(Normalize(s)) by { ServerAgreesWithClient(s); }
    NormalizeIdempotent(s);
  }

  /** A whitelist file whose list is not an array admits nobody. */
  lemma NonArrayListAdmitsNobody(list: seq<Json>, cod: Option<Json>, doc: Json)
    requires doc.JObj? && (Member(doc, "usuarios_permitidos").v.None?
                           || !Member(doc, "usuarios_permitidos").v.value.JArr?)
    ensures var h := ApiValidar(list, cod, ReloadParsed(doc));
      h.reply.Respond? ==> h.reply.body.fields[0].1 == JBool(false)
  {
  }
}

=== FILE: ascii.dfy ===
/** Character classes and the two string normalisations (trim and upper-case) that the
    portal applies to student codes and names, both in JavaScript (`trim`, `toUpperCase`,
    regular-expression `\s`, `\d`, `\w`) and in Python (`str.strip`, `str.upper`).
    Only the ASCII behaviour is modelled. */
module Ascii {

  /** Which language's notion of whitespace a trim uses. */
  datatype Whitespace = JsWhitespace | PyWhitespace

  /** ASCII whitespace as matched by JavaScript's `\s` and removed by `String.prototype.trim`. */
  predicate IsJsSpace(c: char) {
    c == ' ' || c == '\t' || c == '\n' || c == '\U{000B}' || c == '\U{000C}' || c == '\r'
  }

  /** ASCII whitespace removed by Python's `str.strip()`: the JavaScript set plus the four
      information separators U+001C..U+001F, which Python also counts as whitespace. */
  predicate IsPySpace(c: char) {
    IsJsSpace(c) || ('\U{001C}' <= c <= '\U{001F}')
  }

  predicate IsWs(w: Whitespace, c: char) {
    match w
    case JsWhitespace => IsJsSpace(c)
    case PyWhitespace => IsPySpace(c)
  }

  /** Regular-expression `\d`. */
  predicate IsDigit(c: char) {
    '0' <= c <= '9'
  }

  predicate IsLowerLetter(c: char) {
    'a' <= c <= 'z'
  }

  predicate IsUpperLetter(c: char) {
    'A' <= c <= 'Z'
  }

  /** Regular-expression `\w`. */
  predicate IsWordChar(c: char) {
    IsLowerLetter(c) || IsUpperLetter(c) || IsDigit(c) || c == '_'
  }

  /** A string made only of whitespace of flavour `w` (possibly empty). */
  predicate AllWs(w: Whitespace, s: string) {
    forall i :: 0 <= i < |s| ==> IsWs(w, s[i])
  }

  /** `toUpperCase`/`upper` on one character: ASCII lower-case letters move to upper
      case, every other character is kept. */
  function UpperChar(c: char): (u: char)
    ensures IsLowerLetter(c) ==> IsUpperLetter(u)
    ensures !IsLowerLetter(c) ==> u == c
    ensures !IsLowerLetter(u)
  {
    if IsLowerLetter(c) then (c as int - 32) as char else c
  }

  function ToUpper(s: string): (r: string)
    ensures |r| == |s|
    ensures forall i {:trigger r[i]} :: 0 <= i < |s| ==> r[i] == UpperChar(s[i])
  {
    seq(|s|, i requires 0 <= i < |s| => UpperChar(s[i]))
  }

  /** The regular expression `\s*` run from position `i`: the first position at or after
      `i` that does not hold whitespace. */
  function SkipWs(w: Whitespace, s: string, i: nat): (j: nat)
    requires i <= |s|
    ensures i <= j <= |s|
    ensures forall m :: i <= m < j ==> IsWs(w, s[m])
    ensures j < |s| ==> !IsWs(w, s[j])
    decreases |s| - i
  {
    if i < |s| && IsWs(w, s[i]) then SkipWs(w, s, i + 1) else i
  }

  /** `SkipWs` is determined by its contract: a whitespace run from `i` that stops at a
      non-whitespace character (or the end) is exactly what it skips. */
  lemma {:induction false} SkipWsExact(w: Whitespace, s: string, i: nat, j: nat)
    requires i <= j <= |s|
    requires forall m :: i <= m < j ==> IsWs(w, s[m])
    requires j < |s| ==> !IsWs(w, s[j])
    ensures SkipWs(w, s, i) == j
    decreases j - i
  {
    if i < j {
      SkipWsExact(w, s, i + 1, j);
    }
  }

  /** The whitespace run that ends at position `j`, scanned backwards: the first
      position from which only whitespace lies up to `j`. */
  function SkipWsBack(w: Whitespace, s: string, j: nat): (i: nat)
    requires j <= |s|
    ensures i <= j
    ensures forall m :: i <= m < j ==> IsWs(w, s[m])
    ensures 0 < i ==> !IsWs(w, s[i - 1])
    decreases j
  {
    if j > 0 && IsWs(w, s[j - 1]) then SkipWsBack(w, s, j - 1) else j
  }

  /** `SkipWsBack` is determined by its contract. */
  lemma {:induction false} SkipWsBackExact(w: Whitespace, s: string, i: nat, j: nat)
    requires i <= j <= |s|
    requires forall m :: i <= m < j ==> IsWs(w, s[m])
    requires 0 < i ==> !IsWs(w, s[i - 1])
    ensures SkipWsBack(w, s, j) == i
    decreases j - i
  {
    if i < j {
      SkipWsBackExact(w, s, i, j - 1);
    }
  }

  /** Number of whitespace characters at the start of `s`. */
  function LeadingWs(w: Whitespace, s: string): (n: nat)
    ensures n <= |s|
    ensures forall m :: 0 <= m < n ==> IsWs(w, s[m])
    ensures n < |s| ==> !IsWs(w, s[n])
  {
    SkipWs(w, s, 0)
  }

  /** `trim()` / `strip()`: the infix of `s` left after removing whitespace at both ends.
      The contract pins it down completely: it starts after the leading whitespace, only
      whitespace follows it, and it neither starts nor ends with whitespace. */
  function TrimBy(w: Whitespace, s: string): (r: string)
    ensures LeadingWs(w, s) + |r| <= |s|
    ensures forall j :: 0 <= j < |r| ==> r[j] == s[LeadingWs(w, s) + j]
    ensures forall m :: LeadingWs(w, s) + |r| <= m < |s| ==> IsWs(w, s[m])
    ensures |r| == 0 || (!IsWs(w, r[0]) && !IsWs(w, r[|r| - 1]))
  {
    var a := LeadingWs(w, s);
    var e := SkipWsBack(w, s, |s|);
    if e <= a then [] else s[a..e]
  }

  /** JavaScript `String.prototype.trim` (ASCII whitespace). */
  function Trim(s: string): string {
    TrimBy(JsWhitespace, s)
  }

  /** Python `str.strip()` (ASCII whitespace). */
  function Strip(s: string): string {
    TrimBy(PyWhitespace, s)
  }

  /** Trim is determined by its shape, stated on positions: when `s` holds whitespace
      only outside `[i, j)` and `s[i..j]` has no whitespace at its ends, trimming yields
      `s[i..j]`. */
  lemma TrimUniqueAt(w: Whitespace, s: string, i: nat, j: nat)
    requires i <= j <= |s|
    requires forall m :: 0 <= m < i ==> IsWs(w, s[m])
    requires forall m :: j <= m < |s| ==> IsWs(w, s[m])
    requires i < j ==> !IsWs(w, s[i]) && !IsWs(w, s[j - 1])
    ensures TrimBy(w, s) == s[i..j]
  {
    if i == j {
      SkipWsExact(w, s, 0, |s|);
    } else {
      SkipWsExact(w, s, 0, i);
      SkipWsBackExact(w, s, j, |s|);
    }
  }

  /** Trim is determined by its shape: whatever whitespace surrounds a string without
      whitespace at its ends is exactly what trimming removes. */
  lemma TrimUnique(w: Whitespace, a: string, r: string, b: string, s: string)
    requires s == a + r + b
    requires AllWs(w, a) && AllWs(w, b)
    requires |r| == 0 || (!IsWs(w, r[0]) && !IsWs(w, r[|r| - 1]))
    ensures TrimBy(w, s) == r
  {
    var i, j := |a|, |a| + |r|;
    assert forall m :: 0 <= m < i ==> s[m] == a[m];
    assert forall m :: j <= m < |s| ==> s[m] == b[m - j];
    assert forall m :: i <= m < j ==> s[m] == r[m - i];
    assert s[i..j] == r;
    TrimUniqueAt(w, s, i, j);
  }

  /** A string already without whitespace at its ends is its own trim. */
  lemma TrimOfTrimmed(w: Whitespace, s: string)
    requires |s| == 0 || (!IsWs(w, s[0]) && !IsWs(w, s[|s| - 1]))
    ensures TrimBy(w, s) == s
  {
    TrimUniqueAt(w, s, 0, |s|);
  }

  /** Trimming twice is the same as trimming once. */
  lemma TrimIdempotent(w: Whitespace, s: string)
    ensures TrimBy(w, TrimBy(w, s)) == TrimBy(w, s)
  {
    TrimOfTrimmed(w, TrimBy(w, s));
  }

  /** A string trims to nothing exactly when it is all whitespace. */
  lemma TrimEmptyIffBlank(w: Whitespace, s: string)
    ensures TrimBy(w, s) == [] <==> AllWs(w, s)
  {
    var r := TrimBy(w, s);
    var l := LeadingWs(w, s);
    if AllWs(w, s) {
      SkipWsExact(w, s, 0, |s|);
    }
    if |r| > 0 {
      assert !IsWs(w, s[l]);
    }
  }

  /** Upper-casing keeps whitespace where it is, so it commutes with trimming. */
  lemma TrimUpperCommute(w: Whitespace, s: string)
    ensures TrimBy(w, ToUpper(s)) == ToUpper(TrimBy(w, s))
  {
    var l, n := LeadingWs(w, s), |TrimBy(w, s)|;
    UpperOfTrimmed(w, s);
    UpperKeepsWsRun(w, s, 0, l);
    UpperKeepsWsRun(w, s, l + n, |s|);
    TrimUniqueAt(w, ToUpper(s), l, l + n);
  }

  /** Upper-casing `s` upper-cases its trimmed part in place, whose ends stay
      non-whitespace. */
  lemma UpperOfTrimmed(w: Whitespace, s: string)
    ensures var l, t := LeadingWs(w, s), TrimBy(w, s);
      && ToUpper(s)[l..l + |t|] == ToUpper(t)
      && (|t| > 0 ==> !IsWs(w, ToUpper(s)[l]) && !IsWs(w, ToUpper(s)[l + |t| - 1]))
  {
    var t := TrimBy(w, s);
    var l := LeadingWs(w, s);
    var u := ToUpper(s);
    assert u[l..l + |t|] == ToUpper(t) by {
      assert forall m :: 0 <= m < |t| ==> u[l + m] == ToUpper(t)[m];
    }
    if |t| > 0 {
      assert u[l] == UpperChar(s[l]) && u[l + |t| - 1] == UpperChar(s[l + |t| - 1]);
    }
  }

  /** Upper-casing leaves a run of whitespace whitespace. */
  lemma UpperKeepsWsRun(w: Whitespace, s: string, i: nat, j: nat)
    requires i <= j <= |s|
    requires forall m :: i <= m < j ==> IsWs(w, s[m])
    ensures forall m :: i <= m < j ==> IsWs(w, ToUpper(s)[m])
  {
  }

  /** Upper-casing works character by character. */
  lemma UpperConcat(a: string, b: string)
    ensures ToUpper(a + b) == ToUpper(a) + ToUpper(b)
  {
  }

  /** Upper-casing twice is the same as once. */
  lemma UpperIdempotent(s: string)
    ensures ToUpper(ToUpper(s)) == ToUpper(s)
  {
  }
}

=== FILE: code_format.dfy ===
/** The student-code format check of frontend/js/validacion.js (`validarFormatoCodigo`):
    a code is `IEM` followed by exactly four decimal digits, compared after trimming and
    upper-casing the input. */
module CodeFormat {
  import opened Ascii
  import opened JsValues

  /** The regular expression `^IEM\d{4}$` without flags: `$` matches only at the end of
      the input, and `\d` is an ASCII digit. */
  predicate MatchesCodePattern(c: string) {
    |c| == 7 && c[..3] == "IEM" && forall i :: 3 <= i < 7 ==> IsDigit(c[i])
  }

  /** The normalisation applied to a submitted code: `trim()` then `toUpperCase()`. */
  function Normalize(s: string): string {
    ToUpper(Trim(s))
  }

  /** Independent reading of the format on the raw (trimmed, not upper-cased) input:
      seven characters, the first three `i`/`I`, `e`/`E`, `m`/`M` in either case, the
      last four ASCII digits. */
  predicate CaseInsensitiveCode(t: string) {
    && |t| == 7
    && (t[0] == 'i' || t[0] == 'I')
    && (t[1] == 'e' || t[1] == 'E')
    && (t[2] == 'm' || t[2] == 'M')
    && forall i :: 3 <= i < 7 ==> IsDigit(t[i])
  }

  /** `validarFormatoCodigo(cod_estudiante)`: false, without throwing, for a falsy or
      non-string argument; otherwise whether the normalised string is a code. */
  function ValidarFormatoCodigo(v: JsValue): (ok: bool)
    ensures !v.Str? ==> !ok
    ensures v == Str("") ==> !ok
    ensures ok <==> v.Str? && CaseInsensitiveCode(Trim(v.s))
  {
    var ok := Truthy(v) && v.Str? && MatchesCodePattern(Normalize(v.s));
    assert v.Str? ==> (MatchesCodePattern(Normalize(v.s)) <==> CaseInsensitiveCode(Trim(v.s))) by {
      if v.Str? { PatternOfUpper(Trim(v.s)); }
    }
    ok
  }

  /** Upper-casing then matching `^IEM\d{4}$` is matching the case-insensitive shape. */
  lemma PatternOfUpper(t: string)
    ensures MatchesCodePattern(ToUpper(t)) <==> CaseInsensitiveCode(t)
  {
    var u := ToUpper(t);
    if |t| == 7 {
      assert u[..3] == "IEM" <==> u[0] == 'I' && u[1] == 'E' && u[2] == 'M';
      assert forall i :: 3 <= i < 7 ==> (IsDigit(u[i]) <==> IsDigit(t[i]));
    }
  }

  /** Normalising is idempotent, so a normalised code is still accepted and a rejected
      one stays rejected. */
  lemma NormalizeIdempotent(s: string)
    ensures Normalize(Normalize(s)) == Normalize(s)
  {
    var t := Trim(s);
    TrimUpperCommute(JsWhitespace, t);
    TrimIdempotent(JsWhitespace, s);
    UpperIdempotent(t);
  }

  /** Validation depends on the input only through its normalised form. */
  lemma ValidarDependsOnNormalForm(s: string)
    ensures ValidarFormatoCodigo(Str(Normalize(s))) == ValidarFormatoCodigo(Str(s))
  {
    ValidarOfString(Normalize(s));
    ValidarOfString(s);
    NormalizeIdempotent(s);
  }

  /** On a string the verdict is the pattern test of its normalised form. */
  lemma ValidarOfString(s: string)
    ensures ValidarFormatoCodigo(Str(s)) == MatchesCodePattern(Normalize(s))
  {
  }

  /** An accepted input normalises to `IEM` followed by four digits. */
  lemma AcceptedIsPrefixAndDigits(s: string)
    requires ValidarFormatoCodigo(Str(s))
    ensures Normalize(s) == "IEM" + Normalize(s)[3..]
    ensures |Normalize(s)[3..]| == 4
    ensures forall i :: 0 <= i < 4 ==> IsDigit(Normalize(s)[3..][i])
  {
  }

  /** Blanks around a code are ignored: whitespace before and after a string of the
      code shape does not change the verdict. */
  lemma AcceptsSurroundingBlanks(a: string, c: string, b: string)
    requires AllWs(JsWhitespace, a) && AllWs(JsWhitespace, b)
    requires CaseInsensitiveCode(c)
    ensures ValidarFormatoCodigo(Str(a + c + b))
  {
    TrimUnique(JsWhitespace, a, c, b, a + c + b);
  }

  /** A string whose trimmed form is not seven characters long is rejected. */
  lemma RejectsWrongLength(s: string)
    requires |Trim(s)| != 7
    ensures !ValidarFormatoCodigo(Str(s))
  {
  }

  /** Lower case is accepted. */
  lemma AcceptsLowerCase()
    ensures ValidarFormatoCodigo(Str("iem1234"))
  {
    var c := "iem1234";
    assert CaseInsensitiveCode(c);
    AcceptsSurroundingBlanks("", c, "");
    assert "" + c + "" == c;
  }

  /** Blanks around an upper-case code are accepted. */
  lemma AcceptsPaddedExample()
    ensures ValidarFormatoCodigo(Str("  IEM1234 "))
  {
    var c := "IEM1234";
    assert "  " + c + " " == "  IEM1234 ";
    assert CaseInsensitiveCode(c) && AllWs(JsWhitespace, "  ") && AllWs(JsWhitespace, " ");
    AcceptsSurroundingBlanks("  ", c, " ");
  }

  /** Three digits are too few. */
  lemma RejectsShortTail()
    ensures !ValidarFormatoCodigo(Str("IEM123"))
  {
    TrimOfTrimmed(JsWhitespace, "IEM123");
    RejectsWrongLength("IEM123");
  }

  /** Five digits are too many. */
  lemma RejectsLongTail()
    ensures !ValidarFormatoCodigo(Str("IEM12345"))
  {
    TrimOfTrimmed(JsWhitespace, "IEM12345");
    RejectsWrongLength("IEM12345");
  }

  /** Letters after `IEM` are not digits. */
  lemma RejectsLetterTail()
    ensures !ValidarFormatoCodigo(Str("IEMABCD"))
  {
    var s := "IEMABCD";
    assert Trim(s) == s by {
      TrimOfTrimmed(JsWhitespace, s);
    }
    assert !IsDigit(s[3]);
  }

  /** Blank input and non-string input are rejected. */
  lemma RejectsBlankAndNonString()
    ensures !ValidarFormatoCodigo(Str("   "))
    ensures !ValidarFormatoCodigo(Undefined)
    ensures !ValidarFormatoCodigo(Other(true))
  {
    TrimEmptyIffBlank(JsWhitespace, "   ");
    RejectsWrongLength("   ");
  }
}

=== FILE: component_loader.dfy ===
/** The fragment loader of frontend/js/shared/components.js: `loadComponent` with its
    module-level cache, `clearComponentCache`, `reloadComponent`, the result mapping of
    `loadMultipleComponents`, and the options `initComponents` derives from an element's
    `data-*` attributes. The DOM is reduced to the HTML held by each container id, the
    network to the outcome of the one `fetch` a load may issue. */
module ComponentLoader {
  import opened Wrappers
  import opened Fields
  import opened JsValues
  import Template
  import PropertyOrder
  import TemplateScan

  /** The `data` option: left out (it then defaults to `{}`), `null`, or an object. */
  datatype DataOption = DataUnset | DataNull | DataGiven(d: Template.Data)

  /** The `options` argument: left out (it then defaults to `{}`), `null` (destructuring it
      throws), or an object with the three options that shape the result. */
  datatype OptionsArg =
    | OptionsUnset
    | OptionsNull
    | Options(data: DataOption, cache: JsValue, append: JsValue)

  /** The loader's world: the component cache (path to fetched text) and the HTML of every
      element of the page that has an id. */
  datatype Loader = Loader(cache: map<string, string>, page: map<string, string>)

  /** What `fetch(componentPath)` and `response.text()` give: the text, a response that is
      not `ok`, or a rejected promise. */
  datatype Fetch = Fetched(text: string) | HttpError(status: int) | FetchFails

  /** How the promise `loadComponent` returns settles. */
  datatype Outcome = Resolved(ok: bool) | Rejected

  /** One call of `loadComponent`: how it settles, the world after it, and whether it
      issued a `fetch`. */
  datatype Load = Load(outcome: Outcome, after: Loader, fetched: bool)

  /** The options after destructuring with their defaults. */
  function Defaults(options: OptionsArg): OptionsArg
    requires !options.OptionsNull?
  {
    if options.OptionsUnset? then Options(DataUnset, Undefined, Undefined) else options
  }

  /** `cache = true`: a default that applies only when the option is `undefined`. */
  predicate CacheOn(cache: JsValue) {
    cache.Undefined? || Truthy(cache)
  }

  /** `data = {}`, as `processTemplate` receives it (`None` for `null`). */
  function TemplateData(data: DataOption): Option<Template.Data> {
    match data
    case DataUnset => Some([])
    case DataNull => None
    case DataGiven(d) => Some(d)
  }

  /** The error paragraph the `catch` block writes into the container. */
  function ErrorHtml(path: string): string {
    "<p style=\"color:red;\">Error al cargar " + path + ". Ver consola.</p>"
  }

  /** `containerId` and `componentPath` are non-empty strings and the container exists:
      the guards `loadComponent` passes before it looks at the cache. */
  predicate Accepts(st: Loader, containerId: JsValue, componentPath: JsValue, options: OptionsArg) {
    !options.OptionsNull?
    && containerId.Str? && containerId.s != ""
    && componentPath.Str? && componentPath.s != ""
    && containerId.s in st.page
  }

  /** An accepted call finds its component in the cache. */
  predicate Hit(st: Loader, componentPath: JsValue, options: OptionsArg)
    requires !options.OptionsNull?
  {
    componentPath.Str? && CacheOn(Defaults(options).cache) && componentPath.s in st.cache
  }

  /** What the container shows once the component text is rendered: the processed
      template, after the old HTML when `append` is set. */
  function Shown(before: string, text: string, o: OptionsArg): (html: string)
    requires o.Options?
  {
    var processed := Template.ProcessTemplate(text, TemplateData(o.data));
    if Truthy(o.append) then before + processed else processed
  }

  /** The world after an accepted call: the cache as given, and the container showing
      `html`. */
  function Place(cache: map<string, string>, st: Loader, id: string, html: string): Loader {
    Loader(cache, st.page[id := html])
  }

  /** `loadComponent(containerId, componentPath, options)`. `settles` says whether
      running the component's scripts and the `onLoad` callback completes without
      throwing; a throw there is caught like a failed fetch, after the cache has been
      written. */
  function LoadComponent(st: Loader, containerId: JsValue, componentPath: JsValue,
                         options: OptionsArg, fetch: Fetch, settles: bool): (r: Load)
    ensures r.outcome.Rejected? <==> options.OptionsNull?
    ensures !Accepts(st, containerId, componentPath, options) ==>
              r.after == st && !r.fetched && r.outcome != Resolved(true)
    ensures Accepts(st, containerId, componentPath, options) ==>
              (r.fetched <==> !Hit(st, componentPath, options))
    ensures r.after.page.Keys == st.page.Keys
    ensures forall id :: id in st.page && Str(id) != containerId ==> r.after.page[id] == st.page[id]
    ensures Accepts(st, containerId, componentPath, options) ==>
              r.after.cache == st.cache
              || (r.fetched && fetch.Fetched? && CacheOn(Defaults(options).cache)
                  && r.after.cache == st.cache[componentPath.s := fetch.text])
    ensures Accepts(st, containerId, componentPath, options) && r.fetched && !fetch.Fetched? ==>
              r.outcome == Resolved(false) && r.after.cache == st.cache
              && r.after.page[containerId.s] == ErrorHtml(componentPath.s)
    ensures r.outcome == Resolved(true) <==>
              Accepts(st, containerId, componentPath, options)
              && (Hit(st, componentPath, options) || fetch.Fetched?) && settles
  {
    if options.OptionsNull? then Load(Rejected, st, false)
    else
      var o := Defaults(options);
      if !Truthy(containerId) || !containerId.Str? then Load(Resolved(false), st, false)
      else if !Truthy(componentPath) || !componentPath.Str? then Load(Resolved(false), st, false)
      else
        var id, path := containerId.s, componentPath.s;
        if id !in st.page then Load(Resolved(false), st, false)
        else if CacheOn(o.cache) && path in st.cache then
          Render(st.cache, st, id, path, st.cache[path], o, settles, false)
        else
          match fetch
          case Fetched(text) =>
            var cache := if CacheOn(o.cache) then st.cache[path := text] else st.cache;
            Render(cache, st, id, path, text, o, settles, true)
          case _ => Load(Resolved(false), Place(st.cache, st, id, ErrorHtml(path)), true)
  }

  /** The end of an accepted call that has the component text: insert it, then run the
      scripts and the callback. */
  function Render(cache: map<string, string>, st: Loader, id: string, path: string,
                  text: string, o: OptionsArg, settles: bool, fetched: bool): (r: Load)
    requires o.Options? && id in st.page
    ensures r.after.cache == cache && !r.outcome.Rejected? && r.fetched == fetched
  {
    if settles then Load(Resolved(true), Place(cache, st, id, Shown(st.page[id], text, o)), fetched)
    else Load(Resolved(false), Place(cache, st, id, ErrorHtml(path)), fetched)
  }

  /** A successful call shows the component text in its container: the cached text on a
      hit, the fetched text otherwise. */
  lemma LoadShowsText(st: Loader, containerId: JsValue, componentPath: JsValue,
                      options: OptionsArg, fetch: Fetch, settles: bool)
    requires LoadComponent(st, containerId, componentPath, options, fetch, settles).outcome
             == Resolved(true)
    ensures Accepts(st, containerId, componentPath, options)
    ensures var r := LoadComponent(st, containerId, componentPath, options, fetch, settles);
      var text := if Hit(st, componentPath, options) then st.cache[componentPath.s] else fetch.text;
      r.after.page[containerId.s] == Shown(st.page[containerId.s], text, Defaults(options))
  {
  }

  /** A successful call with the cache on leaves the component cached under its path, and
      a second call for the same path is then served from the cache: it issues no fetch,
      whatever the network would do, and renders the same text. */
  lemma SecondLoadHits(st: Loader, containerId: JsValue, componentPath: JsValue,
                       options: OptionsArg, fetch: Fetch, settles: bool,
                       containerId2: JsValue, options2: OptionsArg, fetch2: Fetch, settles2: bool)
    requires !options.OptionsNull? && CacheOn(Defaults(options).cache)
    requires LoadComponent(st, containerId, componentPath, options, fetch, settles).outcome
             == Resolved(true)
    requires !options2.OptionsNull? && CacheOn(Defaults(options2).cache)
    requires var st1 := LoadComponent(st, containerId, componentPath, options, fetch, settles).after;
      Accepts(st1, containerId2, componentPath, options2)
    ensures var st1 := LoadComponent(st, containerId, componentPath, options, fetch, settles).after;
      var text := if Hit(st, componentPath, options) then st.cache[componentPath.s] else fetch.text;
      var r := LoadComponent(st1, containerId2, componentPath, options2, fetch2, settles2);
      componentPath.s in st1.cache && st1.cache[componentPath.s] == text
      && !r.fetched
      && (settles2 ==> r.after.page[containerId2.s]
                       == Shown(st1.page[containerId2.s], text, Defaults(options2)))
  {
  }

  /** `clearComponentCache(componentPath)`: a truthy argument deletes that key (a key that
      is not a string is never present); a falsy one, or none, empties the cache. */
  function ClearComponentCache(cache: map<string, string>, componentPath: JsValue): (r: map<string, string>)
    ensures !Truthy(componentPath) ==> r == map[]
    ensures Truthy(componentPath) ==> r.Keys <= cache.Keys
    ensures componentPath.Str? ==> componentPath.s !in r
    ensures Truthy(componentPath) ==>
              forall k :: k in cache && (!componentPath.Str? || k != componentPath.s) ==>
                k in r && r[k] == cache[k]
  {
    if Truthy(componentPath) then
      if componentPath.Str? then cache - {componentPath.s} else cache
    else map[]
  }

  /** The options `reloadComponent` passes on: `{...options, cache: false}`. Spreading
      `null` or nothing gives an empty object, so only `cache` is set then. */
  function NoCache(options: OptionsArg): (o: OptionsArg)
    ensures o.Options? && !CacheOn(o.cache)
    ensures options.Options? ==> o.data == options.data && o.append == options.append
  {
    match options
    case Options(data, _, append) => Options(data, Bool(false), append)
    case _ => Options(DataUnset, Bool(false), Undefined)
  }

  /** `reloadComponent(containerId, componentPath, options)`: clear the path from the
      cache, then load with the cache off. */
  function ReloadComponent(st: Loader, containerId: JsValue, componentPath: JsValue,
                           options: OptionsArg, fetch: Fetch, settles: bool): (r: Load)
  {
    var cleared := Loader(ClearComponentCache(st.cache, componentPath), st.page);
    LoadComponent(cleared, containerId, componentPath, NoCache(options), fetch, settles)
  }

  /** A reload that gets past the guards always fetches, never rejects, and leaves the
      path out of the cache afterwards, whatever the fetch gives; every other cache entry
      is kept. */
  lemma ReloadAlwaysFetches(st: Loader, containerId: JsValue, componentPath: JsValue,
                            options: OptionsArg, fetch: Fetch, settles: bool)
    requires containerId.Str? && containerId.s != "" && containerId.s in st.page
    requires componentPath.Str? && componentPath.s != ""
    ensures var r := ReloadComponent(st, containerId, componentPath, options, fetch, settles);
      r.fetched && !r.outcome.Rejected? && componentPath.s !in r.after.cache
      && r.after.cache == st.cache - {componentPath.s}
      && (r.outcome == Resolved(true) <==> fetch.Fetched? && settles)
  {
  }

  /** A reload never adds anything to the cache. */
  lemma ReloadNeverCaches(st: Loader, containerId: JsValue, componentPath: JsValue,
                          options: OptionsArg, fetch: Fetch, settles: bool)
    ensures var r := ReloadComponent(st, containerId, componentPath, options, fetch, settles);
      r.after.cache.Keys <= st.cache.Keys
      && (componentPath.Str? ==> componentPath.s !in r.after.cache)
  {
  }

  /** An entry of the array given to `loadMultipleComponents`: `null`/`undefined` (reading
      its properties throws), or anything else, seen through the three properties the
      code reads (`undefined` where a primitive or object lacks them). */
  datatype Entry = NullishEntry | Config(containerId: JsValue, componentPath: JsValue, options: OptionsArg)

  /** The `components` argument: not an array, or an array of entries. */
  datatype Components = NotArray | Entries(entries: seq<Entry>)

  /** What `loadMultipleComponents` settles to: the per-entry booleans, or a rejection
      when mapping over the entries throws. */
  datatype MultiResult = Results(oks: seq<bool>) | MultiRejected

  /** The check `loadMultipleComponents` makes before calling `loadComponent`. */
  predicate ValidEntry(e: Entry)
    requires e.Config?
  {
    Truthy(e.containerId) && Truthy(e.componentPath)
  }

  /** `loadMultipleComponents(components)`, given how each entry's `loadComponent` call
      settles (`loads[i]` for entry `i`; ignored for invalid entries, which are not
      loaded). */
  function LoadMultiple(components: Components, loads: seq<Outcome>): (r: MultiResult)
    requires components.Entries? ==> |loads| == |components.entries|
    ensures components.NotArray? ==> r == Results([])
    ensures components.Entries? ==>
              (r.MultiRejected? <==> exists i :: 0 <= i < |components.entries|
                                                  && components.entries[i].NullishEntry?)
    ensures components.Entries? && r.Results? ==>
              |r.oks| == |components.entries|
              && forall i :: 0 <= i < |r.oks| ==>
                   (r.oks[i] <==> ValidEntry(components.entries[i]) && loads[i] == Resolved(true))
  {
    match components
    case NotArray => Results([])
    case Entries(entries) =>
      if exists i :: 0 <= i < |entries| && entries[i].NullishEntry? then MultiRejected
      else Results(Settle(entries, loads, 0))
  }

  /** `results.map(r => r.status === 'fulfilled' && r.value === true)` over the settled
      promises from index `i` on; an invalid entry's promise is `Promise.resolve(false)`. */
  function Settle(entries: seq<Entry>, loads: seq<Outcome>, i: nat): (oks: seq<bool>)
    requires |loads| == |entries| && i <= |entries|
    requires forall j :: 0 <= j < |entries| ==> entries[j].Config?
    ensures |oks| == |entries| - i
    ensures forall j :: i <= j < |entries| ==>
              (oks[j - i] <==> ValidEntry(entries[j]) && loads[j] == Resolved(true))
    decreases |entries| - i
  {
    if i == |entries| then []
    else [ValidEntry(entries[i]) && loads[i] == Resolved(true)] + Settle(entries, loads, i + 1)
  }

  /** An entry's result depends on that entry alone: replacing entry `k` by another
      non-nullish one, with its own outcome, changes no other result. */
  lemma LoadMultipleIndependent(entries: seq<Entry>, loads: seq<Outcome>, k: nat, e: Entry, o: Outcome)
    requires |loads| == |entries| && k < |entries| && e.Config?
    requires LoadMultiple(Entries(entries), loads).Results?
    ensures var r1 := LoadMultiple(Entries(entries), loads);
      var r2 := LoadMultiple(Entries(entries[k := e]), loads[k := o]);
      r2.Results? && |r2.oks| == |r1.oks|
      && forall i :: 0 <= i < |entries| && i != k ==> r2.oks[i] == r1.oks[i]
  {
    var es := entries[k := e];
    assert LoadMultiple(Entries(entries), loads).Results?;
    forall i | 0 <= i < |es|
      ensures es[i].Config?
    {
      if i != k {
        assert !entries[i].NullishEntry?;
      }
    }
  }

  /** A true result comes only from an entry whose load succeeded, and so (the loader's
      own guards) names an existing container and a non-empty path. */
  lemma LoadMultipleTrueMeansLoaded(st: Loader, entries: seq<Entry>, fetches: seq<Fetch>,
                                    settles: seq<bool>, i: nat)
    requires |fetches| == |entries| && |settles| == |entries| && i < |entries|
    requires forall j :: 0 <= j < |entries| ==> entries[j].Config?
    ensures var loads := seq(|entries|, j requires 0 <= j < |entries| =>
                             LoadComponent(st, entries[j].containerId, entries[j].componentPath,
                                           entries[j].options, fetches[j], settles[j]).outcome);
      var r := LoadMultiple(Entries(entries), loads);
      r.Results? && (r.oks[i] ==> Accepts(st, entries[i].containerId, entries[i].componentPath,
                                           entries[i].options))
  {
  }

  /** An element carrying `data-component`: its `id` (possibly empty) and its `dataset`,
      the `data-*` attributes by their camel-cased names. */
  datatype Element = Element(id: string, dataset: seq<(string, string)>)

  /** The three `data-*` attributes that steer the loader instead of feeding the
      template. */
  predicate IsControlKey(k: string) {
    k == "component" || k == "cache" || k == "append"
  }

  /** The assignments `data[key] = dataset[key]` in the order `initComponents` makes
      them: every attribute but the control ones, as a string value, in dataset order. */
  function DataAssigned(dataset: seq<(string, string)>): (d: Template.Data)
    ensures forall i :: 0 <= i < |d| ==> !IsControlKey(d[i].0) && d[i].1.VPrim? && d[i].1.p.PStr?
    ensures forall k :: !IsControlKey(k) ==>
              Find(d, k) == (match Find(dataset, k)
                             case Some(v) => Some(Template.VPrim(Template.PStr(v)))
                             case None => None)
    ensures forall k :: IsControlKey(k) ==> Find(d, k).None?
    decreases |dataset|
  {
    if |dataset| == 0 then []
    else
      var rest := DataAssigned(dataset[1..]);
      if IsControlKey(dataset[0].0) then rest
      else [(dataset[0].0, Template.VPrim(Template.PStr(dataset[0].1)))] + rest
  }

  /** The template data built from a dataset, as `processTemplate` walks it with
      `Object.keys`: the keys that are array indices (`data-0`, `data-12`) first and
      ascending, then the other attributes in dataset order; every attribute but the
      control ones, bound to its string value. */
  function TemplateDataOf(dataset: seq<(string, string)>): (d: Template.Data)
    ensures forall i :: 0 <= i < |d| ==> !IsControlKey(d[i].0) && d[i].1.VPrim? && d[i].1.p.PStr?
    ensures forall k :: !IsControlKey(k) ==>
              Find(d, k) == (match Find(dataset, k)
                             case Some(v) => Some(Template.VPrim(Template.PStr(v)))
                             case None => None)
    ensures forall k :: IsControlKey(k) ==> Find(d, k).None?
  {
    var a := DataAssigned(dataset);
    var d := PropertyOrder.KeysOrder(a);
    PropertyOrder.KeysOrderListed(a);
    assert forall i :: 0 <= i < |d| ==> d[i] in a by {
      forall i | 0 <= i < |d| ensures d[i] in a {
        assert d[i] in multiset(d);
      }
    }
    forall k ensures Find(d, k) == Find(a, k) {
      PropertyOrder.KeysOrderFind(a, k);
    }
    d
  }

  /** The data lists its keys as `Object.keys` lists an object whose properties were
      assigned in dataset order. */
  lemma TemplateDataOrder(dataset: seq<(string, string)>)
    ensures PropertyOrder.ListedAsObjectKeys(TemplateDataOf(dataset), DataAssigned(dataset))
  {
    PropertyOrder.KeysOrderListed(DataAssigned(dataset));
  }

  /** With no attribute named like an array index, the data keeps dataset order. */
  lemma TemplateDataInDatasetOrder(dataset: seq<(string, string)>)
    requires forall i :: 0 <= i < |dataset| ==> !PropertyOrder.IsArrayIndex(dataset[i].0)
    ensures TemplateDataOf(dataset) == DataAssigned(dataset)
  {
    var a := DataAssigned(dataset);
    forall i | 0 <= i < |a| ensures !PropertyOrder.IsArrayIndex(a[i].0) {
      var k := a[i].0;
      assert Find(a, k).Some?;
      assert Find(dataset, k).Some?;
    }
    PropertyOrder.KeysOrderNoIndex(a);
  }

  /** `data-a="{{0}}" data-0="z"`: the index key `0` is listed before `a`. */
  lemma IndexKeyListedFirst()
    ensures TemplateDataOf([("a", "{{0}}"), ("0", "z")])
            == [("0", Template.VPrim(Template.PStr("z"))), ("a", Template.VPrim(Template.PStr("{{0}}")))]
  {
    var a := DataAssigned([("a", "{{0}}"), ("0", "z")]);
    assert a == [("a", Template.VPrim(Template.PStr("{{0}}"))), ("0", Template.VPrim(Template.PStr("z")))];
    assert PropertyOrder.IsArrayIndex("0") && !PropertyOrder.IsArrayIndex("a");
  }

  /** With that data the fragment `{{a}}` renders as `{{0}}`: the pass for `0` runs first
      and finds no `{{0}}`, then the pass for `a` inserts one that no later pass reads. */
  lemma IndexKeySubstitutedFirst()
    ensures Template.VarPass("{{a}}", TemplateDataOf([("a", "{{0}}"), ("0", "z")])) == "{{0}}"
  {
    IndexKeyListedFirst();
    IndexFirstPasses();
  }

  /** The two passes over `{{a}}`, the `0` pass first. */
  lemma IndexFirstPasses()
    ensures Template.VarPass("{{a}}", [("0", Template.VPrim(Template.PStr("z"))),
                                       ("a", Template.VPrim(Template.PStr("{{0}}")))]) == "{{0}}"
  {
    var d := [("0", Template.VPrim(Template.PStr("z"))), ("a", Template.VPrim(Template.PStr("{{0}}")))];
    assert TemplateScan.IsKey(d[0].0) && TemplateScan.IsKey(d[1].0);
    TwoKeyPasses("{{a}}", d);
    SlotAPasses();
  }

  /** The variable pass over data with two keys is the pass for the first key, then the
      pass for the second. */
  lemma TwoKeyPasses(t: string, d: Template.Data)
    requires |d| == 2 && TemplateScan.IsKey(d[0].0) && TemplateScan.IsKey(d[1].0)
    ensures Template.VarPass(t, d)
            == TemplateScan.SubstVar(TemplateScan.SubstVar(t, d[0].0, Template.ValueText(d[0].1)),
                                     d[1].0, Template.ValueText(d[1].1))
  {
    var ks := Template.Keys(d);
    var ts := Template.DataTexts(d);
    var t1 := TemplateScan.SubstVar(t, ks[0], ts[0]);
    var t2 := TemplateScan.SubstVar(t1, ks[1..][0], ts[1..][0]);
    assert Template.SubstAll(t, ks, ts) == Template.SubstAll(t1, ks[1..], ts[1..]);
    assert Template.SubstAll(t1, ks[1..], ts[1..]) == Template.SubstAll(t2, ks[1..][1..], ts[1..][1..]);
    assert |ks[1..][1..]| == 0;
  }

  /** The pass for `0` leaves `{{a}}` alone; the pass for `a` turns it into `{{0}}`. */
  lemma SlotAPasses()
    ensures TemplateScan.SubstVar("{{a}}", "0", "z") == "{{a}}"
    ensures TemplateScan.SubstVar("{{a}}", "a", "{{0}}") == "{{0}}"
  {
    SlotAIsPlaceholder();
    assert TemplateScan.IsKey("0") && TemplateScan.IsKey("a");
    assert "{{a}}" + "" == "{{a}}";
    TemplateScan.SubstVarAtOtherPlaceholder("{{a}}", "", "0", "a", "z");
    TemplateScan.SubstVarAtPlaceholder("{{a}}", "", "a", "{{0}}");
  }

  /** `{{a}}` is a placeholder of the key `a`. */
  lemma SlotAIsPlaceholder()
    ensures TemplateScan.IsPlaceholder("{{a}}", "a")
  {
    assert "{{a}}"[2..3] == "a";
  }

  /** The configuration `initComponents` builds for an element: the element's id, or
      `component-host-` and the random `suffix` when it has none; the `data-component`
      path; the template data; `cache` unless `data-cache` is `"false"`; `append` only
      when `data-append` is `"true"`. */
  function ConfigOf(el: Element, path: string, suffix: string): (e: Entry)
    ensures e.Config? && e.containerId.Str? && e.containerId.s != ""
    ensures el.id != "" ==> e.containerId == Str(el.id)
    ensures e.componentPath == Str(path)
    ensures e.options.Options? && e.options.data == DataGiven(TemplateDataOf(el.dataset))
    ensures CacheOn(e.options.cache) <==> Find(el.dataset, "cache") != Some("false")
    ensures Truthy(e.options.append) <==> Find(el.dataset, "append") == Some("true")
  {
    var id := if el.id == "" then "component-host-" + suffix else el.id;
    Config(Str(id), Str(path), Options(DataGiven(TemplateDataOf(el.dataset)),
                                       Bool(Find(el.dataset, "cache") != Some("false")),
                                       Bool(Find(el.dataset, "append") == Some("true"))))
  }

  /** The configurations `initComponents` builds, one per element in document order; the
      elements are those selected by `[data-component]`, so each has that attribute. */
  function InitConfigs(els: seq<Element>, suffixes: seq<string>): (cs: seq<Entry>)
    requires |suffixes| == |els|
    requires forall i :: 0 <= i < |els| ==> Find(els[i].dataset, "component").Some?
    ensures |cs| == |els|
    ensures forall i :: 0 <= i < |els| ==>
              cs[i] == ConfigOf(els[i], Find(els[i].dataset, "component").value, suffixes[i])
  {
    seq(|els|, i requires 0 <= i < |els| =>
      ConfigOf(els[i], Find(els[i].dataset, "component").value, suffixes[i]))
  }

  /** Every configuration `initComponents` hands to `loadMultipleComponents` is an object
      with a non-empty container id, so the call never rejects and an entry fails only
      when its path is empty or its load does not succeed. */
  lemma InitComponentsNeverRejects(els: seq<Element>, suffixes: seq<string>, loads: seq<Outcome>)
    requires |suffixes| == |els| && |loads| == |els|
    requires forall i :: 0 <= i < |els| ==> Find(els[i].dataset, "component").Some?
    ensures var r := LoadMultiple(Entries(InitConfigs(els, suffixes)), loads);
      r.Results? && |r.oks| == |els|
      && forall i :: 0 <= i < |els| ==>
           (r.oks[i] <==> Find(els[i].dataset, "component").value != "" && loads[i] == Resolved(true))
  {
    var cs := InitConfigs(els, suffixes);
    forall i | 0 <= i < |cs|
      ensures cs[i].Config?
      ensures ValidEntry(cs[i]) <==> Find(els[i].dataset, "component").value != ""
    {
      var e := ConfigOf(els[i], Find(els[i].dataset, "component").value, suffixes[i]);
      assert cs[i] == e;
    }
  }
}

=== FILE: decimal.dfy ===
/** Decimal text of integers, as JavaScript's `String(n)` and JSON print them for
    integral values: an optional `-`, then digits with no leading zero. */
module Decimal {
  import opened Ascii

  /** The digit character for `d`. */
  function DigitChar(d: nat): (c: char)
    requires d < 10
    ensures IsDigit(c) && c as int - '0' as int == d
  {
    ('0' as int + d) as char
  }

  /** A string made only of decimal digits. */
  predicate AllDigits(s: string) {
    forall i :: 0 <= i < |s| ==> IsDigit(s[i])
  }

  /** The decimal text of a natural number. */
  function NatText(n: nat): (s: string)
    ensures |s| > 0 && AllDigits(s)
    decreases n
  {
    if n < 10 then [DigitChar(n)] else NatText(n / 10) + [DigitChar(n % 10)]
  }

  /** The number a string of digits denotes; the reference reading of `NatText`. */
  function DigitsValue(s: string): nat
    requires AllDigits(s)
  {
    if |s| == 0 then 0
    else DigitsValue(s[..|s| - 1]) * 10 + (s[|s| - 1] as int - '0' as int)
  }

  /** `NatText` is read back to the number it prints. */
  lemma {:induction false} NatTextRoundTrip(n: nat)
    ensures DigitsValue(NatText(n)) == n
    decreases n
  {
    if n >= 10 {
      NatTextRoundTrip(n / 10);
      var s := NatText(n);
      assert s[..|s| - 1] == NatText(n / 10);
    }
  }

  /** `NatText` has no leading zero, except for zero itself. */
  lemma {:induction false} NatTextNoLeadingZero(n: nat)
    ensures NatText(n)[0] == '0' <==> n == 0
    decreases n
  {
    if n >= 10 {
      NatTextNoLeadingZero(n / 10);
      assert NatText(n)[0] == NatText(n / 10)[0];
    }
  }

  /** Different numbers print differently. */
  lemma NatTextInjective(m: nat, n: nat)
    requires NatText(m) == NatText(n)
    ensures m == n
  {
    NatTextRoundTrip(m);
    NatTextRoundTrip(n);
  }

  /** The decimal text of an integer: a `-` in front of negative ones. */
  function IntText(i: int): (s: string)
    ensures |s| > 0
    ensures s[0] == '-' <==> i < 0
  {
    if i < 0 then "-" + NatText(-i) else NatText(i)
  }
}

=== FILE: fields.dfy ===
/** Objects and dictionaries as association lists, in the order their keys are listed:
    the order `Object.keys` gives for a JavaScript object (array-index keys first, see
    `PropertyOrder`) and the insertion order in which a Python `dict` iterates. */
module Fields {
  import opened Wrappers

  /** No key appears twice, as in any JavaScript object or Python dict. */
  predicate DistinctKeys<T>(fields: seq<(string, T)>) {
    forall i, j :: 0 <= i < j < |fields| ==> fields[i].0 != fields[j].0
  }

  /** The first binding of `key`. */
  function Find<T>(fields: seq<(string, T)>, key: string): (r: Option<T>)
    ensures r.None? <==> forall i :: 0 <= i < |fields| ==> fields[i].0 != key
    ensures r.Some? ==> exists i :: 0 <= i < |fields| && fields[i] == (key, r.value)
    decreases |fields|
  {
    if |fields| == 0 then None
    else if fields[0].0 == key then Some(fields[0].1)
    else
      var r := Find(fields[1..], key);
      assert r.Some? ==> exists i :: 0 <= i < |fields| && fields[i] == (key, r.value) by {
        if r.Some? {
          var j :| 0 <= j < |fields[1..]| && fields[1..][j] == (key, r.value);
          assert fields[j + 1] == (key, r.value);
        }
      }
      r
  }

  /** With distinct keys, `Find` returns the value bound at any index holding the key. */
  lemma {:induction false} FindAt<T>(fields: seq<(string, T)>, i: nat)
    requires DistinctKeys(fields) && i < |fields|
    ensures Find(fields, fields[i].0) == Some(fields[i].1)
    decreases i
  {
    if i > 0 {
      assert fields[0].0 != fields[i].0;
      assert fields[1..][i - 1] == fields[i];
      FindAt(fields[1..], i - 1);
    }
  }

  /** `Find` on a concatenation looks in the first list, then in the second. */
  lemma {:induction false} FindConcat<T>(a: seq<(string, T)>, b: seq<(string, T)>, k: string)
    ensures Find(a + b, k) == if Find(a, k).Some? then Find(a, k) else Find(b, k)
    decreases |a|
  {
    if |a| == 0 {
      assert a + b == b;
    } else {
      assert (a + b)[0] == a[0];
      assert (a + b)[1..] == a[1..] + b;
      FindConcat(a[1..], b, k);
    }
  }
}

=== FILE: initials.dfy ===
/** `getInitials` of frontend/js/shared/components.js: the avatar initials shown for a
    student's name, and a reference definition of them as the first characters of the
    name's words. */
module Initials {
  import opened JsValues
  import opened Ascii
  import opened Sequences

  /** `s.split(/\s+/)` scanned from position `q`, the current piece having started at
      `p`: every whitespace run ends a piece, so a leading run yields an empty first piece
      and a trailing run an empty last piece. On the empty string it yields `[""]`, as
      JavaScript does for a pattern that cannot match the empty string. */
  function SplitFrom(s: string, p: nat, q: nat): (pieces: seq<string>)
    requires p <= q <= |s|
    ensures |pieces| > 0
    decreases |s| - q
  {
    if q == |s| then [s[p..]]
    else if IsJsSpace(s[q]) then
      var e := SkipWs(JsWhitespace, s, q);
      [s[p..q]] + SplitFrom(s, e, e)
    else SplitFrom(s, p, q + 1)
  }

  /** `s.split(/\s+/)`. */
  function SplitWs(s: string): seq<string> {
    SplitFrom(s, 0, 0)
  }

  /** `.filter(word => word.length > 0).map(word => word[0]).join('')`: the first
      character of every non-empty piece, in order. */
  function Heads(pieces: seq<string>): string
    decreases |pieces|
  {
    if |pieces| == 0 then ""
    else (if |pieces[0]| > 0 then [pieces[0][0]] else "") + Heads(pieces[1..])
  }

  /** `getInitials(nombre)`: `'US'` for a missing, non-string or blank name; otherwise the
      first letters of its words, upper-cased, at most two of them. */
  function GetInitials(nombre: JsValue): (r: string)
    ensures !nombre.Str? || Trim(nombre.s) == "" ==> r == "US"
    ensures |r| <= 2
    ensures forall i :: 0 <= i < |r| ==> !IsLowerLetter(r[i])
  {
    if !Truthy(nombre) || !nombre.Str? || Trim(nombre.s) == "" then "US"
    else
      var u := ToUpper(Heads(SplitWs(Trim(nombre.s))));
      if |u| <= 2 then u else u[..2]
  }

  /** Position `m` of `s` starts a word: it holds a non-whitespace character that begins
      the string or follows whitespace. */
  predicate IsWordStart(s: string, m: nat)
    requires m < |s|
  {
    !IsJsSpace(s[m]) && (m == 0 || IsJsSpace(s[m - 1]))
  }

  /** The characters that start words in `s`, from position `i` on. */
  function WordStartsFrom(s: string, i: nat): string
    requires i <= |s|
    decreases |s| - i
  {
    if i == |s| then ""
    else (if IsWordStart(s, i) then [s[i]] else "") + WordStartsFrom(s, i + 1)
  }

  /** The first character of every word of `s`. */
  function WordStarts(s: string): string {
    WordStartsFrom(s, 0)
  }

  /** No word starts inside a whitespace run. */
  lemma {:induction false} NoStartsInWs(s: string, q: nat, e: nat)
    requires q <= e <= |s|
    requires forall m :: q <= m < e ==> IsJsSpace(s[m])
    ensures WordStartsFrom(s, q) == WordStartsFrom(s, e)
    decreases e - q
  {
    if q < e {
      NoStartsInWs(s, q + 1, e);
    }
  }

  /** Splitting, dropping empty pieces and taking first characters finds exactly the word
      starts, the current piece `s[p..q]` contributing its first character. */
  lemma {:induction false} HeadsOfSplit(s: string, p: nat, q: nat)
    requires p <= q <= |s|
    requires forall m :: p <= m < q ==> !IsJsSpace(s[m])
    requires p == 0 || IsJsSpace(s[p - 1])
    ensures Heads(SplitFrom(s, p, q)) == (if p < q then [s[p]] else "") + WordStartsFrom(s, q)
    decreases |s| - q
  {
    var h: string := if p < q then [s[p]] else "";
    if q == |s| {
      HeadsOne(s[p..]);
    } else if IsJsSpace(s[q]) {
      var e := SkipWs(JsWhitespace, s, q);
      HeadsCons(s[p..q], SplitFrom(s, e, e));
      HeadsOfSplit(s, e, e);
      NoStartsInWs(s, q, e);
    } else {
      HeadsOfSplit(s, p, q + 1);
      ConcatAssoc(h, if IsWordStart(s, q) then [s[q]] else "", WordStartsFrom(s, q + 1));
    }
  }

  /** `Heads` of a list of one piece. */
  lemma HeadsOne(x: string)
    ensures Heads([x]) == if |x| > 0 then [x[0]] else ""
  {
    assert [x][1..] == [];
  }

  /** `Heads` of a piece followed by more pieces. */
  lemma HeadsCons(x: string, rest: seq<string>)
    ensures Heads([x] + rest) == (if |x| > 0 then [x[0]] else "") + Heads(rest)
  {
    assert ([x] + rest)[1..] == rest;
  }

  /** Word starts of a stretch `t` of `s` beginning at `a`, where `a` begins `s` or follows
      whitespace: they are the word starts of `s` in that stretch. */
  lemma {:induction false} WordStartsOfStretch(s: string, t: string, a: nat, i: nat)
    requires a + |t| <= |s| && i <= |t|
    requires forall j :: 0 <= j < |t| ==> t[j] == s[a + j]
    requires a == 0 || IsJsSpace(s[a - 1])
    ensures WordStartsFrom(t, i) + WordStartsFrom(s, a + |t|) == WordStartsFrom(s, a + i)
    decreases |t| - i
  {
    if i < |t| {
      WordStartsOfStretch(s, t, a, i + 1);
      StretchStartAgrees(s, t, a, i);
      var x := if IsWordStart(t, i) then [t[i]] else "";
      ConcatAssoc(x, WordStartsFrom(t, i + 1), WordStartsFrom(s, a + |t|));
    }
  }

  /** Position `i` of the stretch `t` starts a word exactly when position `a + i` of `s`
      does. */
  lemma StretchStartAgrees(s: string, t: string, a: nat, i: nat)
    requires a + |t| <= |s| && i < |t|
    requires forall j :: 0 <= j < |t| ==> t[j] == s[a + j]
    requires a == 0 || IsJsSpace(s[a - 1])
    ensures IsWordStart(t, i) == IsWordStart(s, a + i) && t[i] == s[a + i]
  {
    assert t[i] == s[a + i];
    if i > 0 {
      assert t[i - 1] == s[a + (i - 1)];
    }
  }

  /** Trimming a name does not change its words. */
  lemma TrimKeepsWordStarts(s: string)
    ensures WordStarts(Trim(s)) == WordStarts(s)
  {
    var t := Trim(s);
    var a := LeadingWs(JsWhitespace, s);
    WordStartsOfStretch(s, t, a, 0);
    NoStartsInWs(s, 0, a);
    NoStartsInWs(s, a + |t|, |s|);
  }

  /** A string with a non-blank first character has that character as its first word
      start. */
  lemma FirstWordStart(t: string)
    requires |t| > 0 && !IsJsSpace(t[0])
    ensures |WordStarts(t)| > 0 && WordStarts(t)[0] == t[0]
  {
  }

  /** What `getInitials` returns for a usable name: the first two word starts of the name
      as given (or the only one), upper-cased. */
  lemma GetInitialsOfName(s: string)
    requires Trim(s) != ""
    ensures var w := ToUpper(WordStarts(s));
      |w| >= 1 && GetInitials(Str(s)) == (if |w| <= 2 then w else w[..2])
  {
    var t := Trim(s);
    HeadsOfSplit(t, 0, 0);
    TrimKeepsWordStarts(s);
    FirstWordStart(t);
  }

  /** For a usable name the initials are one or two characters and begin with the first
      character of the name, upper-cased. */
  lemma GetInitialsShape(s: string)
    requires Trim(s) != ""
    ensures var r := GetInitials(Str(s));
      1 <= |r| <= 2 && r[0] == UpperChar(Trim(s)[0])
      && |r| <= |WordStarts(s)| && r == ToUpper(WordStarts(s))[..|r|]
  {
    GetInitialsOfName(s);
    var t := Trim(s);
    FirstWordStart(t);
    TrimKeepsWordStarts(s);
  }
}

=== FILE: js_values.dfy ===
/** The JavaScript values that reach the modelled handlers, reduced to what their code
    distinguishes: the two nullish values, booleans, strings, and every other value
    (numbers, objects, arrays, functions) by its truthiness alone. */
module JsValues {

  datatype JsValue =
    | Undefined
    | Null
    | Bool(b: bool)
    | Str(s: string)
    /** A number, object, array or function; `truthy` is false only for `0`, `-0` and `NaN`. */
    | Other(truthy: bool)

  /** JavaScript's `ToBoolean`: what `if (v)`, `!v` and `v || d` test. */
  predicate Truthy(v: JsValue) {
    match v
    case Undefined => false
    case Null => false
    case Bool(b) => b
    case Str(s) => s != ""
    case Other(t) => t
  }

  /** `undefined` or `null`, the values on which `?.` short-circuits. */
  predicate Nullish(v: JsValue) {
    v.Undefined? || v.Null?
  }
}

=== FILE: json_data.dfy ===
/** Parsed JSON documents, as `JSON.parse`, `response.json()`, Express's `res.json` and
    Python's `json.load` see them. Only integral numbers are modelled. */
module JsonData {
  import opened Wrappers
  import opened Fields
  import opened JsValues

  /** An object's members are listed in the order `Object.keys` gives them. */
  datatype Json =
    | JNull
    | JBool(b: bool)
    | JNum(n: int)
    | JStr(s: string)
    | JArr(items: seq<Json>)
    | JObj(fields: seq<(string, Json)>)

  /** The JavaScript value a parsed JSON document becomes, as far as `JsValue` tells
      values apart: numbers are truthy unless zero, arrays and objects always. */
  function ToJs(j: Json): (v: JsValue)
    ensures Nullish(v) <==> j.JNull?
    ensures v.Str? <==> j.JStr?
  {
    match j
    case JNull => Null
    case JBool(b) => Bool(b)
    case JNum(n) => Other(n != 0)
    case JStr(s) => Str(s)
    case JArr(_) => Other(true)
    case JObj(_) => Other(true)
  }

  /** The outcome of reading `j.key`: a `TypeError`, or the value read (`None` for
      `undefined`). */
  datatype Read = ReadThrows | Read(v: Option<Json>)

  /** `j.key` in JavaScript, for a key `Object.prototype` does not define: reading a
      property of `null` throws; an object yields its own binding; a string, number,
      boolean or array has no such property. */
  function Member(j: Json, key: string): (r: Read)
    ensures r.ReadThrows? <==> j.JNull?
    ensures r.Read? && r.v.Some? ==> j.JObj?
  {
    match j
    case JNull => ReadThrows
    case JObj(fields) => Read(Find(fields, key))
    case _ => Read(None)
  }

  /** JavaScript truthiness of a value read from JSON; `undefined` is falsy. */
  predicate ReadTruthy(v: Option<Json>) {
    v.Some? && Truthy(ToJs(v.value))
  }

  /** `v || d` on a value read from JSON. */
  function OrElse(v: Option<Json>, d: Json): Json {
    if ReadTruthy(v) then v.value else d
  }
}

=== FILE: json_text.dfy ===
/** `JSON.stringify` on parsed JSON values, as frontend/js/script.js uses it to store the
    `userInfo` record, and a reader for the text it writes: string literals and the
    two-field `userInfo` record read back to what was written. */
module JsonText {
  import opened Wrappers
  import opened Sequences
  import opened Decimal
  import opened JsonData

  /** A lower-case hexadecimal digit, as `JSON.stringify` writes them. */
  function HexDigit(d: nat): (c: char)
    requires d < 16
    ensures HexValue(c) == Some(d)
  {
    if d < 10 then ('0' as int + d) as char else ('a' as int + d - 10) as char
  }

  /** The value of a hexadecimal digit of either case. */
  function HexValue(c: char): (r: Option<nat>)
    ensures r.Some? ==> r.value < 16
  {
    if '0' <= c <= '9' then Some(c as int - '0' as int)
    else if 'a' <= c <= 'f' then Some(c as int - 'a' as int + 10)
    else if 'A' <= c <= 'F' then Some(c as int - 'A' as int + 10)
    else None
  }

  /** The short escape `JSON.stringify` uses for a character, if it has one: `\"`, `\\`,
      `\b`, `\t`, `\n`, `\f`, `\r`. */
  function ShortEscape(c: char): Option<char> {
    if c == '"' then Some('"')
    else if c == '\\' then Some('\\')
    else if c as int == 8 then Some('b')
    else if c == '\t' then Some('t')
    else if c == '\n' then Some('n')
    else if c as int == 12 then Some('f')
    else if c == '\r' then Some('r')
    else None
  }

  /** How `JSON.stringify` writes one character inside a string literal: a short escape,
      `\u00XX` for the remaining control characters, otherwise the character itself. */
  function EscapeChar(c: char): (e: string)
    ensures |e| > 0
  {
    match ShortEscape(c)
    case Some(x) => ['\\', x]
    case None =>
      if c as int < 0x20 then ['\\', 'u', '0', '0', HexDigit(c as int / 16), HexDigit(c as int % 16)]
      else [c]
  }

  /** The body of a string literal. */
  function Escape(s: string): string
    decreases |s|
  {
    if |s| == 0 then "" else EscapeChar(s[0]) + Escape(s[1..])
  }

  /** `JSON.stringify` of a string. */
  function Quote(s: string): string {
    "\"" + Escape(s) + "\""
  }

  /** The texts of `parts` joined with commas. */
  function JoinComma(parts: seq<string>): string
    decreases |parts|
  {
    if |parts| == 0 then ""
    else if |parts| == 1 then parts[0]
    else parts[0] + "," + JoinComma(parts[1..])
  }

  /** `JSON.stringify(j)`: compact output, object members in the order their keys are listed. */
  function Stringify(j: Json): string
    decreases j
  {
    match j
    case JNull => "null"
    case JBool(b) => if b then "true" else "false"
    case JNum(n) => IntText(n)
    case JStr(s) => Quote(s)
    case JArr(items) => "[" + JoinComma(ItemTexts(j, 0)) + "]"
    case JObj(fields) => "{" + JoinComma(MemberTexts(j, 0)) + "}"
  }

  /** The texts of the items of array `j` from index `i` on. */
  function ItemTexts(j: Json, i: nat): seq<string>
    requires j.JArr? && i <= |j.items|
    decreases j, |j.items| - i
  {
    if i == |j.items| then []
    else
      assert j.items[i] < j;
      [Stringify(j.items[i])] + ItemTexts(j, i + 1)
  }

  /** The `"key":value` texts of the members of object `j` from index `i` on. */
  function MemberTexts(j: Json, i: nat): seq<string>
    requires j.JObj? && i <= |j.fields|
    decreases j, |j.fields| - i
  {
    if i == |j.fields| then []
    else
      assert j.fields[i] < j;
      [Quote(j.fields[i].0) + ":" + Stringify(j.fields[i].1)] + MemberTexts(j, i + 1)
  }

  /** Reads the escape sequence at the start of `t` (just after a backslash is seen at
      `t[0]`): the character it stands for and the text after it. Surrogate code units are
      not characters here and are refused. */
  function ReadEscape(t: string): Option<(char, string)>
    requires |t| > 0
  {
    if |t| < 2 then None
    else
      var x := t[1];
      if x == '"' || x == '\\' || x == '/' then Some((x, t[2..]))
      else if x == 'b' then Some((8 as char, t[2..]))
      else if x == 't' then Some(('\t', t[2..]))
      else if x == 'n' then Some(('\n', t[2..]))
      else if x == 'f' then Some((12 as char, t[2..]))
      else if x == 'r' then Some(('\r', t[2..]))
      else if x == 'u' && |t| >= 6 then
        match (HexValue(t[2]), HexValue(t[3]), HexValue(t[4]), HexValue(t[5]))
        case (Some(a), Some(b), Some(c), Some(d)) =>
          var v := ((a * 16 + b) * 16 + c) * 16 + d;
          if 0xD800 <= v < 0xE000 then None else Some((v as char, t[6..]))
        case _ => None
      else None
  }

  /** Reads the body of a string literal up to its closing quote: the string it denotes
      and the text after the quote. A raw control character or an unterminated literal is
      refused. */
  function ReadString(t: string): Option<(string, string)>
    decreases |t|
  {
    if |t| == 0 then None
    else if t[0] == '"' then Some(("", t[1..]))
    else if t[0] == '\\' then
      match ReadEscape(t)
      case None => None
      case Some((c, u)) =>
        if |u| >= |t| then None
        else
          match ReadString(u)
          case None => None
          case Some((s, v)) => Some(([c] + s, v))
    else if t[0] as int < 0x20 then None
    else
      match ReadString(t[1..])
      case None => None
      case Some((s, v)) => Some(([t[0]] + s, v))
  }

  /** One escaped character is read back. */
  lemma ReadEscapeChar(c: char, rest: string)
    requires EscapeChar(c)[0] == '\\'
    ensures ReadEscape(EscapeChar(c) + rest) == Some((c, rest))
  {
    var t := EscapeChar(c) + rest;
    match ShortEscape(c) {
      case Some(x) =>
        assert t[1] == x && t[2..] == rest;
      case None =>
        var n := c as int;
        assert n < 0x20;
        var hi, lo := HexDigit(n / 16), HexDigit(n % 16);
        assert t[2] == '0' && t[3] == '0' && t[4] == hi && t[5] == lo;
        assert t[6..] == rest;
    }
  }

  /** The body of a string literal, then its closing quote, reads back to the string. */
  lemma {:induction false} ReadStringOfEscape(s: string, rest: string)
    ensures ReadString(Escape(s) + "\"" + rest) == Some((s, rest))
    decreases |s|
  {
    var t := Escape(s) + "\"" + rest;
    if |s| == 0 {
      assert t == "\"" + rest;
      assert t[1..] == rest;
    } else {
      var e := EscapeChar(s[0]);
      var u := Escape(s[1..]) + "\"" + rest;
      assert t == e + u by {
        ConcatAssoc(e, Escape(s[1..]), "\"");
        ConcatAssoc(e, Escape(s[1..]) + "\"", rest);
      }
      ReadStringOfEscape(s[1..], rest);
      if e[0] == '\\' {
        ReadEscapeChar(s[0], u);
      } else {
        assert e == [s[0]];
        assert t[1..] == u;
      }
      assert [s[0]] + s[1..] == s;
    }
  }

  /** A quoted string reads back to itself, whatever follows it. */
  lemma ReadQuoted(s: string, rest: string)
    ensures |Quote(s) + rest| > 0 && (Quote(s) + rest)[0] == '"'
    ensures ReadString((Quote(s) + rest)[1..]) == Some((s, rest))
  {
    var t := Quote(s) + rest;
    assert t[1..] == Escape(s) + "\"" + rest;
    ReadStringOfEscape(s, rest);
  }

  /** The record frontend/js/script.js stores under `userInfo`. */
  function UserInfo(nombre: Json): Json {
    JObj([("nombre", nombre), ("grado", JStr("11"))])
  }

  /** The stored text of a `userInfo` record whose `nombre` is a string: its two members
      between braces. */
  lemma UserInfoText(n: string)
    ensures Stringify(UserInfo(JStr(n)))
              == "{" + MemberText("nombre", n) + "," + MemberText("grado", "11") + "}"
  {
    var j := UserInfo(JStr(n));
    var a, b := MemberText("nombre", n), MemberText("grado", "11");
    assert MemberTexts(j, 2) == [];
    assert MemberTexts(j, 1) == [b];
    var ps := MemberTexts(j, 0);
    assert ps == [a, b];
    assert JoinComma(ps) == a + "," + b by {
      assert ps[1..] == [b];
    }
  }

  /** The text of a member whose value is a string: `"key":"value"`. */
  function MemberText(k: string, v: string): string {
    Quote(k) + ":" + Quote(v)
  }

  /** Reads a member whose value is a string: the key, the value and the text after it. */
  function ReadStringMember(t: string): Option<(string, string, string)> {
    if |t| == 0 || t[0] != '"' then None
    else
      match ReadString(t[1..])
      case None => None
      case Some((k, u)) =>
        if |u| < 2 || u[0] != ':' || u[1] != '"' then None
        else
          match ReadString(u[2..])
          case None => None
          case Some((v, w)) => Some((k, v, w))
  }

  /** A member written for a string value reads back to its key and value. */
  lemma ReadMemberText(k: string, v: string, rest: string)
    ensures ReadStringMember(MemberText(k, v) + rest) == Some((k, v, rest))
  {
    var x := ":" + (Quote(v) + rest);
    var t := MemberText(k, v) + rest;
    assert t == Quote(k) + x;
    ReadQuoted(k, x);
    ReadQuoted(v, rest);
    assert x[2..] == (Quote(v) + rest)[1..];
  }

  /** Reads a stored `userInfo` text of the form `JSON.stringify` writes for a string
      `nombre` and a string `grado`: `{"nombre":…,"grado":…}`. */
  function ReadUserInfo(t: string): Option<(string, string)> {
    if |t| == 0 || t[0] != '{' then None
    else
      match ReadStringMember(t[1..])
      case None => None
      case Some((k1, n, u)) =>
        if k1 != "nombre" || |u| == 0 || u[0] != ',' then None
        else
          match ReadStringMember(u[1..])
          case None => None
          case Some((k2, g, w)) => if k2 == "grado" && w == "}" then Some((n, g)) else None
  }

  /** The stored `userInfo` text reads back to the `nombre` and `grado` written. */
  lemma UserInfoRoundTrip(n: string)
    ensures ReadUserInfo(Stringify(UserInfo(JStr(n)))) == Some((n, "11"))
  {
    var a, b := MemberText("nombre", n), MemberText("grado", "11");
    UserInfoText(n);
    BracedPair(a, b);
    ReadUserInfoParts("{" + a + "," + b + "}", n, "," + (b + "}"));
  }

  /** Where the two members sit in `{a,b}`. */
  lemma BracedPair(a: string, b: string)
    ensures |"{" + a + "," + b + "}"| > 0 && ("{" + a + "," + b + "}")[0] == '{'
    ensures ("{" + a + "," + b + "}")[1..] == a + ("," + (b + "}"))
  {
  }

  /** `ReadUserInfo` on a text laid out as `{`, the `nombre` member, `u`. */
  lemma ReadUserInfoParts(t: string, n: string, u: string)
    requires |t| > 0 && t[0] == '{' && t[1..] == MemberText("nombre", n) + u
    requires u == "," + (MemberText("grado", "11") + "}")
    ensures ReadUserInfo(t) == Some((n, "11"))
  {
    ReadMemberText("nombre", n, u);
    assert u[1..] == MemberText("grado", "11") + "}";
    ReadMemberText("grado", "11", "}");
  }
}

=== FILE: login_form.dfy ===
/** The access form of frontend/js/script.js: the submit handler, seen as a step from one
    page state to the next, and the input sanitiser that keeps only `A-Z0-9`. */
module LoginForm {
  import opened Wrappers
  import opened Ascii
  import opened JsValues
  import opened JsonData
  import opened JsonText
  import opened CodeFormat

  const FormatHint: string := "El código debe comenzar con IEM seguido de 4 números (Ejemplo: IEM1234)"
  const GrantedMessage: string := "Acceso permitido"
  const DeniedFallback: string := "Código no permitido"
  const CallFailedMessage: string := "Error al validar el código"
  const HomeUrl: string := "/frontend/pages/inicio.html"
  const UserInfoKey: string := "userInfo"

  /** The styles `showMessage` gives a message. */
  datatype Kind = KindSuccess | KindError | KindInfo

  /** A message on screen: `showMessage` removes the previous one first, so at most one
      is shown. Its text is any JSON value, written out by `textContent`. */
  datatype Message = Message(text: Json, kind: Kind)

  /** What the handler reads and writes: `localStorage`, the message on screen, the
      spinner's visibility, the button text's opacity, the navigation scheduled with
      `setTimeout`, and whether the last submit asked the server. */
  datatype Ui = Ui(storage: map<string, string>, message: Option<Message>, spinnerVisible: bool,
                   opacity: string, navigation: Option<string>, asked: bool)

  /** How `validarCodigoEnServidor` settles: it throws (network failure, or a reply that
      is not JSON), or returns the parsed reply. */
  datatype ServerOutcome = CallThrows | CallReturns(data: Json)

  /** The text stored under `userInfo`: `nombre` is the server's name if truthy, else
      the code as typed (trimmed). */
  function StoredUserInfo(data: Json, code: string): string
    requires data.JObj?
  {
    var nombre := Member(data, "nombre");
    Stringify(UserInfo(OrElse(nombre.v, JStr(code))))
  }

  /** The `finally` block: hide the spinner and restore the button text. */
  function Finish(ui: Ui): (r: Ui)
    ensures !r.spinnerVisible && r.opacity == "1"
    ensures r.storage == ui.storage && r.message == ui.message && r.navigation == ui.navigation
    ensures r.asked == ui.asked
  {
    ui.(spinnerVisible := false, opacity := "1")
  }

  /** `ui` with `text` as the only message shown. */
  function Show(ui: Ui, text: string, kind: Kind): Ui {
    ui.(message := Some(Message(JStr(text), kind)))
  }

  /** The submit handler, for the input's value `value`, the server's outcome and
      whether `localStorage.setItem` succeeds. */
  function Submit(ui: Ui, value: string, server: ServerOutcome, storageWritable: bool): (r: Ui)
    ensures !r.spinnerVisible && r.opacity == "1"
    ensures r.asked <==> ValidarFormatoCodigo(Str(Trim(value)))
    ensures !r.asked ==>
              r == Finish(Show(ui.(asked := false), FormatHint, KindError))
    ensures r.storage != ui.storage ==>
              r.asked && server.CallReturns? && server.data.JObj? && storageWritable
              && r.storage == ui.storage[UserInfoKey := StoredUserInfo(server.data, Trim(value))]
    ensures r.navigation != ui.navigation ==> r.navigation == Some(HomeUrl) && server.CallReturns?
  {
    var code := Trim(value);
    var shown := ui.(spinnerVisible := true, opacity := "0", asked := false);
    Finish(
      if !ValidarFormatoCodigo(Str(code)) then Show(shown, FormatHint, KindError)
      else Decide(shown.(asked := true), code, server, storageWritable))
  }

  /** The body of the `try` block after the server call, with the `catch` block. */
  function Decide(ui: Ui, code: string, server: ServerOutcome, storageWritable: bool): (r: Ui)
    ensures r.asked == ui.asked && r.spinnerVisible == ui.spinnerVisible && r.opacity == ui.opacity
    ensures r.storage != ui.storage ==>
              server.CallReturns? && server.data.JObj? && storageWritable
              && r.storage == ui.storage[UserInfoKey := StoredUserInfo(server.data, code)]
    ensures r.navigation != ui.navigation ==> r.navigation == Some(HomeUrl) && server.CallReturns?
  {
    match server
    case CallThrows => Show(ui, CallFailedMessage, KindError)
    case CallReturns(data) =>
      match Member(data, "permitido")
      case ReadThrows => Show(ui, CallFailedMessage, KindError)
      case Read(p) =>
        if ReadTruthy(p) then
          if storageWritable then
            var stored := ui.storage[UserInfoKey := StoredUserInfo(data, code)];
            Show(ui, GrantedMessage, KindSuccess).(storage := stored, navigation := Some(HomeUrl))
          else Show(ui, CallFailedMessage, KindError)
        else
          var m := Member(data, "mensaje");
          ui.(message := Some(Message(OrElse(m.v, JStr(DeniedFallback)), KindError)))
  }

  /** The outcome of a submit, as the handler's branches and its comments promise. */
  datatype Verdict = FormatRejected | Admitted | Refused(shown: Json) | Failed

  /** Which branch a submit takes. */
  function VerdictOf(value: string, server: ServerOutcome, storageWritable: bool): Verdict {
    if !ValidarFormatoCodigo(Str(Trim(value))) then FormatRejected
    else
      match server
      case CallThrows => Failed
      case CallReturns(data) =>
        match Member(data, "permitido")
        case ReadThrows => Failed
        case Read(p) =>
          if ReadTruthy(p) then (if storageWritable then Admitted else Failed)
          else Refused(OrElse(Member(data, "mensaje").v, JStr(DeniedFallback)))
  }

  /** Every branch of the handler ends in the state its verdict describes: on admission
      `userInfo` is stored and the home page scheduled; on refusal the server's message
      (or the fallback) is shown; on any failure the generic error is shown; storage and
      navigation change only on admission; the spinner is hidden in every case. */
  lemma SubmitOutcome(ui: Ui, value: string, server: ServerOutcome, storageWritable: bool)
    ensures var r := Submit(ui, value, server, storageWritable);
      var code := Trim(value);
      match VerdictOf(value, server, storageWritable)
      case FormatRejected =>
        !r.asked && r.message == Some(Message(JStr(FormatHint), KindError))
        && r.storage == ui.storage && r.navigation == ui.navigation
      case Admitted =>
        r.asked && server.data.JObj?
        && r.storage == ui.storage[UserInfoKey := StoredUserInfo(server.data, code)]
        && r.navigation == Some(HomeUrl)
        && r.message == Some(Message(JStr(GrantedMessage), KindSuccess))
      case Refused(shown) =>
        r.asked && r.message == Some(Message(shown, KindError))
        && r.storage == ui.storage && r.navigation == ui.navigation
      case Failed =>
        r.asked && r.message == Some(Message(JStr(CallFailedMessage), KindError))
        && r.storage == ui.storage && r.navigation == ui.navigation
  {
  }

  /** After an admission, the stored `userInfo` reads back to the name used and grade
      `"11"`: the server's name when it sent a non-empty string, otherwise the code as
      typed, trimmed but not upper-cased. */
  lemma StoredUserInfoReadsBack(data: Json, code: string)
    requires data.JObj?
    requires var n := Member(data, "nombre").v; !ReadTruthy(n) || n.value.JStr?
    ensures var n := Member(data, "nombre").v;
      var nombre := if ReadTruthy(n) then n.value.s else code;
      ReadUserInfo(StoredUserInfo(data, code)) == Some((nombre, "11"))
  {
    var n := Member(data, "nombre").v;
    var nombre := if ReadTruthy(n) then n.value.s else code;
    assert OrElse(n, JStr(code)) == JStr(nombre);
    UserInfoRoundTrip(nombre);
  }

  /** A character the sanitiser keeps: `[A-Z0-9]`. */
  predicate IsCodeChar(c: char) {
    IsUpperLetter(c) || IsDigit(c)
  }

  /** The characters of `s` that satisfy `IsCodeChar`, in order. */
  function KeepCodeChars(s: string): (r: string)
    ensures |r| <= |s|
    ensures forall i :: 0 <= i < |r| ==> IsCodeChar(r[i])
    decreases |s|
  {
    if |s| == 0 then ""
    else (if IsCodeChar(s[0]) then [s[0]] else "") + KeepCodeChars(s[1..])
  }

  /** The `input` listener: `value.toUpperCase().replace(/[^A-Z0-9]/g, '')`. */
  function Sanitize(s: string): (r: string)
    ensures |r| <= |s|
    ensures forall i :: 0 <= i < |r| ==> IsCodeChar(r[i])
  {
    KeepCodeChars(ToUpper(s))
  }

  /** A string of code characters is left as it is. */
  lemma {:induction false} KeepCodeCharsFixes(s: string)
    requires forall i :: 0 <= i < |s| ==> IsCodeChar(s[i])
    ensures KeepCodeChars(s) == s
    decreases |s|
  {
    if |s| > 0 {
      KeepCodeCharsFixes(s[1..]);
    }
  }

  /** Sanitising twice is sanitising once. */
  lemma SanitizeIdempotent(s: string)
    ensures Sanitize(Sanitize(s)) == Sanitize(s)
  {
    var r := Sanitize(s);
    assert ToUpper(r) == r;
    KeepCodeCharsFixes(r);
  }

  /** The sanitiser leaves a value unchanged exactly when it is made of code
      characters. */
  lemma SanitizeFixedPoints(s: string)
    ensures Sanitize(s) == s <==> forall i :: 0 <= i < |s| ==> IsCodeChar(s[i])
  {
    if forall i :: 0 <= i < |s| ==> IsCodeChar(s[i]) {
      assert ToUpper(s) == s;
      KeepCodeCharsFixes(s);
    }
  }

  /** Sanitising works character by character: the sanitised concatenation is the
      concatenation of the sanitised parts. */
  lemma {:induction false} KeepCodeCharsConcat(a: string, b: string)
    ensures KeepCodeChars(a + b) == KeepCodeChars(a) + KeepCodeChars(b)
    decreases |a|
  {
    if |a| == 0 {
      assert a + b == b;
    } else {
      assert (a + b)[1..] == a[1..] + b;
      KeepCodeCharsConcat(a[1..], b);
    }
  }

  /** Sanitising one character keeps it upper-cased exactly when its upper-case form is
      a code character. */
  lemma SanitizeChar(c: char)
    ensures Sanitize([c]) == if IsCodeChar(UpperChar(c)) then [UpperChar(c)] else ""
  {
    assert ToUpper([c]) == [UpperChar(c)];
    assert [UpperChar(c)][1..] == "";
  }
}

=== FILE: property_order.dfy ===
/** The order in which `Object.keys` lists the properties of an ordinary JavaScript
    object (section 10.1.11.1, OrdinaryOwnPropertyKeys, of ECMA-262): the keys that are
    array indices first, in ascending numeric order, then the other string keys in the
    order the properties were created. */
module PropertyOrder {
  import opened Wrappers
  import opened Ascii
  import opened Fields
  import opened Decimal

  /** The largest array index, 2^32 - 2 (section 6.1.7 of ECMA-262). */
  const MaxArrayIndex: nat := 0xFFFF_FFFE

  /** An array index: the canonical decimal text (no sign, no leading zero) of an
      integer from 0 to 2^32 - 2. */
  predicate IsArrayIndex(k: string) {
    && |k| > 0
    && AllDigits(k)
    && (k[0] != '0' || k == "0")
    && DigitsValue(k) <= MaxArrayIndex
  }

  /** The number an array-index key denotes. */
  function IndexValue(k: string): nat
    requires IsArrayIndex(k)
  {
    DigitsValue(k)
  }

  /** The properties whose key is an array index (`index` true) or is not (`index`
      false), in their order. */
  function KeepKeys<T>(fields: seq<(string, T)>, index: bool): (r: seq<(string, T)>)
    ensures forall i :: 0 <= i < |r| ==> IsArrayIndex(r[i].0) == index
    decreases |fields|
  {
    if |fields| == 0 then []
    else if IsArrayIndex(fields[0].0) == index then [fields[0]] + KeepKeys(fields[1..], index)
    else KeepKeys(fields[1..], index)
  }

  /** Every key is an array index. */
  predicate AllIndexKeys<T>(fields: seq<(string, T)>) {
    forall i :: 0 <= i < |fields| ==> IsArrayIndex(fields[i].0)
  }

  /** Array-index keys in ascending numeric order. */
  predicate Ascending<T>(fields: seq<(string, T)>)
    requires AllIndexKeys(fields)
  {
    forall i, j :: 0 <= i < j < |fields| ==> IndexValue(fields[i].0) <= IndexValue(fields[j].0)
  }

  /** `r` is how `Object.keys` lists an object whose properties were created in the order
      `fields`: the same properties, the array-index ones first and ascending, then the
      others as created. */
  ghost predicate ListedAsObjectKeys<T>(r: seq<(string, T)>, fields: seq<(string, T)>) {
    var n := |KeepKeys(fields, true)|;
    && multiset(r) == multiset(fields)
    && n <= |r|
    && AllIndexKeys(r[..n])
    && Ascending(r[..n])
    && r[n..] == KeepKeys(fields, false)
  }

  /** Inserts `x` before the first property whose index is not smaller, so that among
      equal indices the earlier property stays first. */
  function Insert<T>(x: (string, T), s: seq<(string, T)>): (r: seq<(string, T)>)
    requires IsArrayIndex(x.0) && AllIndexKeys(s)
    ensures |r| == |s| + 1 && AllIndexKeys(r)
    ensures r[0] == x || (|s| > 0 && r[0] == s[0])
    decreases |s|
  {
    if |s| == 0 || IndexValue(x.0) <= IndexValue(s[0].0) then [x] + s
    else
      var t := Insert(x, s[1..]);
      assert s == [s[0]] + s[1..];
      [s[0]] + t
  }

  /** Insertion adds exactly the inserted property. */
  lemma {:induction false} InsertMultiset<T>(x: (string, T), s: seq<(string, T)>)
    requires IsArrayIndex(x.0) && AllIndexKeys(s)
    ensures multiset(Insert(x, s)) == multiset(s) + multiset{x}
    decreases |s|
  {
    if |s| > 0 && IndexValue(s[0].0) < IndexValue(x.0) {
      InsertMultiset(x, s[1..]);
      assert s == [s[0]] + s[1..];
    }
  }

  /** Insertion keeps an ascending list ascending. */
  lemma {:induction false} InsertAscending<T>(x: (string, T), s: seq<(string, T)>)
    requires IsArrayIndex(x.0) && AllIndexKeys(s) && Ascending(s)
    ensures Ascending(Insert(x, s))
    decreases |s|
  {
    if |s| == 0 || IndexValue(x.0) <= IndexValue(s[0].0) {
      AscendingCons(x, s);
    } else {
      var t := Insert(x, s[1..]);
      InsertAscending(x, s[1..]);
      assert IndexValue(s[0].0) <= IndexValue(t[0].0) by {
        if |s| > 1 { assert s[1..][0] == s[1]; }
      }
      AscendingCons(s[0], t);
    }
  }

  /** An ascending list stays ascending behind a first element no larger than its head. */
  lemma AscendingCons<T>(y: (string, T), t: seq<(string, T)>)
    requires IsArrayIndex(y.0) && AllIndexKeys(t) && Ascending(t)
    requires |t| > 0 ==> IndexValue(y.0) <= IndexValue(t[0].0)
    ensures AllIndexKeys([y] + t) && Ascending([y] + t)
  {
    var r := [y] + t;
    forall i | 0 <= i < |r| ensures IsArrayIndex(r[i].0) {
      if i > 0 { assert r[i] == t[i - 1]; }
    }
    forall i, j | 0 <= i < j < |r| ensures IndexValue(r[i].0) <= IndexValue(r[j].0) {
      assert r[j] == t[j - 1];
      if i > 0 {
        assert r[i] == t[i - 1];
      } else {
        assert IndexValue(t[0].0) <= IndexValue(t[j - 1].0);
      }
    }
  }

  /** Insertion sort of array-index properties by index, stable. */
  function SortIndices<T>(fields: seq<(string, T)>): (r: seq<(string, T)>)
    requires AllIndexKeys(fields)
    ensures |r| == |fields| && AllIndexKeys(r)
    decreases |fields|
  {
    if |fields| == 0 then [] else Insert(fields[0], SortIndices(fields[1..]))
  }

  /** The sort is ascending and a permutation of its input. */
  lemma {:induction false} SortIndicesSorted<T>(fields: seq<(string, T)>)
    requires AllIndexKeys(fields)
    ensures Ascending(SortIndices(fields))
    ensures multiset(SortIndices(fields)) == multiset(fields)
    decreases |fields|
  {
    if |fields| > 0 {
      var rest := SortIndices(fields[1..]);
      SortIndicesSorted(fields[1..]);
      InsertAscending(fields[0], rest);
      InsertMultiset(fields[0], rest);
      assert fields == [fields[0]] + fields[1..];
    }
  }

  /** `Object.keys` order of an object whose properties were created in the order
      `fields`. */
  function KeysOrder<T>(fields: seq<(string, T)>): (r: seq<(string, T)>)
    ensures |r| == |fields|
  {
    KeepKeysSplit(fields);
    assert |multiset(fields)| == |KeepKeys(fields, true)| + |KeepKeys(fields, false)|;
    SortIndices(KeepKeys(fields, true)) + KeepKeys(fields, false)
  }

  /** `KeysOrder` meets the `Object.keys` rule. */
  lemma KeysOrderListed<T>(fields: seq<(string, T)>)
    ensures ListedAsObjectKeys(KeysOrder(fields), fields)
  {
    var idx := KeepKeys(fields, true);
    var r := KeysOrder(fields);
    assert r[..|idx|] == SortIndices(idx) && r[|idx|..] == KeepKeys(fields, false);
    SortIndicesSorted(idx);
    KeepKeysSplit(fields);
  }

  /** Splitting by kind of key loses and adds no property. */
  lemma {:induction false} KeepKeysSplit<T>(fields: seq<(string, T)>)
    ensures multiset(KeepKeys(fields, true)) + multiset(KeepKeys(fields, false)) == multiset(fields)
    decreases |fields|
  {
    if |fields| > 0 {
      KeepKeysSplit(fields[1..]);
      assert fields == [fields[0]] + fields[1..];
    }
  }

  /** Keeping one kind of key keeps the lookup of keys of that kind and loses the others. */
  lemma {:induction false} FindKeepKeys<T>(fields: seq<(string, T)>, index: bool, k: string)
    ensures Find(KeepKeys(fields, index), k)
            == if IsArrayIndex(k) == index then Find(fields, k) else None
    decreases |fields|
  {
    if |fields| > 0 {
      FindKeepKeys(fields[1..], index, k);
      if IsArrayIndex(fields[0].0) == index {
        assert ([fields[0]] + KeepKeys(fields[1..], index))[1..] == KeepKeys(fields[1..], index);
      }
    }
  }

  /** The inserted property is found first exactly where it was found before the list. */
  lemma {:induction false} FindInsert<T>(x: (string, T), s: seq<(string, T)>, k: string)
    requires IsArrayIndex(x.0) && AllIndexKeys(s)
    ensures Find(Insert(x, s), k) == Find([x] + s, k)
    decreases |s|
  {
    if |s| > 0 && IndexValue(s[0].0) < IndexValue(x.0) {
      var t := Insert(x, s[1..]);
      assert Insert(x, s) == [s[0]] + t;
      assert ([s[0]] + t)[1..] == t;
      assert ([x] + s)[1..] == s && ([x] + s[1..])[1..] == s[1..];
      assert s[0].0 != x.0;
      FindInsert(x, s[1..], k);
    }
  }

  /** Sorting keeps the first binding of every key. */
  lemma {:induction false} FindSortIndices<T>(fields: seq<(string, T)>, k: string)
    requires AllIndexKeys(fields)
    ensures Find(SortIndices(fields), k) == Find(fields, k)
    decreases |fields|
  {
    if |fields| > 0 {
      var rest := SortIndices(fields[1..]);
      FindInsert(fields[0], rest, k);
      FindSortIndices(fields[1..], k);
      assert ([fields[0]] + rest)[1..] == rest;
    }
  }

  /** Listing the keys in `Object.keys` order changes no lookup: a key reads the value it
      was first given. */
  lemma KeysOrderFind<T>(fields: seq<(string, T)>, k: string)
    ensures Find(KeysOrder(fields), k) == Find(fields, k)
  {
    var idx := KeepKeys(fields, true);
    FindConcat(SortIndices(idx), KeepKeys(fields, false), k);
    FindSortIndices(idx, k);
    FindKeepKeys(fields, true, k);
    FindKeepKeys(fields, false, k);
  }

  /** Without array-index keys the listing is the creation order. */
  lemma KeysOrderNoIndex<T>(fields: seq<(string, T)>)
    requires forall i :: 0 <= i < |fields| ==> !IsArrayIndex(fields[i].0)
    ensures KeysOrder(fields) == fields
  {
    KeepKeysAll(fields);
  }

  /** Keeping the kind every key has keeps everything, and the other kind nothing. */
  lemma {:induction false} KeepKeysAll<T>(fields: seq<(string, T)>)
    requires forall i :: 0 <= i < |fields| ==> !IsArrayIndex(fields[i].0)
    ensures KeepKeys(fields, false) == fields && KeepKeys(fields, true) == []
    decreases |fields|
  {
    if |fields| > 0 {
      KeepKeysAll(fields[1..]);
      assert fields == [fields[0]] + fields[1..];
    }
  }
}

=== FILE: sequences.dfy ===
/** Small facts about slicing and concatenating sequences, proved once in a context
    free of other quantifiers so that larger proofs can cite them cheaply. */
module Sequences {

  /** A sequence is its three consecutive slices. */
  lemma SplitThree<T>(s: seq<T>, i: nat, j: nat)
    requires i <= j <= |s|
    ensures s == s[..i] + s[i..j] + s[j..]
  {
  }

  /** A suffix is its two consecutive slices. */
  lemma SuffixSplit<T>(s: seq<T>, i: nat, j: nat)
    requires i <= j <= |s|
    ensures s[i..] == s[i..j] + s[j..]
  {
  }

  /** Dropping a prefix of a concatenation. */
  lemma DropConcat<T>(a: seq<T>, b: seq<T>, n: nat)
    requires n <= |a|
    ensures (a + b)[n..] == a[n..] + b
  {
  }

  /** Taking a prefix of a concatenation that ends inside the first part. */
  lemma TakeConcat<T>(a: seq<T>, b: seq<T>, n: nat)
    requires n <= |a|
    ensures (a + b)[..n] == a[..n]
  {
  }

  /** Concatenation is associative. */
  lemma ConcatAssoc<T>(a: seq<T>, b: seq<T>, c: seq<T>)
    ensures a + b + c == a + (b + c)
  {
  }

  /** A non-empty sequence is its head followed by its tail. */
  lemma HeadTail<T>(s: seq<T>)
    requires |s| > 0
    ensures s == [s[0]] + s[1..]
  {
  }

  /** The middle part of a three-part concatenation, recovered by slicing. */
  lemma MiddleSlice<T>(a: seq<T>, b: seq<T>, c: seq<T>)
    ensures (a + b + c)[|a|..|a| + |b|] == b
    ensures (a + b + c)[|a| + |b|..] == c
  {
  }

  /** The parts of `a + (b + c)`, recovered by slicing. */
  lemma NestedSlice<T>(a: seq<T>, b: seq<T>, c: seq<T>)
    ensures (a + (b + c))[|a|..|a| + |b|] == b
    ensures (a + (b + c))[|a| + |b|..] == c
  {
  }

  /** A slice of a prefix is the same slice of the whole sequence. */
  lemma SliceOfPrefix<T>(s: seq<T>, n: nat, i: nat, j: nat)
    requires i <= j <= n <= |s|
    ensures s[..n][i..j] == s[i..j]
  {
  }
}

=== FILE: template.dfy ===
/** `processTemplate` of frontend/js/shared/components.js and its three passes: variable
    substitution over the keys of `data`, then `{{#if name}}` blocks, then
    `{{#each name}}` blocks whose body is rendered once per array item with `{{this}}`,
    the item's own keys and `{{@index}}` substituted. */
module Template {
  import opened Wrappers
  import opened Fields
  import opened Ascii
  import opened Sequences
  import opened Decimal
  import opened TemplateScan
  import opened TemplateBlocks

  /** A JavaScript primitive that can sit in template data. Only integral numbers are
      modelled. */
  datatype Prim = PStr(s: string) | PBool(b: bool) | PInt(i: int) | PNull | PUndefined

  /** An element of an array in template data: a primitive or a flat object. */
  datatype Item = IPrim(p: Prim) | IObj(fields: seq<(string, Prim)>)

  /** A value of the `data` object: a primitive, an array of items or a flat object. */
  datatype Value = VPrim(p: Prim) | VArr(items: seq<Item>) | VObj(fields: seq<(string, Value)>)

  /** The `data` object: its own enumerable properties in `Object.keys` order. */
  type Data = seq<(string, Value)>

  /** Every key is a `\w+` identifier. */
  predicate Keyed<T>(fields: seq<(string, T)>) {
    forall i :: 0 <= i < |fields| ==> IsName(fields[i].0)
  }

  /** A `\w+` name is a placeholder key. */
  lemma NameIsKey(n: string)
    requires IsName(n)
    ensures IsKey(n)
  {
  }

  /** `String(p)`. */
  function PrimText(p: Prim): string {
    match p
    case PStr(s) => s
    case PBool(b) => if b then "true" else "false"
    case PInt(i) => IntText(i)
    case PNull => "null"
    case PUndefined => "undefined"
  }

  /** An array element as `Array.prototype.join` prints it: `null` and `undefined` print
      as nothing. */
  function JoinedItemText(it: Item): string {
    match it
    case IPrim(PNull) => ""
    case IPrim(PUndefined) => ""
    case IPrim(p) => PrimText(p)
    case IObj(_) => "[object Object]"
  }

  /** `items.join(",")`, which is what `String(array)` gives. */
  function JoinItems(items: seq<Item>): (r: string)
    ensures |items| == 0 ==> r == ""
    decreases |items|
  {
    if |items| == 0 then ""
    else if |items| == 1 then JoinedItemText(items[0])
    else JoinItems(items[..|items| - 1]) + "," + JoinedItemText(items[|items| - 1])
  }

  /** The text the variable pass inserts for a value: `''` for `null` and `undefined`,
      otherwise what `String.prototype.replace` makes of the value, `String(value)`. */
  function ValueText(v: Value): string {
    match v
    case VPrim(PNull) => ""
    case VPrim(PUndefined) => ""
    case VPrim(p) => PrimText(p)
    case VArr(items) => JoinItems(items)
    case VObj(_) => "[object Object]"
  }

  /** The property names every object inherits from `Object.prototype` that a `\w+`
      block name can spell. Reading one of them from `data` yields a function (or, for
      `__proto__`, an object): truthy, and not an array. */
  const InheritedNames: set<string> := {
    "constructor", "hasOwnProperty", "isPrototypeOf", "propertyIsEnumerable",
    "toLocaleString", "toString", "valueOf", "__defineGetter__", "__defineSetter__",
    "__lookupGetter__", "__lookupSetter__", "__proto__"
  }

  /** What `data[name]` reads. */
  datatype Lookup = Own(v: Value) | Inherited | Missing

  /** `data[name]`: an own property, an inherited one, or `undefined`. */
  function Get(data: Data, name: string): (l: Lookup)
    ensures l.Own? <==> Find(data, name).Some?
    ensures l.Inherited? <==> Find(data, name).None? && name in InheritedNames
  {
    match Find(data, name)
    case Some(v) => Own(v)
    case None => if name in InheritedNames then Inherited else Missing
  }

  /** JavaScript truthiness of a primitive. */
  predicate PrimTruthy(p: Prim) {
    match p
    case PStr(s) => s != ""
    case PBool(b) => b
    case PInt(i) => i != 0
    case PNull => false
    case PUndefined => false
  }

  /** JavaScript truthiness of what `data[name]` reads: arrays, objects and inherited
      members are truthy, `undefined` is not. */
  predicate Truthy(l: Lookup) {
    match l
    case Own(VPrim(p)) => PrimTruthy(p)
    case Own(_) => true
    case Inherited => true
    case Missing => false
  }

  /** One replacement pass per key, in key order, each replacing `{{ key }}` by a text.
      Keys that are not `\w+` identifiers are not modelled and are skipped. */
  function SubstAll(t: string, keys: seq<string>, texts: seq<string>): string
    requires |keys| == |texts|
    decreases |keys|
  {
    if |keys| == 0 then t
    else
      var t' := if IsKey(keys[0]) then SubstVar(t, keys[0], texts[0]) else t;
      SubstAll(t', keys[1..], texts[1..])
  }

  /** The keys of a list of bindings, in order. */
  function Keys<T>(fields: seq<(string, T)>): (ks: seq<string>)
    ensures |ks| == |fields| && forall i :: 0 <= i < |fields| ==> ks[i] == fields[i].0
  {
    seq(|fields|, i requires 0 <= i < |fields| => fields[i].0)
  }

  /** The texts the variable pass inserts for `data`, in key order. */
  function DataTexts(data: Data): (ts: seq<string>)
    ensures |ts| == |data| && forall i :: 0 <= i < |data| ==> ts[i] == ValueText(data[i].1)
  {
    seq(|data|, i requires 0 <= i < |data| => ValueText(data[i].1))
  }

  /** The texts an object item's fields insert, `String(item[key])`, in key order. */
  function FieldTexts(fields: seq<(string, Prim)>): (ts: seq<string>)
    ensures |ts| == |fields| && forall i :: 0 <= i < |fields| ==> ts[i] == PrimText(fields[i].1)
  {
    seq(|fields|, i requires 0 <= i < |fields| => PrimText(fields[i].1))
  }

  /** The variable pass of `processTemplate`. */
  function VarPass(t: string, data: Data): string {
    SubstAll(t, Keys(data), DataTexts(data))
  }

  /** One copy of an `{{#each}}` body for the item at `index`: the item's keys (or
      `{{this}}` for a primitive item), then `{{@index}}`. */
  function RenderItem(body: string, item: Item, index: nat): string {
    var c := match item
      case IObj(fields) => SubstAll(body, Keys(fields), FieldTexts(fields))
      case IPrim(p) => SubstVar(body, "this", PrimText(p));
    SubstVar(c, "@index", NatText(index))
  }

  /** `array.map((item, index) => …).join('')`. */
  function Expand(body: string, items: seq<Item>): string
    decreases |items|
  {
    if |items| == 0 then ""
    else Expand(body, items[..|items| - 1]) + RenderItem(body, items[|items| - 1], |items| - 1)
  }

  /** What an `{{#if name}}` block becomes. */
  function IfText(data: Data, name: string, body: string): string {
    if Truthy(Get(data, name)) then body else ""
  }

  /** The replacement callback of `processConditionals`. */
  function IfRender(data: Data): (string, string) -> string {
    (name, body) => IfText(data, name, body)
  }

  /** `processConditionals`: a block is replaced by its body when `data[name]` is truthy
      and by nothing otherwise. */
  function ProcessConditionals(t: string, data: Data): string {
    ReplaceBlocks(t, "if", IfRender(data))
  }

  /** What an `{{#each name}}` block becomes. */
  function EachText(data: Data, name: string, body: string): string {
    match Get(data, name)
    case Own(VArr(items)) => Expand(body, items)
    case _ => ""
  }

  /** `processLoops`: a block is replaced by one rendered copy of its body per element
      when `data[name]` is an array, and by nothing otherwise. */
  function ProcessLoops(t: string, data: Data): string {
    ReplaceBlocks(t, "each", EachRender(data))
  }

  /** The replacement callback of `processLoops`. */
  function EachRender(data: Data): (string, string) -> string {
    (name, body) => EachText(data, name, body)
  }

  /** `processTemplate(template, data)`; `None` stands for a null `data`. */
  function ProcessTemplate(template: string, data: Option<Data>): (r: string)
    ensures data.None? || |data.value| == 0 ==> r == template
  {
    match data
    case None => template
    case Some(d) =>
      if |d| == 0 then template
      else ProcessLoops(ProcessConditionals(VarPass(template, d), d), d)
  }

  // ---------------------------------------------------------------------------------
  // Literal text

  /** A `{{` cannot start in a concatenation of two texts where none can start. */
  lemma NoOpenBraceConcat(x: string, y: string)
    requires NoOpenBrace(x) && NoOpenBrace(y)
    ensures NoOpenBrace(x + y)
  {
    var s := x + y;
    forall i | 0 <= i < |s| && s[i] == '{' ensures i + 1 < |s| && s[i + 1] != '{' {
      if i < |x| {
        assert s[i] == x[i];
        assert s[i + 1] == x[i + 1];
      } else {
        assert s[i] == y[i - |x|];
      }
    }
  }

  /** Text without `{{` holds no closing tag. */
  lemma LiteralHasNoClose(x: string, tag: string)
    requires IsTag(tag) && NoOpenBrace(x)
    ensures NoCloseIn(x, tag)
  {
    var c := CloseTag(tag);
    CloseTagChars(tag);
    forall m | 0 <= m <= |x| ensures !OccursAt(x, m, c) {
      if m + |c| <= |x| && x[m] == '{' {
        assert x[m + 1] != c[1];
      }
    }
  }

  /** One variable replacement leaves text without `{{` unchanged. */
  lemma SubstVarOfLiteral(x: string, k: string, r: string)
    requires IsKey(k) && NoOpenBrace(x)
    ensures SubstVar(x, k, r) == x
  {
    SubstVarLiteral(x, "", k, r);
    assert x + "" == x;
  }

  /** Neither block pass changes text without `{{`. */
  lemma ReplaceBlocksOfLiteral(x: string, tag: string, render: (string, string) -> string)
    requires IsTag(tag) && NoOpenBrace(x)
    ensures ReplaceBlocks(x, tag, render) == x
  {
    ReplaceBlocksLiteral(x, "", tag, render);
    assert x + "" == x;
  }

  /** A sequence of variable replacements leaves text without `{{` unchanged. */
  lemma {:induction false} SubstAllLiteral(x: string, keys: seq<string>, texts: seq<string>)
    requires |keys| == |texts| && NoOpenBrace(x)
    ensures SubstAll(x, keys, texts) == x
    decreases |keys|
  {
    if |keys| > 0 {
      if IsKey(keys[0]) {
        SubstVarOfLiteral(x, keys[0], texts[0]);
      }
      SubstAllLiteral(x, keys[1..], texts[1..]);
    }
  }

  /** A template in which no `{{` occurs is returned unchanged, whatever the data. */
  lemma ProcessTemplateLiteral(t: string, data: Option<Data>)
    requires NoOpenBrace(t)
    ensures ProcessTemplate(t, data) == t
  {
    if data.Some? && |data.value| > 0 {
      var d := data.value;
      SubstAllLiteral(t, Keys(d), DataTexts(d));
      assert IsTag("if") && IsTag("each");
      ReplaceBlocksOfLiteral(t, "if", IfRender(d));
      ReplaceBlocksOfLiteral(t, "each", EachRender(d));
    }
  }

  // ---------------------------------------------------------------------------------
  // The variable pass

  /** Dropping the first element shifts every later index down by one. */
  lemma TailIndex<T>(s: seq<T>, i: nat)
    requires 0 < i < |s|
    ensures s[1..][i - 1] == s[i]
  {
  }

  /** A key that occurs once in a list occurs once in its tail, one place earlier. */
  lemma TailUnique(keys: seq<string>, i: nat)
    requires 0 < i < |keys| && forall j :: 0 <= j < |keys| && j != i ==> keys[j] != keys[i]
    ensures keys[1..][i - 1] == keys[i]
    ensures forall j :: 0 <= j < |keys[1..]| && j != i - 1 ==> keys[1..][j] != keys[i]
  {
    forall j | 0 <= j < |keys[1..]| && j != i - 1 ensures keys[1..][j] != keys[i] {
      assert keys[1..][j] == keys[j + 1];
    }
  }

  /** A first replacement for a key other than `k` leaves a placeholder of `k` in place,
      so the pass continues with the remaining keys on the same text. */
  lemma SubstAllSkipsFirst(a: string, q: string, b: string, keys: seq<string>,
                           texts: seq<string>, k: string)
    requires |keys| == |texts| && |keys| > 0 && IsKey(k) && IsPlaceholder(q, k)
    requires NoOpenBrace(a) && NoOpenBrace(b) && keys[0] != k
    ensures SubstAll(a + q + b, keys, texts) == SubstAll(a + q + b, keys[1..], texts[1..])
  {
    if IsKey(keys[0]) {
      SubstVarKeepsOtherKeys(a, q, b, keys[0], k, texts[0]);
      SubstVarOfLiteral(a, keys[0], texts[0]);
      SubstVarOfLiteral(b, keys[0], texts[0]);
    }
  }

  /** The first replacement fills a placeholder of its key, and the result has no `{{`
      left for the rest of the pass. */
  lemma SubstAllFillsFirst(a: string, q: string, b: string, keys: seq<string>, texts: seq<string>)
    requires |keys| == |texts| && |keys| > 0 && IsKey(keys[0]) && IsPlaceholder(q, keys[0])
    requires NoOpenBrace(a) && NoOpenBrace(b) && NoOpenBrace(texts[0])
    ensures SubstAll(a + q + b, keys, texts) == a + texts[0] + b
  {
    SubstVarReplacesInPlace(a, q, b, keys[0], texts[0]);
    SubstVarOfLiteral(a, keys[0], texts[0]);
    SubstVarOfLiteral(b, keys[0], texts[0]);
    NoOpenBraceConcat(a, texts[0]);
    NoOpenBraceConcat(a + texts[0], b);
    SubstAllLiteral(a + texts[0] + b, keys[1..], texts[1..]);
  }

  /** The replacement for the one key `keys[i]` fills its placeholder, and no other
      replacement touches the result. */
  lemma {:induction false} SubstAllReplaces(a: string, q: string, b: string, keys: seq<string>,
                                            texts: seq<string>, i: nat)
    requires |keys| == |texts| && i < |keys| && IsKey(keys[i]) && IsPlaceholder(q, keys[i])
    requires NoOpenBrace(a) && NoOpenBrace(b) && NoOpenBrace(texts[i])
    requires forall j :: 0 <= j < |keys| && j != i ==> keys[j] != keys[i]
    ensures SubstAll(a + q + b, keys, texts) == a + texts[i] + b
    decreases i
  {
    if i == 0 {
      SubstAllFillsFirst(a, q, b, keys, texts);
    } else {
      TailUnique(keys, i);
      TailIndex(texts, i);
      SubstAllSkipsFirst(a, q, b, keys, texts, keys[i]);
      SubstAllReplaces(a, q, b, keys[1..], texts[1..], i - 1);
    }
  }

  /** The variable pass leaves a template without `{{` unchanged. */
  lemma VarPassLiteral(t: string, data: Data)
    requires NoOpenBrace(t)
    ensures VarPass(t, data) == t
  {
    SubstAllLiteral(t, Keys(data), DataTexts(data));
  }

  /** The keys of bindings with distinct keys are distinct. */
  lemma KeysDistinct<T>(fields: seq<(string, T)>, i: nat)
    requires DistinctKeys(fields) && i < |fields|
    ensures Keys(fields)[i] == fields[i].0
    ensures forall j :: 0 <= j < |fields| && j != i ==> Keys(fields)[j] != Keys(fields)[i]
  {
    var ks := Keys(fields);
    forall j | 0 <= j < |fields| && j != i ensures ks[j] != ks[i] {
      if j < i {
        assert fields[j].0 != fields[i].0;
      } else {
        assert fields[i].0 != fields[j].0;
      }
    }
  }

  /** A lone placeholder of a key of `data`, between literal texts, is replaced by the
      value's text. */
  lemma VarPassFillsLone(a: string, q: string, b: string, data: Data, i: nat)
    requires DistinctKeys(data) && i < |data| && IsName(data[i].0) && IsPlaceholder(q, data[i].0)
    requires NoOpenBrace(a) && NoOpenBrace(b) && NoOpenBrace(ValueText(data[i].1))
    ensures VarPass(a + q + b, data) == a + ValueText(data[i].1) + b
  {
    var ks := Keys(data);
    var ts := DataTexts(data);
    var v := ValueText(data[i].1);
    NameIsKey(data[i].0);
    KeysDistinct(data, i);
    assert ts[i] == v;
    SubstAllReplaces(a, q, b, ks, ts, i);
  }

  // ---------------------------------------------------------------------------------
  // Block passes

  /** An `{{#if}}` block after literal text keeps its body exactly when `data[name]` is
      truthy; the text before it is kept and the pass continues after the closing tag. */
  lemma IfBlock(x: string, w: string, name: string, body: string, u: string, data: Data)
    requires NoOpenBrace(x) && ValidOpener(w, name) && NoCloseIn(body, "if")
    ensures Truthy(Get(data, name)) ==>
              ProcessConditionals(x + BlockThen("if", w, name, body, u), data)
                == x + body + ProcessConditionals(u, data)
    ensures !Truthy(Get(data, name)) ==>
              ProcessConditionals(x + BlockThen("if", w, name, body, u), data)
                == x + ProcessConditionals(u, data)
  {
    assert IsTag("if");
    ReplaceBlocksAround(x, "if", w, name, body, u, IfRender(data));
    assert x + "" == x;
  }

  /** An `{{#if}}` opener that is never closed is left as it is. */
  lemma IfUnterminated(t: string, data: Data)
    requires NoCloseIn(t, "if")
    ensures ProcessConditionals(t, data) == t
  {
    assert IsTag("if");
    ReplaceBlocksUnterminated(t, "if", IfRender(data));
  }

  /** An `{{#each}}` block after literal text becomes the expansion of its body over
      `data[name]` when that is an array, and nothing otherwise. */
  lemma EachBlock(x: string, w: string, name: string, body: string, u: string, data: Data)
    requires NoOpenBrace(x) && ValidOpener(w, name) && NoCloseIn(body, "each")
    ensures Get(data, name).Own? && Get(data, name).v.VArr? ==>
              ProcessLoops(x + BlockThen("each", w, name, body, u), data)
                == x + Expand(body, Get(data, name).v.items) + ProcessLoops(u, data)
    ensures !(Get(data, name).Own? && Get(data, name).v.VArr?) ==>
              ProcessLoops(x + BlockThen("each", w, name, body, u), data)
                == x + ProcessLoops(u, data)
  {
    assert IsTag("each");
    ReplaceBlocksAround(x, "each", w, name, body, u, EachRender(data));
    assert x + "" == x;
  }

  /** An `{{#each}}` opener that is never closed is left as it is. */
  lemma EachUnterminated(t: string, data: Data)
    requires NoCloseIn(t, "each")
    ensures ProcessLoops(t, data) == t
  {
    assert IsTag("each");
    ReplaceBlocksUnterminated(t, "each", EachRender(data));
  }

  // ---------------------------------------------------------------------------------
  // Loop bodies

  /** `n` copies of `s`. */
  function Repeat(s: string, n: nat): string {
    if n == 0 then "" else Repeat(s, n - 1) + s
  }

  /** Items whose own keys cannot capture `{{@index}}`: object items have `\w+` keys. */
  predicate PlainItem(item: Item) {
    item.IObj? ==> Keyed(item.fields)
  }

  /** A body without placeholders is copied verbatim for any item. */
  lemma RenderItemLiteral(body: string, item: Item, index: nat)
    requires NoOpenBrace(body)
    ensures RenderItem(body, item, index) == body
  {
    assert IsKey("this") && IsKey("@index");
    match item {
      case IObj(fields) => SubstAllLiteral(body, Keys(fields), FieldTexts(fields));
      case IPrim(p) => SubstVarOfLiteral(body, "this", PrimText(p));
    }
    SubstVarOfLiteral(body, "@index", NatText(index));
  }

  /** A body without placeholders is repeated once per element. */
  lemma {:induction false} ExpandLiteral(body: string, items: seq<Item>)
    requires NoOpenBrace(body)
    ensures Expand(body, items) == Repeat(body, |items|)
    decreases |items|
  {
    if |items| > 0 {
      ExpandLiteral(body, items[..|items| - 1]);
      RenderItemLiteral(body, items[|items| - 1], |items| - 1);
    }
  }

  // ---------------------------------------------------------------------------------
  // Pass order

  /** A block opener: two braces, `#`, then nothing that is a brace. */
  lemma OpenerChars(tag: string, w: string, name: string)
    requires IsTag(tag) && ValidOpener(w, name)
    ensures |OpenerText(tag, w, name)| >= 3
    ensures OpenerText(tag, w, name)[0] == '{' && OpenerText(tag, w, name)[1] == '{'
    ensures OpenerText(tag, w, name)[2] == '#'
    ensures forall d :: 2 <= d < |OpenerText(tag, w, name)| ==> OpenerText(tag, w, name)[d] != '{'
  {
    var o := OpenerText(tag, w, name);
    var t := |tag|;
    forall d | 2 <= d < |o| ensures o[d] != '{' {
      if d < 3 {
      } else if d < 3 + t {
        assert o[d] == tag[d - 3];
      } else if d < 3 + t + |w| {
        assert o[d] == w[d - 3 - t];
      } else if d < 3 + t + |w| + |name| {
        assert o[d] == name[d - 3 - t - |w|];
      } else {
        assert o[d] == '}';
      }
    }
  }

  /** After its first character, a text whose only `{` is at the front holds no `{{`. */
  lemma NoOpenBraceAfterHead(h: string)
    requires |h| >= 3 && h[2] != '{'
    requires forall d :: 2 <= d < |h| ==> h[d] != '{'
    ensures NoOpenBrace(h[1..])
  {
    var x := h[1..];
    forall i | 0 <= i < |x| && x[i] == '{' ensures i + 1 < |x| && x[i + 1] != '{' {
      assert x[i] == h[i + 1];
      assert x[i + 1] == h[i + 2];
    }
  }

  /** One variable replacement passes over a closing tag at the end of the text. */
  lemma SubstVarBeforeClose(body: string, tag: string, k: string, r: string)
    requires IsTag(tag) && IsKey(k)
    ensures SubstVar(body + (CloseTag(tag) + ""), k, r) == SubstVar(body, k, r) + (CloseTag(tag) + "")
  {
    var c := CloseTag(tag);
    CloseTagChars(tag);
    NoOpenBraceAfterHead(c);
    SubstVarInertHead(c, "", k, r);
    assert c + "" == c;
    SubstVarConcat(body, c, k, r);
  }

  /** One variable replacement passes over a block's opener and closing tag and acts
      on its body alone. */
  lemma SubstVarInBlock(tag: string, w: string, name: string, body: string, k: string, r: string)
    requires IsTag(tag) && ValidOpener(w, name) && IsKey(k)
    ensures SubstVar(BlockThen(tag, w, name, body, ""), k, r)
              == BlockThen(tag, w, name, SubstVar(body, k, r), "")
  {
    var o := OpenerText(tag, w, name);
    var c := CloseTag(tag);
    OpenerChars(tag, w, name);
    NoOpenBraceAfterHead(o);
    SubstVarInertHead(o, body + (c + ""), k, r);
    SubstVarBeforeClose(body, tag, k, r);
  }

  /** The whole variable pass acts on a block's body alone. */
  lemma {:induction false} SubstAllInBlock(tag: string, w: string, name: string, body: string,
                                           keys: seq<string>, texts: seq<string>)
    requires IsTag(tag) && ValidOpener(w, name) && |keys| == |texts|
    ensures SubstAll(BlockThen(tag, w, name, body, ""), keys, texts)
              == BlockThen(tag, w, name, SubstAll(body, keys, texts), "")
    decreases |keys|
  {
    if |keys| > 0 {
      var body' := if IsKey(keys[0]) then SubstVar(body, keys[0], texts[0]) else body;
      if IsKey(keys[0]) {
        SubstVarInBlock(tag, w, name, body, keys[0], texts[0]);
      }
      SubstAllInBlock(tag, w, name, body', keys[1..], texts[1..]);
    }
  }

  /** An `{{#if}}` block that is the whole text becomes its body or nothing. */
  lemma IfBlockAlone(w: string, name: string, body: string, data: Data)
    requires ValidOpener(w, name) && NoCloseIn(body, "if")
    ensures ProcessConditionals(BlockThen("if", w, name, body, ""), data) == IfText(data, name, body)
  {
    assert IsTag("if");
    ReplaceBlocksAtHead("if", w, name, body, "", IfRender(data));
    assert IfText(data, name, body) + "" == IfText(data, name, body);
  }

  /** The variable pass runs before the blocks are evaluated: an `{{#if}}` block that is
      the whole template yields its body after the variable pass (then the loop pass),
      or nothing. */
  lemma IfBodySeesVariables(w: string, name: string, body: string, data: Data)
    requires |data| > 0 && ValidOpener(w, name) && NoCloseIn(VarPass(body, data), "if")
    ensures Truthy(Get(data, name)) ==>
              ProcessTemplate(BlockThen("if", w, name, body, ""), Some(data))
                == ProcessLoops(VarPass(body, data), data)
    ensures !Truthy(Get(data, name)) ==>
              ProcessTemplate(BlockThen("if", w, name, body, ""), Some(data)) == ""
  {
    assert IsTag("if") && IsTag("each");
    var vb := VarPass(body, data);
    SubstAllInBlock("if", w, name, body, Keys(data), DataTexts(data));
    assert VarPass(BlockThen("if", w, name, body, ""), data) == BlockThen("if", w, name, vb, "");
    IfBlockAlone(w, name, vb, data);
  }

  /** End to end: `{{#if name}}a{{ key }}b{{/if}}` renders as `a`, the value, `b` when
      `data[name]` is truthy, and as nothing otherwise. */
  lemma IfBlockShowsValue(w: string, name: string, a: string, q: string, b: string, data: Data, i: nat)
    requires ValidOpener(w, name)
    requires DistinctKeys(data) && i < |data| && IsName(data[i].0) && IsPlaceholder(q, data[i].0)
    requires NoOpenBrace(a) && NoOpenBrace(b) && NoOpenBrace(ValueText(data[i].1))
    ensures Truthy(Get(data, name)) ==>
              ProcessTemplate(BlockThen("if", w, name, a + q + b, ""), Some(data))
                == a + ValueText(data[i].1) + b
    ensures !Truthy(Get(data, name)) ==>
              ProcessTemplate(BlockThen("if", w, name, a + q + b, ""), Some(data)) == ""
  {
    var v := ValueText(data[i].1);
    VarPassFillsLone(a, q, b, data, i);
    NoOpenBraceConcat(a, v);
    NoOpenBraceConcat(a + v, b);
    assert IsTag("if") && IsTag("each");
    LiteralHasNoClose(a + v + b, "if");
    IfBodySeesVariables(w, name, a + q + b, data);
    ReplaceBlocksOfLiteral(a + v + b, "each", EachRender(data));
  }
}

=== FILE: template_blocks.dfy ===
/** The block constructs of the fragment template language in
    frontend/js/shared/components.js: `{{#tag name}}body{{/tag}}`, matched by the regular
    expression `\{\{#tag\s+(\w+)\}\}([\s\S]*?)\{\{\/tag\}\}` under a global
    `String.prototype.replace` with a callback. The body is lazy: it ends at the first
    closing tag after the opener. An opener with no closing tag after it is not a match,
    and the scan moves on by one character. */
module TemplateBlocks {
  import opened Wrappers
  import opened Ascii
  import opened Sequences
  import opened TemplateScan

  /** A block keyword: `if` or `each`, or any other lower-case word. */
  predicate IsTag(tag: string) {
    |tag| > 0 && forall i :: 0 <= i < |tag| ==> IsLowerLetter(tag[i])
  }

  /** A block name, the regular expression `\w+`. */
  predicate IsName(n: string) {
    |n| > 0 && forall i :: 0 <= i < |n| ==> IsWordChar(n[i])
  }

  /** `{{#tag`, the fixed start of an opener. */
  function OpenPrefix(tag: string): string {
    "{{#" + tag
  }

  /** `{{/tag}}`, the closing tag. */
  function CloseTag(tag: string): string {
    "{{/" + tag + "}}"
  }

  /** A complete opener: `{{#tag`, whitespace, the name, `}}`. */
  function OpenerText(tag: string, w: string, name: string): string {
    OpenPrefix(tag) + w + name + "}}"
  }

  /** A whole block (opener, body, closing tag) followed by the text `u`. */
  function BlockThen(tag: string, w: string, name: string, body: string, u: string): string {
    OpenerText(tag, w, name) + (body + (CloseTag(tag) + u))
  }

  /** The whitespace and name of an opener are ones the regular expression admits. */
  predicate ValidOpener(w: string, name: string) {
    |w| > 0 && AllWs(JsWhitespace, w) && IsName(name)
  }

  /** The regular expression `\w*` run from position `i`: the first position at or after
      `i` that does not hold a word character. */
  function SkipWord(s: string, i: nat): (j: nat)
    requires i <= |s|
    ensures i <= j <= |s|
    ensures forall m :: i <= m < j ==> IsWordChar(s[m])
    ensures j < |s| ==> !IsWordChar(s[j])
    decreases |s| - i
  {
    if i < |s| && IsWordChar(s[i]) then SkipWord(s, i + 1) else i
  }

  /** `SkipWord` is determined by its contract. */
  lemma {:induction false} SkipWordExact(s: string, i: nat, j: nat)
    requires i <= j <= |s|
    requires forall m :: i <= m < j ==> IsWordChar(s[m])
    requires j < |s| ==> !IsWordChar(s[j])
    ensures SkipWord(s, i) == j
    decreases j - i
  {
    if i < j {
      SkipWordExact(s, i + 1, j);
    }
  }

  /** An opener found at the start of a string: its name and where it ends. */
  datatype Opener = Opener(name: string, end: nat)

  /** `\{\{#tag\s+(\w+)\}\}` tried at the start of `s`. Each quantifier must take its whole
      run (the next item of the pattern cannot start inside it), so the match is
      deterministic. */
  function MatchOpener(s: string, tag: string): (r: Option<Opener>)
    requires IsTag(tag)
    ensures r.Some? ==> |tag| + 6 < r.value.end <= |s| && IsName(r.value.name)
  {
    var p := |tag| + 3;
    if !OccursAt(s, 0, OpenPrefix(tag)) then None
    else
      var a := SkipWs(JsWhitespace, s, p);
      var b := SkipWord(s, a);
      if a == p || b == a || b + 2 > |s| || s[b] != '}' || s[b + 1] != '}' then None
      else Some(Opener(s[a..b], b + 2))
  }

  /** What `MatchOpener` accepts is an opener, with the name it reports. */
  lemma MatchOpenerSound(s: string, tag: string) returns (w: string)
    requires IsTag(tag) && MatchOpener(s, tag).Some?
    ensures ValidOpener(w, MatchOpener(s, tag).value.name)
    ensures s[..MatchOpener(s, tag).value.end] == OpenerText(tag, w, MatchOpener(s, tag).value.name)
  {
    var p := |tag| + 3;
    var a := SkipWs(JsWhitespace, s, p);
    var b := SkipWord(s, a);
    w := s[p..a];
    var name := s[a..b];
    var t := s[..b + 2];
    assert AllWs(JsWhitespace, w) by {
      forall i | 0 <= i < |w| ensures IsWs(JsWhitespace, w[i]) { assert w[i] == s[p + i]; }
    }
    assert t[..p] == OpenPrefix(tag) by {
      forall i | 0 <= i < p ensures t[..p][i] == OpenPrefix(tag)[i] { assert s[0 + i] == OpenPrefix(tag)[i]; }
    }
    assert t[p..a] == w by {
      SliceOfPrefix(s, b + 2, p, a);
    }
    assert t[a..b] == name by {
      SliceOfPrefix(s, b + 2, a, b);
    }
    assert t[b..] == "}}";
    SplitFour(t, p, a, b);
  }

  /** Helper: a prefix cut into four consecutive slices. */
  lemma SplitFour(t: string, p: nat, a: nat, b: nat)
    requires p <= a <= b <= |t|
    ensures t == t[..p] + t[p..a] + t[a..b] + t[b..]
  {
  }

  /** Where the parts of an opener sit in the text that starts with it. */
  lemma OpenerLayout(tag: string, w: string, name: string, u: string, s: string)
    requires s == OpenerText(tag, w, name) + u
    ensures |s| == |tag| + 3 + |w| + |name| + 2 + |u|
    ensures OccursAt(s, 0, OpenPrefix(tag))
    ensures forall m :: |tag| + 3 <= m < |tag| + 3 + |w| ==> s[m] == w[m - (|tag| + 3)]
    ensures forall m :: |tag| + 3 + |w| <= m < |tag| + 3 + |w| + |name|
              ==> s[m] == name[m - (|tag| + 3 + |w|)]
    ensures s[|tag| + 3 + |w| + |name|] == '}' && s[|tag| + 3 + |w| + |name| + 1] == '}'
  {
    var p := |tag| + 3;
    assert s == OpenPrefix(tag) + w + name + "}}" + u;
    assert forall i :: 0 <= i < p ==> s[i] == OpenPrefix(tag)[i];
  }

  /** The scans of `MatchOpener` stop at the ends of an opener's whitespace and name,
      stated for any text holding the whitespace `w` at `p` and the name right after. */
  lemma OpenerScans(s: string, p: nat, w: string, name: string)
    requires ValidOpener(w, name) && p + |w| + |name| < |s|
    requires forall m :: p <= m < p + |w| ==> s[m] == w[m - p]
    requires forall m :: p + |w| <= m < p + |w| + |name| ==> s[m] == name[m - (p + |w|)]
    requires s[p + |w| + |name|] == '}'
    ensures SkipWs(JsWhitespace, s, p) == p + |w|
    ensures SkipWord(s, p + |w|) == p + |w| + |name|
    ensures s[p + |w|..p + |w| + |name|] == name
  {
    var a := p + |w|;
    var b := a + |name|;
    assert s[a] == name[0];
    SkipWsExact(JsWhitespace, s, p, a);
    SkipWordExact(s, a, b);
    assert forall m :: 0 <= m < |name| ==> s[a..b][m] == name[m];
  }

  /** Every opener at the start of a string is found, with its name. */
  lemma MatchOpenerComplete(tag: string, w: string, name: string, u: string)
    requires IsTag(tag) && ValidOpener(w, name)
    ensures MatchOpener(OpenerText(tag, w, name) + u, tag)
              == Some(Opener(name, |OpenerText(tag, w, name)|))
  {
    var s := OpenerText(tag, w, name) + u;
    OpenerLayout(tag, w, name, u, s);
    MatchOpenerAt(s, tag, |tag| + 3, w, name);
  }

  /** `MatchOpener` on any text that starts with `{{#tag`, whitespace `w` and a name
      followed by `}}`. */
  lemma MatchOpenerAt(s: string, tag: string, p: nat, w: string, name: string)
    requires IsTag(tag) && ValidOpener(w, name) && p == |tag| + 3
    requires OccursAt(s, 0, OpenPrefix(tag)) && p + |w| + |name| + 2 <= |s|
    requires forall m :: p <= m < p + |w| ==> s[m] == w[m - p]
    requires forall m :: p + |w| <= m < p + |w| + |name| ==> s[m] == name[m - (p + |w|)]
    requires s[p + |w| + |name|] == '}' && s[p + |w| + |name| + 1] == '}'
    ensures MatchOpener(s, tag) == Some(Opener(name, p + |w| + |name| + 2))
  {
    OpenerScans(s, p, w, name);
  }

  /** The first occurrence of `pat` in `s` at or after position `i`. */
  function FindFrom(s: string, i: nat, pat: string): (r: Option<nat>)
    requires i <= |s|
    ensures r.Some? ==> i <= r.value && OccursAt(s, r.value, pat)
    ensures r.Some? ==> forall m :: i <= m < r.value ==> !OccursAt(s, m, pat)
    ensures r.None? ==> forall m :: i <= m <= |s| ==> !OccursAt(s, m, pat)
    decreases |s| - i
  {
    if OccursAt(s, i, pat) then Some(i)
    else if i == |s| then None
    else FindFrom(s, i + 1, pat)
  }

  /** `FindFrom` is determined by its contract. */
  lemma {:induction false} FindFromExact(s: string, i: nat, j: nat, pat: string)
    requires i <= j && OccursAt(s, j, pat)
    requires forall m :: i <= m < j ==> !OccursAt(s, m, pat)
    ensures FindFrom(s, i, pat) == Some(j)
    decreases j - i
  {
    if i < j {
      FindFromExact(s, i + 1, j, pat);
    }
  }

  /** A block found at the start of a string: name, body, and where it ends. */
  datatype Block = Block(name: string, body: string, end: nat)

  /** The block regular expression tried at the start of `s`: an opener, then the
      shortest body followed by the closing tag. */
  function MatchBlock(s: string, tag: string): (r: Option<Block>)
    requires IsTag(tag)
    ensures r.Some? ==> 0 < r.value.end <= |s|
  {
    match MatchOpener(s, tag)
    case None => None
    case Some(o) =>
      match FindFrom(s, o.end, CloseTag(tag))
      case None => None
      case Some(j) => Some(Block(o.name, s[o.end..j], j + |CloseTag(tag)|))
  }

  /** How far one step of the block scan advances. */
  function BlockStep(s: string, tag: string): (n: nat)
    requires IsTag(tag) && |s| > 0
    ensures 1 <= n <= |s|
  {
    match MatchBlock(s, tag)
    case Some(b) => b.end
    case None => 1
  }

  /** What one step of the block scan emits: the callback's text for a block, otherwise
      the character itself. */
  function BlockOut(s: string, tag: string, render: (string, string) -> string): string
    requires IsTag(tag) && |s| > 0
  {
    match MatchBlock(s, tag)
    case Some(b) => render(b.name, b.body)
    case None => [s[0]]
  }

  /** `template.replace(blockRegex, (match, name, body) => render(name, body))`. */
  function ReplaceBlocks(s: string, tag: string, render: (string, string) -> string): string
    requires IsTag(tag)
    decreases |s|
  {
    if |s| == 0 then "" else BlockOut(s, tag, render) + ReplaceBlocks(s[BlockStep(s, tag)..], tag, render)
  }

  /** Without a block at its head, the scan copies the first character. */
  lemma ReplaceBlocksCopies(s: string, tag: string, render: (string, string) -> string)
    requires IsTag(tag) && |s| > 0 && MatchBlock(s, tag).None?
    ensures ReplaceBlocks(s, tag, render) == [s[0]] + ReplaceBlocks(s[1..], tag, render)
  {
  }

  /** No block starts where no `{{` starts. */
  lemma NoBlockWithoutOpen(s: string, tag: string)
    requires IsTag(tag) && !StartsWithOpen(s)
    ensures MatchBlock(s, tag).None?
  {
    var op := OpenPrefix(tag);
    assert op[0] == '{' && op[1] == '{';
  }

  /** Text in which no `{{` can start passes through the block scan unchanged. */
  lemma {:induction false} ReplaceBlocksLiteral(x: string, u: string, tag: string, render: (string, string) -> string)
    requires IsTag(tag) && NoOpenBrace(x)
    ensures ReplaceBlocks(x + u, tag, render) == x + ReplaceBlocks(u, tag, render)
    decreases |x|
  {
    if |x| > 0 {
      var s := x + u;
      assert !StartsWithOpen(s) by {
        if x[0] == '{' { assert s[1] == x[1]; }
      }
      NoBlockWithoutOpen(s, tag);
      ReplaceBlocksCopies(s, tag, render);
      NoOpenBraceTail(x);
      DropConcat(x, u, 1);
      ReplaceBlocksLiteral(x[1..], u, tag, render);
      HeadTail(x);
      ConcatAssoc([x[0]], x[1..], ReplaceBlocks(u, tag, render));
    } else {
      assert x + u == u;
    }
  }

  /** `body` holds no complete closing tag. */
  predicate NoCloseIn(body: string, tag: string) {
    forall m :: 0 <= m <= |body| ==> !OccursAt(body, m, CloseTag(tag))
  }

  /** The characters of a closing tag: only the first two are opening braces. */
  lemma CloseTagChars(tag: string)
    requires IsTag(tag)
    ensures CloseTag(tag)[0] == '{' && CloseTag(tag)[1] == '{' && CloseTag(tag)[2] == '/'
    ensures forall d :: 2 <= d < |CloseTag(tag)| ==> CloseTag(tag)[d] != '{'
  {
    var c := CloseTag(tag);
    forall d | 2 <= d < |c| ensures c[d] != '{' {
      if d == 2 {
      } else if d < 3 + |tag| {
        assert c[d] == tag[d - 3];
      } else {
        assert c[d] == '}';
      }
    }
  }

  /** Two occurrences of a closing tag never overlap: `{{/tag}}` has no proper prefix that
      is also a suffix. */
  lemma CloseNoOverlap(s: string, p: nat, q: nat, tag: string)
    requires IsTag(tag) && p < q < p + |CloseTag(tag)|
    requires OccursAt(s, q, CloseTag(tag))
    ensures !OccursAt(s, p, CloseTag(tag))
  {
    var c := CloseTag(tag);
    CloseTagChars(tag);
    var d := q - p;
    assert s[q] == '{' && s[q + 1] == '{' by {
      assert s[q + 0] == c[0] && s[q + 1] == c[1];
    }
    if d == 1 {
      assert c[2] == '/' && s[p + 2] == s[q + 1];
    } else {
      assert c[d] != '{' && s[p + d] == s[q];
    }
  }

  /** The closing tag after a body free of closing tags is the first one after the
      body's start. */
  lemma FirstCloseAfterBody(s: string, i: nat, body: string, tag: string)
    requires IsTag(tag) && NoCloseIn(body, tag)
    requires i + |body| + |CloseTag(tag)| <= |s|
    requires s[i..i + |body|] == body && OccursAt(s, i + |body|, CloseTag(tag))
    ensures FindFrom(s, i, CloseTag(tag)) == Some(i + |body|)
  {
    var c := CloseTag(tag);
    var q := i + |body|;
    forall m | i <= m < q ensures !OccursAt(s, m, c) {
      if m + |c| <= q {
        OccursInSlice(s, i, |body|, m, c);
      } else {
        CloseNoOverlap(s, m, q, tag);
      }
    }
    FindFromExact(s, i, q, c);
  }

  /** Where the body and the closing tag lie in `BlockThen(..)`. */
  lemma BlockThenParts(tag: string, w: string, name: string, body: string, u: string)
    ensures |OpenerText(tag, w, name)| + |body| + |CloseTag(tag)| <= |BlockThen(tag, w, name, body, u)|
    ensures BlockThen(tag, w, name, body, u)[|OpenerText(tag, w, name)|..|OpenerText(tag, w, name)| + |body|] == body
    ensures OccursAt(BlockThen(tag, w, name, body, u), |OpenerText(tag, w, name)| + |body|, CloseTag(tag))
  {
    var o := OpenerText(tag, w, name);
    var c := CloseTag(tag);
    var s := o + (body + (c + u));
    NestedSlice(o, body, c + u);
    assert s[|o| + |body|..][..|c|] == c;
    assert s[|o| + |body|..|o| + |body| + |c|] == c;
    OccursOfSlice(s, |o| + |body|, c);
  }

  /** A block read off a string whose opener, body and closing tag are known. */
  lemma MatchBlockOfParts(s: string, tag: string, name: string, start: nat, body: string)
    requires IsTag(tag) && NoCloseIn(body, tag)
    requires MatchOpener(s, tag) == Some(Opener(name, start))
    requires start + |body| + |CloseTag(tag)| <= |s|
    requires s[start..start + |body|] == body && OccursAt(s, start + |body|, CloseTag(tag))
    ensures MatchBlock(s, tag) == Some(Block(name, body, start + |body| + |CloseTag(tag)|))
  {
    FirstCloseAfterBody(s, start, body, tag);
  }

  /** A whole block at the head is replaced by the callback's text for its name and
      body, and the scan resumes right after the closing tag. */
  lemma ReplaceBlocksAtHead(tag: string, w: string, name: string, body: string, u: string,
                            render: (string, string) -> string)
    requires IsTag(tag) && ValidOpener(w, name) && NoCloseIn(body, tag)
    ensures ReplaceBlocks(BlockThen(tag, w, name, body, u), tag, render)
              == render(name, body) + ReplaceBlocks(u, tag, render)
  {
    MatchOpenerComplete(tag, w, name, body + (CloseTag(tag) + u));
    BlockThenParts(tag, w, name, body, u);
    BlockThenRest(tag, w, name, body, u);
    ReplaceBlocksOfParts(BlockThen(tag, w, name, body, u), tag, render, name, |OpenerText(tag, w, name)|, body, u);
  }

  /** An opener of `name` ending at `start`, then `body` free of closing tags, then the
      closing tag and `u`: the scan emits the callback's text and goes on with `u`. */
  lemma ReplaceBlocksOfParts(s: string, tag: string, render: (string, string) -> string,
                             name: string, start: nat, body: string, u: string)
    requires IsTag(tag) && NoCloseIn(body, tag)
    requires MatchOpener(s, tag) == Some(Opener(name, start))
    requires start + |body| + |CloseTag(tag)| <= |s|
    requires s[start..start + |body|] == body && OccursAt(s, start + |body|, CloseTag(tag))
    requires s[start + |body| + |CloseTag(tag)|..] == u
    ensures ReplaceBlocks(s, tag, render) == render(name, body) + ReplaceBlocks(u, tag, render)
  {
    var e := start + |body| + |CloseTag(tag)|;
    assert MatchBlock(s, tag) == Some(Block(name, body, e)) by {
      MatchBlockOfParts(s, tag, name, start, body);
    }
    ReplaceBlocksAtMatch(s, tag, render, name, body, e, u);
  }

  /** With a block matched at its head and `u` after it, the scan emits the callback's
      text and goes on with `u`. */
  lemma ReplaceBlocksAtMatch(s: string, tag: string, render: (string, string) -> string,
                             name: string, body: string, e: nat, u: string)
    requires IsTag(tag) && MatchBlock(s, tag) == Some(Block(name, body, e))
    requires e <= |s| && s[e..] == u
    ensures ReplaceBlocks(s, tag, render) == render(name, body) + ReplaceBlocks(u, tag, render)
  {
    ReplaceBlocksAtBlock(s, tag, render, Block(name, body, e));
  }

  /** What follows the closing tag in `BlockThen(..)`. */
  lemma BlockThenRest(tag: string, w: string, name: string, body: string, u: string)
    ensures var e := |OpenerText(tag, w, name)| + |body| + |CloseTag(tag)|;
            e <= |BlockThen(tag, w, name, body, u)| && BlockThen(tag, w, name, body, u)[e..] == u
  {
    var o := OpenerText(tag, w, name);
    var c := CloseTag(tag);
    NestedSlice(o, body, c + u);
    DropConcat(c, u, |c|);
  }

  /** With a block at its head, the scan emits the callback's text and resumes after
      the block. */
  lemma ReplaceBlocksAtBlock(s: string, tag: string, render: (string, string) -> string, blk: Block)
    requires IsTag(tag) && |s| > 0 && MatchBlock(s, tag) == Some(blk)
    ensures blk.end <= |s|
    ensures ReplaceBlocks(s, tag, render) == render(blk.name, blk.body) + ReplaceBlocks(s[blk.end..], tag, render)
  {
  }

  /** Text outside blocks is preserved: literal text, then a block, then the rest. */
  lemma ReplaceBlocksAround(x: string, tag: string, w: string, name: string, body: string, u: string,
                            render: (string, string) -> string)
    requires IsTag(tag) && NoOpenBrace(x) && ValidOpener(w, name) && NoCloseIn(body, tag)
    ensures ReplaceBlocks(x + BlockThen(tag, w, name, body, u), tag, render)
              == x + render(name, body) + ReplaceBlocks(u, tag, render)
  {
    ReplaceBlocksLiteral(x, BlockThen(tag, w, name, body, u), tag, render);
    ReplaceBlocksAtHead(tag, w, name, body, u, render);
    ConcatAssoc(x, render(name, body), ReplaceBlocks(u, tag, render));
  }

  /** Without any closing tag, no block matches and the text is unchanged: an opener
      that is never closed stays raw. */
  lemma {:induction false} ReplaceBlocksUnterminated(s: string, tag: string, render: (string, string) -> string)
    requires IsTag(tag) && NoCloseIn(s, tag)
    ensures ReplaceBlocks(s, tag, render) == s
    decreases |s|
  {
    if |s| > 0 {
      NoCloseNoBlock(s, tag);
      ReplaceBlocksCopies(s, tag, render);
      NoCloseInTail(s, tag);
      ReplaceBlocksUnterminated(s[1..], tag, render);
      HeadTail(s);
    }
  }

  /** Without a closing tag no block matches. */
  lemma NoCloseNoBlock(s: string, tag: string)
    requires IsTag(tag) && NoCloseIn(s, tag)
    ensures MatchBlock(s, tag).None?
  {
    if MatchOpener(s, tag).Some? {
      assert FindFrom(s, MatchOpener(s, tag).value.end, CloseTag(tag)).None?;
    }
  }

  /** Dropping the first character keeps a text free of closing tags. */
  lemma NoCloseInTail(s: string, tag: string)
    requires |s| > 0 && NoCloseIn(s, tag)
    ensures NoCloseIn(s[1..], tag)
  {
    forall m | 0 <= m <= |s[1..]| ensures !OccursAt(s[1..], m, CloseTag(tag)) {
      if m + |CloseTag(tag)| <= |s[1..]| {
        OccursInSlice(s, 1, |s| - 1, m + 1, CloseTag(tag));
      }
    }
  }
}

=== FILE: template_parts.dfy ===
/** Templates of frontend/js/shared/components.js seen as literal text interleaved with
    placeholders, and what the variable pass of `processTemplate` and the rendering of
    one `{{#each}}` copy make of all of their placeholders at once: each placeholder
    shows the text of the first binding of its key in a scope, or stays as it is when the
    scope binds no such key. The scope of the variable pass is `data` in `Object.keys`
    order; the scope of a copy is the item's own keys (or `this` for a primitive item),
    then `@index`. */
module TemplateParts {
  import opened Wrappers
  import opened Fields
  import opened Ascii
  import opened Decimal
  import opened TemplateScan
  import opened TemplateBlocks
  import opened Template

  /** A piece of a template: literal text, or the text of a placeholder of `key`. */
  datatype Part = Lit(text: string) | Slot(text: string, key: string)

  /** Literal text holds no `{{`, and a slot's text is a placeholder of its key. */
  predicate WellFormedPart(p: Part) {
    match p
    case Lit(x) => NoOpenBrace(x)
    case Slot(q, k) => IsKey(k) && IsPlaceholder(q, k)
  }

  /** Every part is well formed. */
  predicate WellFormed(ps: seq<Part>) {
    forall i :: 0 <= i < |ps| ==> WellFormedPart(ps[i])
  }

  /** The template text the parts spell, in order. */
  function Join(ps: seq<Part>): string
    decreases |ps|
  {
    if |ps| == 0 then "" else ps[0].text + Join(ps[1..])
  }

  /** Names bound to the texts their placeholders show, first binding first. */
  type Scope = seq<(string, string)>

  /** No text a scope can insert holds `{{`. */
  predicate BraceFree(scope: Scope) {
    forall i :: 0 <= i < |scope| ==> NoOpenBrace(scope[i].1)
  }

  /** The texts of a scope, in order. */
  function Texts(scope: Scope): (ts: seq<string>)
    ensures |ts| == |scope| && forall i :: 0 <= i < |scope| ==> ts[i] == scope[i].1
  {
    seq(|scope|, i requires 0 <= i < |scope| => scope[i].1)
  }

  /** A part read in `scope`: a placeholder whose key the scope binds becomes that text. */
  function ResolvePart(p: Part, scope: Scope): Part {
    match p
    case Lit(_) => p
    case Slot(_, k) =>
      match Find(scope, k)
      case Some(t) => Lit(t)
      case None => p
  }

  /** The reference reading of a run of replacement passes: every part read in `scope`. */
  function Resolve(ps: seq<Part>, scope: Scope): (qs: seq<Part>)
    ensures |qs| == |ps| && forall i :: 0 <= i < |ps| ==> qs[i] == ResolvePart(ps[i], scope)
  {
    seq(|ps|, i requires 0 <= i < |ps| => ResolvePart(ps[i], scope))
  }

  // ---------------------------------------------------------------------------------
  // Parts and scopes

  /** Joining distributes over concatenation. */
  lemma {:induction false} JoinConcat(xs: seq<Part>, ys: seq<Part>)
    ensures Join(xs + ys) == Join(xs) + Join(ys)
    decreases |xs|
  {
    if |xs| == 0 {
      assert xs + ys == ys;
    } else {
      assert (xs + ys)[1..] == xs[1..] + ys;
      JoinConcat(xs[1..], ys);
    }
  }

  /** The text of `xs`, one part, then `ys`. */
  lemma JoinAround(xs: seq<Part>, p: Part, ys: seq<Part>)
    ensures Join(xs + [p] + ys) == Join(xs) + p.text + Join(ys)
  {
    JoinConcat(xs + [p], ys);
    JoinConcat(xs, [p]);
    assert Join([p]) == p.text + Join([]);
  }

  /** Reading in `s1`, then in `s2`, is reading in `s1 + s2`. */
  lemma ResolveThen(ps: seq<Part>, s1: Scope, s2: Scope)
    ensures Resolve(Resolve(ps, s1), s2) == Resolve(ps, s1 + s2)
  {
    forall i | 0 <= i < |ps| ensures ResolvePart(ResolvePart(ps[i], s1), s2) == ResolvePart(ps[i], s1 + s2) {
      if ps[i].Slot? {
        FindConcat(s1, s2, ps[i].key);
      }
    }
  }

  /** Reading in a scope with no `{{` keeps the parts well formed. */
  lemma ResolveWellFormed(ps: seq<Part>, scope: Scope)
    requires WellFormed(ps) && BraceFree(scope)
    ensures WellFormed(Resolve(ps, scope))
  {
    forall i | 0 <= i < |ps| ensures WellFormedPart(ResolvePart(ps[i], scope)) {
      if ps[i].Slot? && Find(scope, ps[i].key).Some? {
        var t := Find(scope, ps[i].key).value;
        var j :| 0 <= j < |scope| && scope[j] == (ps[i].key, t);
      }
    }
  }

  /** A scope that binds no placeholder key of the parts changes nothing. */
  lemma ResolveUnbound(ps: seq<Part>, scope: Scope)
    requires forall i, j :: 0 <= i < |ps| && 0 <= j < |scope| && ps[i].Slot? ==> scope[j].0 != ps[i].key
    ensures Resolve(ps, scope) == ps
  {
    forall i | 0 <= i < |ps| ensures ResolvePart(ps[i], scope) == ps[i] {
    }
  }

  /** Reading distributes over the parts around one part. */
  lemma ResolveAround(xs: seq<Part>, p: Part, ys: seq<Part>, scope: Scope)
    ensures Join(Resolve(xs + [p] + ys, scope))
            == Join(Resolve(xs, scope)) + ResolvePart(p, scope).text + Join(Resolve(ys, scope))
  {
    assert Resolve(xs + [p] + ys, scope) == Resolve(xs, scope) + [ResolvePart(p, scope)] + Resolve(ys, scope);
    JoinAround(Resolve(xs, scope), ResolvePart(p, scope), Resolve(ys, scope));
  }

  // ---------------------------------------------------------------------------------
  // Replacement passes over parts

  /** One `replace(/\{\{\s*k\s*\}\}/g, r)` over a well-formed template replaces every
      placeholder of `k` by `r` and leaves the literal text and every other placeholder
      in place. */
  lemma {:induction false} SubstVarParts(ps: seq<Part>, k: string, r: string)
    requires WellFormed(ps) && IsKey(k)
    ensures SubstVar(Join(ps), k, r) == Join(Resolve(ps, [(k, r)]))
    decreases |ps|
  {
    if |ps| > 0 {
      var u := Join(ps[1..]);
      assert WellFormedPart(ps[0]);
      assert WellFormed(ps[1..]) by {
        forall i | 0 <= i < |ps[1..]| ensures WellFormedPart(ps[1..][i]) {
          assert ps[1..][i] == ps[i + 1];
        }
      }
      SubstVarParts(ps[1..], k, r);
      assert Resolve(ps, [(k, r)])[1..] == Resolve(ps[1..], [(k, r)]);
      match ps[0] {
        case Lit(x) => SubstVarLiteral(x, u, k, r);
        case Slot(q, k2) =>
          if k2 == k {
            SubstVarAtPlaceholder(q, u, k, r);
          } else {
            SubstVarAtOtherPlaceholder(q, u, k, k2, r);
          }
      }
    }
  }

  /** The keys of a scope after its first binding. */
  lemma ScopeTail(scope: Scope)
    requires |scope| > 0
    ensures Keys(scope)[1..] == Keys(scope[1..]) && Texts(scope)[1..] == Texts(scope[1..])
    ensures scope == [scope[0]] + scope[1..]
  {
  }

  /** The passes of `SubstAll`, one per binding in order, over a well-formed template and
      with no inserted text holding `{{`: every placeholder shows the text of the first
      binding of its key, and every other part is kept. Bindings whose name is not a
      placeholder key are skipped by both sides. */
  lemma {:induction false} SubstAllParts(ps: seq<Part>, scope: Scope)
    requires WellFormed(ps) && BraceFree(scope)
    ensures SubstAll(Join(ps), Keys(scope), Texts(scope)) == Join(Resolve(ps, scope))
    decreases |scope|
  {
    if |scope| == 0 {
      ResolveUnbound(ps, scope);
    } else {
      var (k, t) := scope[0];
      var rest := scope[1..];
      ScopeTail(scope);
      assert BraceFree(rest) by {
        forall i | 0 <= i < |rest| ensures NoOpenBrace(rest[i].1) {
          assert rest[i] == scope[i + 1];
        }
      }
      var ps' := Resolve(ps, [(k, t)]);
      if IsKey(k) {
        SubstVarParts(ps, k, t);
        ResolveWellFormed(ps, [(k, t)]);
      } else {
        ResolveUnbound(ps, [(k, t)]);
      }
      SubstAllParts(ps', rest);
      ResolveThen(ps, [(k, t)], rest);
    }
  }

  // ---------------------------------------------------------------------------------
  // The variable pass

  /** A list of bindings shown as texts by `f`, keys kept. */
  function Shown<T>(fields: seq<(string, T)>, f: T -> string): (scope: Scope)
    ensures |scope| == |fields|
    ensures forall i :: 0 <= i < |fields| ==> scope[i] == (fields[i].0, f(fields[i].1))
  {
    seq(|fields|, i requires 0 <= i < |fields| => (fields[i].0, f(fields[i].1)))
  }

  /** The first binding of a key in the shown list is the shown first binding. */
  lemma {:induction false} FindShown<T>(fields: seq<(string, T)>, f: T -> string, k: string)
    ensures Find(Shown(fields, f), k)
            == if Find(fields, k).Some? then Some(f(Find(fields, k).value)) else None
    decreases |fields|
  {
    if |fields| > 0 {
      assert Shown(fields, f)[1..] == Shown(fields[1..], f);
      FindShown(fields[1..], f, k);
    }
  }

  /** The scope of the variable pass: each key of `data` shows `ValueText` of its value. */
  function VarScope(data: Data): Scope {
    Shown(data, ValueText)
  }

  /** The variable pass over a well-formed template, when no value's text holds `{{`:
      every placeholder of a key `data` has shows that key's value, `''` for `null` and
      `undefined`, and every other part of the template is kept. */
  lemma VarPassParts(ps: seq<Part>, data: Data)
    requires WellFormed(ps) && BraceFree(VarScope(data))
    ensures VarPass(Join(ps), data) == Join(Resolve(ps, VarScope(data)))
  {
    var scope := VarScope(data);
    assert Keys(scope) == Keys(data);
    assert Texts(scope) == DataTexts(data);
    SubstAllParts(ps, scope);
  }

  /** A placeholder of a key of `data`, anywhere in a well-formed template, is replaced in
      place by the text of that key's value, whatever other placeholders surround it. */
  lemma VarPassReplaces(xs: seq<Part>, q: string, ys: seq<Part>, data: Data, k: string)
    requires WellFormed(xs) && WellFormed(ys) && IsKey(k) && IsPlaceholder(q, k)
    requires BraceFree(VarScope(data)) && Find(data, k).Some?
    ensures VarPass(Join(xs) + q + Join(ys), data)
            == VarPass(Join(xs), data) + ValueText(Find(data, k).value) + VarPass(Join(ys), data)
  {
    VarPassAround(xs, q, ys, data, k);
  }

  /** A placeholder of a key whose value is `null` or `undefined` is removed, wherever it
      stands. */
  lemma VarPassNullValue(xs: seq<Part>, q: string, ys: seq<Part>, data: Data, k: string)
    requires WellFormed(xs) && WellFormed(ys) && IsKey(k) && IsPlaceholder(q, k)
    requires BraceFree(VarScope(data))
    requires Find(data, k) == Some(VPrim(PNull)) || Find(data, k) == Some(VPrim(PUndefined))
    ensures VarPass(Join(xs) + q + Join(ys), data) == VarPass(Join(xs), data) + VarPass(Join(ys), data)
  {
    VarPassAround(xs, q, ys, data, k);
    assert VarPass(Join(xs), data) + "" == VarPass(Join(xs), data);
  }

  /** A placeholder of a key that `data` does not have is left untouched, wherever it
      stands. */
  lemma VarPassKeepsUnknown(xs: seq<Part>, q: string, ys: seq<Part>, data: Data, k: string)
    requires WellFormed(xs) && WellFormed(ys) && IsKey(k) && IsPlaceholder(q, k)
    requires BraceFree(VarScope(data)) && Find(data, k).None?
    ensures VarPass(Join(xs) + q + Join(ys), data) == VarPass(Join(xs), data) + q + VarPass(Join(ys), data)
  {
    VarPassAround(xs, q, ys, data, k);
  }

  /** Helper for the three lemmas above: the pass splits around one placeholder. */
  lemma VarPassAround(xs: seq<Part>, q: string, ys: seq<Part>, data: Data, k: string)
    requires WellFormed(xs) && WellFormed(ys) && IsKey(k) && IsPlaceholder(q, k)
    requires BraceFree(VarScope(data))
    ensures VarPass(Join(xs) + q + Join(ys), data)
            == VarPass(Join(xs), data)
               + (if Find(data, k).Some? then ValueText(Find(data, k).value) else q)
               + VarPass(Join(ys), data)
  {
    var scope := VarScope(data);
    var ps := xs + [Slot(q, k)] + ys;
    assert WellFormed(ps);
    JoinAround(xs, Slot(q, k), ys);
    VarPassParts(ps, data);
    VarPassParts(xs, data);
    VarPassParts(ys, data);
    ResolveAround(xs, Slot(q, k), ys, scope);
    FindShown(data, ValueText, k);
  }

  // ---------------------------------------------------------------------------------
  // One copy of a loop body

  /** The scope of one `{{#each}}` copy: an object item's keys showing `String(value)`,
      then `@index`; for a primitive item, `this` showing `String(item)`, then `@index`. */
  function ItemScope(item: Item, index: nat): Scope {
    match item
    case IObj(fields) => Shown(fields, PrimText) + [("@index", NatText(index))]
    case IPrim(p) => [("this", PrimText(p)), ("@index", NatText(index))]
  }

  /** No text the item inserts holds `{{`. */
  predicate BraceFreeItem(item: Item) {
    match item
    case IObj(fields) => BraceFree(Shown(fields, PrimText))
    case IPrim(p) => NoOpenBrace(PrimText(p))
  }

  /** Decimal text holds no brace. */
  lemma NatTextBraceFree(n: nat)
    ensures NoOpenBrace(NatText(n))
  {
  }

  /** One copy of a well-formed loop body, for an item that inserts no `{{`: every
      placeholder shows the text its key has in the item's scope, and every other part is
      kept. */
  lemma RenderItemParts(ps: seq<Part>, item: Item, index: nat)
    requires WellFormed(ps) && BraceFreeItem(item)
    ensures RenderItem(Join(ps), item, index) == Join(Resolve(ps, ItemScope(item, index)))
  {
    var ix: Scope := [("@index", NatText(index))];
    NatTextBraceFree(index);
    assert IsKey("this") && IsKey("@index");
    match item {
      case IObj(fields) =>
        var fs := Shown(fields, PrimText);
        assert Keys(fs) == Keys(fields);
        assert Texts(fs) == FieldTexts(fields);
        SubstAllParts(ps, fs);
        ResolveWellFormed(ps, fs);
        SubstVarParts(Resolve(ps, fs), "@index", NatText(index));
        ResolveThen(ps, fs, ix);
      case IPrim(p) =>
        var th: Scope := [("this", PrimText(p))];
        SubstVarParts(ps, "this", PrimText(p));
        ResolveWellFormed(ps, th);
        SubstVarParts(Resolve(ps, th), "@index", NatText(index));
        ResolveThen(ps, th, ix);
        assert th + ix == ItemScope(item, index);
    }
  }

  /** Helper for the per-placeholder lemmas below: a copy splits around one placeholder. */
  lemma RenderItemAround(xs: seq<Part>, q: string, ys: seq<Part>, k: string, item: Item, index: nat)
    requires WellFormed(xs) && WellFormed(ys) && IsKey(k) && IsPlaceholder(q, k) && BraceFreeItem(item)
    ensures RenderItem(Join(xs) + q + Join(ys), item, index)
            == RenderItem(Join(xs), item, index)
               + ResolvePart(Slot(q, k), ItemScope(item, index)).text
               + RenderItem(Join(ys), item, index)
  {
    var ps := xs + [Slot(q, k)] + ys;
    assert WellFormed(ps);
    JoinAround(xs, Slot(q, k), ys);
    RenderItemParts(ps, item, index);
    RenderItemParts(xs, item, index);
    RenderItemParts(ys, item, index);
    ResolveAround(xs, Slot(q, k), ys, ItemScope(item, index));
  }

  /** `{{@index}}` in a copy becomes the element's position in decimal, wherever it stands
      in the body. */
  lemma RenderItemIndex(xs: seq<Part>, q: string, ys: seq<Part>, item: Item, index: nat)
    requires WellFormed(xs) && WellFormed(ys) && IsPlaceholder(q, "@index")
    requires PlainItem(item) && BraceFreeItem(item)
    ensures RenderItem(Join(xs) + q + Join(ys), item, index)
            == RenderItem(Join(xs), item, index) + NatText(index) + RenderItem(Join(ys), item, index)
  {
    assert IsKey("@index");
    RenderItemAround(xs, q, ys, "@index", item, index);
    if item.IObj? {
      IndexAfterFields(item.fields, NatText(index));
    }
  }

  /** Keys made of word characters never shadow `@index`. */
  lemma IndexAfterFields(fields: seq<(string, Prim)>, t: string)
    requires Keyed(fields)
    ensures Find(Shown(fields, PrimText) + [("@index", t)], "@index") == Some(t)
  {
    var fs := Shown(fields, PrimText);
    assert Find(fs, "@index").None? by {
      forall j | 0 <= j < |fs| ensures fs[j].0 != "@index" {
        assert IsWordChar(fields[j].0[0]);
      }
    }
    FindConcat(fs, [("@index", t)], "@index");
  }

  /** `{{this}}` in a copy for a primitive element becomes `String(element)`, wherever it
      stands in the body. */
  lemma RenderItemThis(xs: seq<Part>, q: string, ys: seq<Part>, p: Prim, index: nat)
    requires WellFormed(xs) && WellFormed(ys) && IsPlaceholder(q, "this") && NoOpenBrace(PrimText(p))
    ensures RenderItem(Join(xs) + q + Join(ys), IPrim(p), index)
            == RenderItem(Join(xs), IPrim(p), index) + PrimText(p) + RenderItem(Join(ys), IPrim(p), index)
  {
    assert IsKey("this");
    RenderItemAround(xs, q, ys, "this", IPrim(p), index);
  }

  /** A placeholder of one of an object element's keys becomes `String(element[key])`,
      wherever it stands in the body. */
  lemma RenderItemField(xs: seq<Part>, q: string, ys: seq<Part>, fields: seq<(string, Prim)>,
                        k: string, index: nat)
    requires WellFormed(xs) && WellFormed(ys) && IsKey(k) && IsPlaceholder(q, k)
    requires BraceFree(Shown(fields, PrimText)) && Find(fields, k).Some?
    ensures RenderItem(Join(xs) + q + Join(ys), IObj(fields), index)
            == RenderItem(Join(xs), IObj(fields), index) + PrimText(Find(fields, k).value)
               + RenderItem(Join(ys), IObj(fields), index)
  {
    RenderItemAround(xs, q, ys, k, IObj(fields), index);
    FindShown(fields, PrimText, k);
    FindConcat(Shown(fields, PrimText), [("@index", NatText(index))], k);
  }

  // ---------------------------------------------------------------------------------
  // Whole loops

  /** The reference reading of a loop: copy `i` is the body read in the scope of item
      `i`, the copies joined in order. */
  function Copies(ps: seq<Part>, items: seq<Item>): string
    decreases |items|
  {
    if |items| == 0 then ""
    else Copies(ps, items[..|items| - 1]) + Join(Resolve(ps, ItemScope(items[|items| - 1], |items| - 1)))
  }

  /** A loop over a well-formed body renders copy `i` in the scope of item `i`, for every
      body and every sequence of items that insert no `{{`. */
  lemma {:induction false} ExpandParts(ps: seq<Part>, items: seq<Item>)
    requires WellFormed(ps) && forall i :: 0 <= i < |items| ==> BraceFreeItem(items[i])
    ensures Expand(Join(ps), items) == Copies(ps, items)
    decreases |items|
  {
    if |items| > 0 {
      var n := |items|;
      var init := items[..n - 1];
      assert forall i :: 0 <= i < |init| ==> BraceFreeItem(init[i]) by {
        assert forall i :: 0 <= i < |init| ==> init[i] == items[i];
      }
      ExpandParts(ps, init);
      RenderItemParts(ps, items[n - 1], n - 1);
      ExpandStep(Join(ps), items);
    }
  }

  /** An expansion is the expansion of all but the last element, then the last copy. */
  lemma ExpandStep(body: string, items: seq<Item>)
    requires |items| > 0
    ensures Expand(body, items)
              == Expand(body, items[..|items| - 1]) + RenderItem(body, items[|items| - 1], |items| - 1)
  {
  }

  /** A body whose placeholders all show the index. */
  predicate IndexBody(ps: seq<Part>) {
    forall i :: 0 <= i < |ps| && ps[i].Slot? ==> ps[i].key == "@index"
  }

  /** The reference reading of a loop over a body that shows only the index: copy `i` is
      the body with every `{{@index}}` written as `i` in decimal. */
  function IndexRun(ps: seq<Part>, n: nat): string {
    if n == 0 then "" else IndexRun(ps, n - 1) + Join(Resolve(ps, [("@index", NatText(n - 1))]))
  }

  /** A copy of a body that shows only the index, for any element whose keys cannot
      capture `{{@index}}`, whatever its values. */
  lemma RenderIndexBody(ps: seq<Part>, item: Item, index: nat)
    requires WellFormed(ps) && IndexBody(ps) && PlainItem(item)
    ensures RenderItem(Join(ps), item, index) == Join(Resolve(ps, [("@index", NatText(index))]))
  {
    assert IsKey("this") && IsKey("@index");
    match item {
      case IObj(fields) =>
        var ks := Keys(fields);
        forall j | 0 <= j < |ks| ensures ks[j] != "@index" {
          assert IsWordChar(ks[j][0]);
        }
        SubstAllUnbound(ps, ks, FieldTexts(fields));
      case IPrim(p) =>
        SubstVarParts(ps, "this", PrimText(p));
        ResolveUnbound(ps, [("this", PrimText(p))]);
    }
    SubstVarParts(ps, "@index", NatText(index));
  }

  /** Passes for keys no placeholder of the template carries leave it unchanged,
      whatever texts they insert. */
  lemma {:induction false} SubstAllUnbound(ps: seq<Part>, keys: seq<string>, texts: seq<string>)
    requires WellFormed(ps) && |keys| == |texts|
    requires forall i, j :: 0 <= i < |ps| && 0 <= j < |keys| && ps[i].Slot? ==> keys[j] != ps[i].key
    ensures SubstAll(Join(ps), keys, texts) == Join(ps)
    decreases |keys|
  {
    if |keys| > 0 {
      if IsKey(keys[0]) {
        SubstVarParts(ps, keys[0], texts[0]);
        ResolveUnbound(ps, [(keys[0], texts[0])]);
      }
      assert forall j :: 0 <= j < |keys[1..]| ==> keys[1..][j] == keys[j + 1];
      SubstAllUnbound(ps, keys[1..], texts[1..]);
    }
  }

  /** A loop over any elements whose keys cannot capture `{{@index}}` numbers its copies
      0, 1, 2, … in order, wherever and however often the body shows the index. */
  lemma {:induction false} ExpandIndex(ps: seq<Part>, items: seq<Item>)
    requires WellFormed(ps) && IndexBody(ps)
    requires forall i :: 0 <= i < |items| ==> PlainItem(items[i])
    ensures Expand(Join(ps), items) == IndexRun(ps, |items|)
    decreases |items|
  {
    if |items| > 0 {
      var n := |items|;
      var init := items[..n - 1];
      assert forall i :: 0 <= i < |init| ==> PlainItem(init[i]) by {
        assert forall i :: 0 <= i < |init| ==> init[i] == items[i];
      }
      ExpandIndex(ps, init);
      RenderIndexBody(ps, items[n - 1], n - 1);
      ExpandStep(Join(ps), items);
    }
  }

  /** The array of primitive elements `prims`. */
  function PrimItems(prims: seq<Prim>): (r: seq<Item>)
    ensures |r| == |prims| && forall i :: 0 <= i < |prims| ==> r[i] == IPrim(prims[i])
  {
    seq(|prims|, i requires 0 <= i < |prims| => IPrim(prims[i]))
  }

  /** The reference reading of a loop over primitives: copy `i` is the body with every
      `{{this}}` written as element `i` and every `{{@index}}` as `i`. */
  function ThisRun(ps: seq<Part>, prims: seq<Prim>): string
    decreases |prims|
  {
    if |prims| == 0 then ""
    else
      var n := |prims| - 1;
      ThisRun(ps, prims[..n]) + Join(Resolve(ps, [("this", PrimText(prims[n])), ("@index", NatText(n))]))
  }

  /** A loop over primitive elements shows each element, and its position, in order,
      wherever and however often the body shows them. */
  lemma {:induction false} ExpandThis(ps: seq<Part>, prims: seq<Prim>)
    requires WellFormed(ps) && forall i :: 0 <= i < |prims| ==> NoOpenBrace(PrimText(prims[i]))
    ensures Expand(Join(ps), PrimItems(prims)) == ThisRun(ps, prims)
    decreases |prims|
  {
    if |prims| > 0 {
      var n := |prims|;
      var init := prims[..n - 1];
      assert PrimItems(prims)[..n - 1] == PrimItems(init);
      assert forall i :: 0 <= i < |init| ==> init[i] == prims[i];
      ExpandThis(ps, init);
      RenderItemParts(ps, IPrim(prims[n - 1]), n - 1);
    }
  }
}

=== FILE: template_scan.dfy ===
/** The variable placeholders of the fragment template language in
    frontend/js/shared/components.js: an occurrence of `{{\s*key\s*\}\}` and the global,
    left-to-right, non-overlapping replacement `String.prototype.replace` performs with it.
    Keys are interpolated into the regular expression without escaping; the model admits
    only keys made of word characters (plus `@`, for the reserved `@index`), on which the
    interpolation is literal. Replacement strings are inserted literally. */
module TemplateScan {
  import opened Wrappers
  import opened Ascii
  import opened Sequences

  /** A name a placeholder can carry: `data` keys, item keys, `this` and `@index`. */
  predicate IsKey(k: string) {
    |k| > 0 && forall i :: 0 <= i < |k| ==> IsWordChar(k[i]) || k[i] == '@'
  }

  /** `p` is, in full, an occurrence of `{{\s*k\s*}}`: two opening braces, optional
      whitespace, the key, optional whitespace, two closing braces. */
  predicate IsPlaceholder(p: string, k: string) {
    && |p| >= 4
    && StartsWithOpen(p)
    && p[|p| - 2] == '}' && p[|p| - 1] == '}'
    && Trim(p[2..|p| - 2]) == k
  }

  /** `s` starts with `{{`. */
  predicate StartsWithOpen(s: string) {
    |s| >= 2 && s[0] == '{' && s[1] == '{'
  }

  /** No `{{` can start inside `x`, whatever text follows it. */
  predicate NoOpenBrace(x: string) {
    forall i :: 0 <= i < |x| && x[i] == '{' ==> i + 1 < |x| && x[i + 1] != '{'
  }

  /** `k` occurs in `s` at position `i`. */
  predicate OccursAt(s: string, i: nat, k: string) {
    i + |k| <= |s| && forall j :: 0 <= j < |k| ==> s[i + j] == k[j]
  }

  /** Occurrences inside a slice are occurrences in the whole string, shifted. */
  lemma OccursInSlice(s: string, i: nat, n: nat, m: nat, k: string)
    requires i <= m && m + |k| <= i + n <= |s|
    ensures OccursAt(s, m, k) <==> OccursAt(s[i..i + n], m - i, k)
  {
    var t := s[i..i + n];
    assert forall j :: m <= j < m + |k| ==> t[j - i] == s[j];
  }

  /** A slice equal to `k` is an occurrence of `k`. */
  lemma OccursOfSlice(s: string, i: nat, k: string)
    requires i + |k| <= |s| && s[i..i + |k|] == k
    ensures OccursAt(s, i, k)
  {
    forall j | 0 <= j < |k| ensures s[i + j] == k[j] {
      assert s[i..i + |k|][j] == s[i + j];
    }
  }

  /** `k` occurs right after `a` in `a + k + b`. */
  lemma OccursAfter(a: string, k: string, b: string)
    ensures OccursAt(a + k + b, |a|, k)
  {
    var s := a + k + b;
    forall j | 0 <= j < |k| ensures s[|a| + j] == k[j] {
    }
  }

  /** The regular expression `\{\{\s*k\s*\}\}` tried at the start of `s`: the length of the
      placeholder it matches there, if any. Since `k` neither starts nor ends with
      whitespace, each `\s*` must take the whole whitespace run, so the match is
      deterministic. */
  function MatchPlaceholder(s: string, k: string): (r: Option<nat>)
    requires IsKey(k)
    ensures r.Some? ==> StartsWithOpen(s) && 5 <= r.value <= |s|
    ensures r.Some? ==> s[r.value - 2] == '}' && s[r.value - 1] == '}'
  {
    if !StartsWithOpen(s) then None
    else
      var a := SkipWs(JsWhitespace, s, 2);
      if !OccursAt(s, a, k) then None
      else
        var b := SkipWs(JsWhitespace, s, a + |k|);
        if b + 2 > |s| || s[b] != '}' || s[b + 1] != '}' then None
        else Some(b + 2)
  }

  /** What `MatchPlaceholder` accepts is a placeholder of `k`: the matcher is sound. */
  lemma MatchPlaceholderSound(s: string, k: string)
    requires IsKey(k) && MatchPlaceholder(s, k).Some?
    ensures IsPlaceholder(s[..MatchPlaceholder(s, k).value], k)
  {
    var a := SkipWs(JsWhitespace, s, 2);
    var b := SkipWs(JsWhitespace, s, a + |k|);
    MatchedTextIsPlaceholder(s, k, a, b);
  }

  /** Soundness step of `MatchPlaceholder`: the text it accepts is a placeholder. */
  lemma MatchedTextIsPlaceholder(s: string, k: string, a: nat, b: nat)
    requires IsKey(k)
    requires StartsWithOpen(s)
    requires 2 <= a && OccursAt(s, a, k) && a + |k| <= b && b + 2 <= |s|
    requires forall m :: 2 <= m < a ==> IsWs(JsWhitespace, s[m])
    requires forall m :: a + |k| <= m < b ==> IsWs(JsWhitespace, s[m])
    requires s[b] == '}' && s[b + 1] == '}'
    ensures IsPlaceholder(s[..b + 2], k)
  {
    var p := s[..b + 2];
    var w1, w2 := s[2..a], s[a + |k|..b];
    assert AllWs(JsWhitespace, w1) by {
      forall i | 0 <= i < |w1| ensures IsWs(JsWhitespace, w1[i]) { assert w1[i] == s[2 + i]; }
    }
    assert AllWs(JsWhitespace, w2) by {
      forall i | 0 <= i < |w2| ensures IsWs(JsWhitespace, w2[i]) { assert w2[i] == s[a + |k| + i]; }
    }
    assert p[2..|p| - 2] == w1 + k + w2 by {
      assert s[a..a + |k|] == k;
      assert s[2..b] == w1 + k + w2 by { SplitThree(s[2..b], a - 2, a - 2 + |k|); }
      assert p[2..|p| - 2] == s[2..b];
    }
    assert Trim(p[2..|p| - 2]) == k by {
      KeyEdges(k);
      TrimUnique(JsWhitespace, w1, k, w2, p[2..|p| - 2]);
    }
    assert p[|p| - 2] == '}' && p[|p| - 1] == '}';
  }

  /** A key neither starts nor ends with whitespace. */
  lemma KeyEdges(k: string)
    requires IsKey(k)
    ensures !IsWs(JsWhitespace, k[0]) && !IsWs(JsWhitespace, k[|k| - 1])
  {
  }

  /** Every placeholder at the start of `s` is found: the matcher is complete. */
  lemma MatchPlaceholderComplete(s: string, n: nat, k: string)
    requires IsKey(k)
    requires n <= |s| && IsPlaceholder(s[..n], k)
    ensures MatchPlaceholder(s, k) == Some(n)
  {
    var a, b := PlaceholderPartsIn(s, n, k);
    MatchPlaceholderAt(s, k, a, b);
  }

  /** `MatchPlaceholder` on any text that starts with `{{`, a whitespace run `[2, a)`, the
      key at `a`, a whitespace run `[a + |k|, b)` and `}}`. */
  lemma MatchPlaceholderAt(s: string, k: string, a: nat, b: nat)
    requires IsKey(k) && StartsWithOpen(s)
    requires 2 <= a && a + |k| <= b && b + 2 <= |s|
    requires forall m :: 2 <= m < a ==> IsWs(JsWhitespace, s[m])
    requires OccursAt(s, a, k)
    requires forall m :: a + |k| <= m < b ==> IsWs(JsWhitespace, s[m])
    requires s[b] == '}' && s[b + 1] == '}'
    ensures MatchPlaceholder(s, k) == Some(b + 2)
  {
    KeyEdges(k);
    assert s[a] == k[0];
    SkipWsExact(JsWhitespace, s, 2, a);
    SkipWsExact(JsWhitespace, s, a + |k|, b);
  }

  /** `PlaceholderParts` for a placeholder at the start of a longer text. */
  lemma PlaceholderPartsIn(s: string, n: nat, k: string) returns (a: nat, b: nat)
    requires IsKey(k) && n <= |s| && IsPlaceholder(s[..n], k)
    ensures StartsWithOpen(s)
    ensures 2 <= a && a + |k| <= b && b + 2 == n
    ensures forall m :: 2 <= m < a ==> IsWs(JsWhitespace, s[m])
    ensures OccursAt(s, a, k)
    ensures forall m :: a + |k| <= m < b ==> IsWs(JsWhitespace, s[m])
    ensures s[b] == '}' && s[b + 1] == '}'
  {
    var p := s[..n];
    a, b := PlaceholderParts(p, k);
    assert forall m :: 0 <= m < n ==> s[m] == p[m];
  }

  /** A placeholder laid out by index: braces around a whitespace run `[2, a)`, the key at
      `a`, and a whitespace run `[a + |k|, b)` with `b == |p| - 2`. */
  lemma PlaceholderParts(p: string, k: string) returns (a: nat, b: nat)
    requires IsKey(k) && IsPlaceholder(p, k)
    ensures 2 <= a && a + |k| <= b && b == |p| - 2
    ensures forall m :: 2 <= m < a ==> IsWs(JsWhitespace, p[m])
    ensures OccursAt(p, a, k)
    ensures forall m :: a + |k| <= m < b ==> IsWs(JsWhitespace, p[m])
  {
    var inner := p[2..|p| - 2];
    var l := LeadingWs(JsWhitespace, inner);
    assert TrimBy(JsWhitespace, inner) == k;
    a, b := 2 + l, |p| - 2;
    assert forall m :: 2 <= m < b ==> p[m] == inner[m - 2];
  }


  /** The characters strictly between the braces of a placeholder are whitespace, word
      characters or `@`; in particular no brace. */
  lemma PlaceholderShape(p: string, k: string)
    requires IsKey(k) && IsPlaceholder(p, k)
    ensures |p| >= 5
    ensures forall i :: 2 <= i < |p| - 2 ==> p[i] != '{' && p[i] != '}'
  {
    var inner := p[2..|p| - 2];
    var l := LeadingWs(JsWhitespace, inner);
    assert TrimBy(JsWhitespace, inner) == k;
    forall i | 2 <= i < |p| - 2 ensures p[i] != '{' && p[i] != '}' {
      var j := i - 2;
      assert p[i] == inner[j];
      if l <= j < l + |k| {
        assert inner[j] == k[j - l];
      }
    }
  }

  /** No `{{` starts inside a placeholder after its first character. */
  lemma PlaceholderNoOpenAt(p: string, k: string, i: nat)
    requires IsKey(k) && IsPlaceholder(p, k)
    requires 1 <= i < |p| - 1
    ensures !(p[i] == '{' && p[i + 1] == '{')
  {
    PlaceholderShape(p, k);
  }

  /** Two placeholders that both start at the start of `s` are the same text with the
      same key. */
  lemma PlaceholderPrefixUnique(s: string, n: nat, m: nat, k1: string, k2: string)
    requires IsKey(k1) && IsKey(k2)
    requires n <= |s| && m <= |s|
    requires IsPlaceholder(s[..n], k1) && IsPlaceholder(s[..m], k2)
    ensures n == m && k1 == k2
  {
    PlaceholderFirstClose(s, n, k1);
    PlaceholderFirstClose(s, m, k2);
  }

  /** A placeholder at the start of `s` ends at the first `}` after its opening braces. */
  lemma PlaceholderFirstClose(s: string, n: nat, k: string)
    requires IsKey(k) && n <= |s| && IsPlaceholder(s[..n], k)
    ensures n >= 5 && s[n - 2] == '}'
    ensures forall i :: 2 <= i < n - 2 ==> s[i] != '}'
  {
    var p := s[..n];
    PlaceholderShape(p, k);
    assert forall i :: 0 <= i < n ==> p[i] == s[i];
  }


  /** How far one step of the scan advances: past the whole placeholder when one of `k`
      starts here, otherwise by one character. */
  function ScanStep(s: string, k: string): (n: nat)
    requires IsKey(k) && |s| > 0
    ensures 1 <= n <= |s|
  {
    match MatchPlaceholder(s, k)
    case Some(m) => m
    case None => 1
  }

  /** What one step of the scan emits: the replacement for a placeholder of `k`,
      otherwise the character itself. */
  function ScanOut(s: string, k: string, r: string): string
    requires IsKey(k) && |s| > 0
  {
    match MatchPlaceholder(s, k)
    case Some(_) => r
    case None => [s[0]]
  }

  /** `template.replace(/\{\{\s*k\s*\}\}/g, r)`: scan left to right; at each position
      either a placeholder of `k` starts, and is replaced by `r` with the scan resuming
      after it, or the character is copied. */
  function SubstVar(s: string, k: string, r: string): string
    requires IsKey(k)
    decreases |s|
  {
    if |s| == 0 then "" else ScanOut(s, k, r) + SubstVar(s[ScanStep(s, k)..], k, r)
  }

  /** Text in which no `{{` can start passes through unchanged. */
  lemma {:induction false} SubstVarLiteral(x: string, u: string, k: string, r: string)
    requires IsKey(k) && NoOpenBrace(x)
    ensures SubstVar(x + u, k, r) == x + SubstVar(u, k, r)
    decreases |x|
  {
    if |x| > 0 {
      var s := x + u;
      assert !StartsWithOpen(s) by {
        if x[0] == '{' { assert s[1] == x[1]; }
      }
      SubstVarCopies(s, k, r);
      NoOpenBraceTail(x);
      DropConcat(x, u, 1);
      SubstVarLiteral(x[1..], u, k, r);
      HeadTail(x);
      ConcatAssoc([x[0]], x[1..], SubstVar(u, k, r));
    } else {
      assert x + u == u;
    }
  }

  /** A `{{` followed by a character no placeholder can continue with (not whitespace, not
      part of a key), and no further `{{`, passes through unchanged: block openers and
      closing tags are untouched by the variable pass. */
  lemma SubstVarInertHead(h: string, u: string, k: string, r: string)
    requires IsKey(k) && |h| >= 3 && h[0] == '{' && h[1] == '{'
    requires !IsWs(JsWhitespace, h[2]) && !IsWordChar(h[2]) && h[2] != '@'
    requires NoOpenBrace(h[1..])
    ensures SubstVar(h + u, k, r) == h + SubstVar(u, k, r)
  {
    var s := h + u;
    assert s[2] == h[2];
    SkipWsExact(JsWhitespace, s, 2, 2);
    assert !OccursAt(s, 2, k) by {
      assert s[2 + 0] != k[0];
    }
    SubstVarCopies(s, k, r);
    DropConcat(h, u, 1);
    SubstVarLiteral(h[1..], u, k, r);
    HeadTail(h);
    ConcatAssoc([h[0]], h[1..], SubstVar(u, k, r));
  }

  /** Without a placeholder of `k` at its head, the scan copies the first character. */
  lemma SubstVarCopies(s: string, k: string, r: string)
    requires IsKey(k) && |s| > 0 && MatchPlaceholder(s, k).None?
    ensures SubstVar(s, k, r) == [s[0]] + SubstVar(s[1..], k, r)
  {
  }

  /** `NoOpenBrace` holds of every suffix. */
  lemma NoOpenBraceTail(x: string)
    requires |x| > 0 && NoOpenBrace(x)
    ensures NoOpenBrace(x[1..])
  {
    forall i | 0 <= i < |x[1..]| && x[1..][i] == '{' ensures i + 1 < |x[1..]| && x[1..][i + 1] != '{' {
      assert x[1..][i] == x[i + 1];
    }
  }

  /** A match that starts inside non-empty `t` cannot run into a following `{{`, so
      trying the pattern at the start of `t + u` is trying it on `t` alone. */
  lemma MatchBeforeOpen(t: string, u: string, k: string)
    requires IsKey(k) && |t| > 0 && StartsWithOpen(u)
    ensures MatchPlaceholder(t + u, k) == MatchPlaceholder(t, k)
  {
    if MatchPlaceholder(t + u, k).Some? {
      MatchInsideFirst(t, u, k);
    } else if MatchPlaceholder(t, k).Some? {
      var m := MatchPlaceholder(t, k).value;
      MatchPlaceholderSound(t, k);
      assert (t + u)[..m] == t[..m];
      MatchPlaceholderComplete(t + u, m, k);
    }
  }

  /** Helper for `MatchBeforeOpen`: a match on `t + u` ends inside `t` and is a match on
      `t`. */
  lemma MatchInsideFirst(t: string, u: string, k: string)
    requires IsKey(k) && |t| > 0 && StartsWithOpen(u)
    requires MatchPlaceholder(t + u, k).Some?
    ensures MatchPlaceholder(t, k) == MatchPlaceholder(t + u, k)
  {
    var s := t + u;
    var n := MatchPlaceholder(s, k).value;
    MatchPlaceholderSound(s, k);
    assert s[|t|] == '{' && s[|t| + 1] == '{';
    if n > |t| {
      if |t| + 1 < n {
        PlaceholderNoOpenAt(s[..n], k, |t|);
      }
      assert false;
    }
    assert s[..n] == t[..n];
    MatchPlaceholderComplete(t, n, k);
  }

  /** The scan of `t + u` splits at the boundary when `u` starts with `{{`. */
  lemma {:induction false} SubstVarConcat(t: string, u: string, k: string, r: string)
    requires IsKey(k) && StartsWithOpen(u)
    ensures SubstVar(t + u, k, r) == SubstVar(t, k, r) + SubstVar(u, k, r)
    decreases |t|
  {
    if |t| > 0 {
      var n := ScanStep(t, k);
      SubstVarConcatStep(t, u, k, r);
      SubstVarConcat(t[n..], u, k, r);
      ConcatAssoc(ScanOut(t, k, r), SubstVar(t[n..], k, r), SubstVar(u, k, r));
    } else {
      assert t + u == u;
    }
  }

  /** One step of the scan of `t + u` is the step on `t`, when `u` starts with `{{`. */
  lemma SubstVarConcatStep(t: string, u: string, k: string, r: string)
    requires IsKey(k) && StartsWithOpen(u) && |t| > 0
    ensures SubstVar(t + u, k, r) == ScanOut(t, k, r) + SubstVar(t[ScanStep(t, k)..] + u, k, r)
  {
    var s := t + u;
    MatchBeforeOpen(t, u, k);
    assert s[0] == t[0];
    var n := ScanStep(t, k);
    assert ScanStep(s, k) == n && ScanOut(s, k, r) == ScanOut(t, k, r);
    DropConcat(t, u, n);
  }

  /** A placeholder of `k` at the head is replaced and the scan resumes right after it. */
  lemma SubstVarAtPlaceholder(p: string, u: string, k: string, r: string)
    requires IsKey(k) && IsPlaceholder(p, k)
    ensures SubstVar(p + u, k, r) == r + SubstVar(u, k, r)
  {
    var s := p + u;
    assert s[..|p|] == p;
    MatchPlaceholderComplete(s, |p|, k);
    assert s[|p|..] == u;
  }

  /** A placeholder of another key at the head is copied unchanged. */
  lemma SubstVarAtOtherPlaceholder(q: string, u: string, k: string, k2: string, r: string)
    requires IsKey(k) && IsKey(k2) && k2 != k && IsPlaceholder(q, k2)
    ensures SubstVar(q + u, k, r) == q + SubstVar(u, k, r)
  {
    var s := q + u;
    NoMatchAtOtherPlaceholder(q, u, k, k2);
    SubstVarCopies(s, k, r);
    PlaceholderTailLiteral(q, k2);
    DropConcat(q, u, 1);
    SubstVarLiteral(q[1..], u, k, r);
    HeadTail(q);
    ConcatAssoc([q[0]], q[1..], SubstVar(u, k, r));
  }

  /** After its first brace, a placeholder contains no `{{`. */
  lemma PlaceholderTailLiteral(q: string, k: string)
    requires IsKey(k) && IsPlaceholder(q, k)
    ensures NoOpenBrace(q[1..])
  {
    PlaceholderShape(q, k);
    var x := q[1..];
    forall i | 0 <= i < |x| && x[i] == '{' ensures i + 1 < |x| && x[i + 1] != '{' {
      assert x[i] == q[i + 1];
    }
  }

  /** A placeholder of another key at the head is not a placeholder of `k`. */
  lemma NoMatchAtOtherPlaceholder(q: string, u: string, k: string, k2: string)
    requires IsKey(k) && IsKey(k2) && k2 != k && IsPlaceholder(q, k2)
    ensures MatchPlaceholder(q + u, k).None?
  {
    var s := q + u;
    if MatchPlaceholder(s, k).Some? {
      MatchPlaceholderSound(s, k);
      assert s[..|q|] == q;
      PlaceholderPrefixUnique(s, MatchPlaceholder(s, k).value, |q|, k, k2);
      assert false;
    }
  }

  /** Every placeholder of `k` is replaced by `r` in place, whatever text surrounds it. */
  lemma SubstVarReplacesInPlace(t: string, p: string, u: string, k: string, r: string)
    requires IsKey(k) && IsPlaceholder(p, k)
    ensures SubstVar(t + p + u, k, r) == SubstVar(t, k, r) + r + SubstVar(u, k, r)
  {
    assert StartsWithOpen(p + u);
    ConcatAssoc(t, p, u);
    SubstVarConcat(t, p + u, k, r);
    SubstVarAtPlaceholder(p, u, k, r);
  }

  /** A placeholder of any other key survives, in place, whatever text surrounds it. */
  lemma SubstVarKeepsOtherKeys(t: string, q: string, u: string, k: string, k2: string, r: string)
    requires IsKey(k) && IsKey(k2) && k2 != k && IsPlaceholder(q, k2)
    ensures SubstVar(t + q + u, k, r) == SubstVar(t, k, r) + q + SubstVar(u, k, r)
  {
    assert StartsWithOpen(q + u);
    ConcatAssoc(t, q, u);
    SubstVarConcat(t, q + u, k, r);
    SubstVarAtOtherPlaceholder(q, u, k, k2, r);
  }

  /** Text holding no placeholder of `k` anywhere is left unchanged. */
  lemma {:induction false} SubstVarIdentity(s: string, k: string, r: string)
    requires IsKey(k)
    requires forall i, j :: 0 <= i <= j <= |s| ==> !IsPlaceholder(s[i..j], k)
    ensures SubstVar(s, k, r) == s
    decreases |s|
  {
    if |s| > 0 {
      NoPlaceholderPrefix(s, k);
      match MatchPlaceholder(s, k)
      case Some(n) =>
        MatchPlaceholderSound(s, k);
        assert false;
      case None =>
        forall i, j | 0 <= i <= j <= |s[1..]| ensures !IsPlaceholder(s[1..][i..j], k) {
          assert s[1..][i..j] == s[i + 1..j + 1];
        }
        SubstVarIdentity(s[1..], k, r);
    }
  }

  /** Helper for `SubstVarIdentity`: in particular no prefix is a placeholder. */
  lemma NoPlaceholderPrefix(s: string, k: string)
    requires forall i, j :: 0 <= i <= j <= |s| ==> !IsPlaceholder(s[i..j], k)
    ensures forall n :: 0 <= n <= |s| ==> !IsPlaceholder(s[..n], k)
  {
    forall n | 0 <= n <= |s| ensures !IsPlaceholder(s[..n], k) {
      assert s[..n] == s[0..n];
    }
  }

  /** The canonical placeholder text: `{{`, whitespace, the key, whitespace, `}}`. */
  lemma PlaceholderOfParts(w1: string, k: string, w2: string)
    requires IsKey(k) && AllWs(JsWhitespace, w1) && AllWs(JsWhitespace, w2)
    ensures IsPlaceholder("{{" + w1 + k + w2 + "}}", k)
  {
    var p := "{{" + w1 + k + w2 + "}}";
    assert p[2..|p| - 2] == w1 + k + w2;
    TrimUnique(JsWhitespace, w1, k, w2, w1 + k + w2);
  }
}

=== FILE: whitelist_builder.dfy ===
/** The whitelist builder of data/loadStudents.py: the row cleaning of `load_csv_data`
    (drop incomplete rows, strip names, strip and upper-case codes, keep the first row
    of every code) and `create_usuarios_structure`, which merges the students into the
    existing data/usuarios.json document. */
module WhitelistBuilder {
  import opened Wrappers
  import opened Fields
  import opened Ascii
  import opened JsonData

  /** A CSV row as pandas reads the two required columns: `None` for an empty (NaN)
      cell. */
  type Row = (Option<string>, Option<string>)

  /** A cleaned row. */
  datatype Student = Student(nombre: string, codigo: string)

  /** The codes of a list of students, in order. */
  function Codes(students: seq<Student>): (cs: seq<string>)
    ensures |cs| == |students| && forall k :: 0 <= k < |students| ==> cs[k] == students[k].codigo
  {
    seq(|students|, k requires 0 <= k < |students| => students[k].codigo)
  }

  /** No code appears twice. */
  predicate DistinctCodes(students: seq<Student>) {
    forall i, j :: 0 <= i < j < |students| ==> students[i].codigo != students[j].codigo
  }

  /** The cleaned form of a code: `str.strip()` then `str.upper()`. */
  function CleanCode(c: string): string {
    ToUpper(Strip(c))
  }

  /** A row with both cells present. */
  predicate Complete(row: Row) {
    row.0.Some? && row.1.Some?
  }

  /** A complete row after cleaning: the name stripped, the code stripped and
      upper-cased. */
  function Clean(row: Row): Student
    requires Complete(row)
  {
    Student(Strip(row.0.value), CleanCode(row.1.value))
  }

  /** A cleaned student: name and code carry no surrounding whitespace, and the code no
      lower-case letter. */
  predicate IsClean(s: Student) {
    Strip(s.nombre) == s.nombre && Strip(s.codigo) == s.codigo
    && forall m :: 0 <= m < |s.codigo| ==> !IsLowerLetter(s.codigo[m])
  }

  /** Cleaning yields a clean student. */
  lemma CleanIsClean(row: Row)
    requires Complete(row)
    ensures IsClean(Clean(row))
  {
    StripIdempotent(row.0.value);
    CleanCodeIsClean(row.1.value);
  }

  /** `dropna(subset=['nombre', 'codigo'])`, then the stripping of both columns and the
      upper-casing of the code. */
  function CleanRows(rows: seq<Row>): (r: seq<Student>)
    ensures |r| <= |rows|
    decreases |rows|
  {
    if |rows| == 0 then []
    else
      var rest := CleanRows(rows[1..]);
      if Complete(rows[0]) then [Clean(rows[0])] + rest else rest
  }

  /** `strip()` is idempotent. */
  lemma StripIdempotent(s: string)
    ensures Strip(Strip(s)) == Strip(s)
  {
    TrimIdempotent(PyWhitespace, s);
  }

  /** A cleaned code is stripped and has no lower-case letter. */
  lemma CleanCodeIsClean(c: string)
    ensures Strip(CleanCode(c)) == CleanCode(c)
    ensures forall m :: 0 <= m < |CleanCode(c)| ==> !IsLowerLetter(CleanCode(c)[m])
  {
    TrimUpperCommute(PyWhitespace, Strip(c));
    StripIdempotent(c);
  }

  /** One step of the cleaning: the first row contributes its cleaned form when it is
      complete and nothing otherwise. */
  lemma CleanRowsCons(rows: seq<Row>)
    requires |rows| > 0
    ensures CleanRows(rows) == (if Complete(rows[0]) then [Clean(rows[0])] else []) + CleanRows(rows[1..])
  {
  }

  /** A complete row's cleaned form is kept. */
  lemma {:induction false} CompleteRowKept(rows: seq<Row>, i: nat)
    requires i < |rows| && Complete(rows[i])
    ensures Clean(rows[i]) in CleanRows(rows)
    decreases i
  {
    CleanRowsCons(rows);
    if i > 0 {
      assert rows[1..][i - 1] == rows[i];
      CompleteRowKept(rows[1..], i - 1);
    }
  }

  /** A kept student is the cleaned form of a complete row. */
  lemma {:induction false} KeptFromRow(rows: seq<Row>, s: Student) returns (i: nat)
    requires s in CleanRows(rows)
    ensures i < |rows| && Complete(rows[i]) && Clean(rows[i]) == s
    decreases |rows|
  {
    CleanRowsCons(rows);
    if Complete(rows[0]) && s == Clean(rows[0]) {
      i := 0;
    } else {
      var j := KeptFromRow(rows[1..], s);
      i := j + 1;
    }
  }

  /** Every student the cleaning yields is clean. */
  lemma CleanRowsAreClean(rows: seq<Row>)
    ensures forall k :: 0 <= k < |CleanRows(rows)| ==> IsClean(CleanRows(rows)[k])
  {
    var r := CleanRows(rows);
    forall k | 0 <= k < |r|
      ensures IsClean(r[k])
    {
      var i := KeptFromRow(rows, r[k]);
      CleanIsClean(rows[i]);
    }
  }

  /** Exactly the complete rows survive, cleaned: every complete row's cleaned form is
      kept, and every kept student is the cleaned form of a complete row. */
  lemma CleanRowsMembers(rows: seq<Row>)
    ensures forall i :: 0 <= i < |rows| && Complete(rows[i]) ==> Clean(rows[i]) in CleanRows(rows)
    ensures forall s :: s in CleanRows(rows) ==>
              exists i :: 0 <= i < |rows| && Complete(rows[i]) && Clean(rows[i]) == s
  {
    forall i | 0 <= i < |rows| && Complete(rows[i])
      ensures Clean(rows[i]) in CleanRows(rows)
    {
      CompleteRowKept(rows, i);
    }
    forall s | s in CleanRows(rows)
      ensures exists i :: 0 <= i < |rows| && Complete(rows[i]) && Clean(rows[i]) == s
    {
      var i := KeptFromRow(rows, s);
    }
  }

  /** A table without empty cells loses no row: row `k` becomes student `k`. */
  lemma {:induction false} CleanRowsKeepsCompleteRows(rows: seq<Row>)
    requires forall i :: 0 <= i < |rows| ==> Complete(rows[i])
    ensures |CleanRows(rows)| == |rows|
    ensures forall k :: 0 <= k < |rows| ==> CleanRows(rows)[k] == Clean(rows[k])
    decreases |rows|
  {
    if |rows| > 0 {
      var t := rows[1..];
      CleanRowsKeepsCompleteRows(t);
      CleanRowsCons(rows);
      var r := CleanRows(rows);
      forall k | 1 <= k < |rows|
        ensures r[k] == Clean(rows[k])
      {
        assert t[k - 1] == rows[k];
      }
    }
  }

  /** `drop_duplicates(subset=['codigo'], keep='first')` scanned left to right, `seen`
      holding the codes already kept. */
  function DedupeFrom(students: seq<Student>, seen: set<string>): (r: seq<Student>)
    ensures |r| <= |students|
    ensures forall k :: 0 <= k < |r| ==> r[k].codigo !in seen
    decreases |students|
  {
    if |students| == 0 then []
    else
      var s := students[0];
      if s.codigo in seen then DedupeFrom(students[1..], seen)
      else [s] + DedupeFrom(students[1..], seen + {s.codigo})
  }

  /** The codes of a student followed by more students. */
  lemma CodesCons(s: Student, rest: seq<Student>)
    ensures Codes([s] + rest) == [s.codigo] + Codes(rest)
  {
  }

  /** The scan keeps no code twice. */
  lemma {:induction false} DedupeFromDistinct(students: seq<Student>, seen: set<string>)
    ensures DistinctCodes(DedupeFrom(students, seen))
    decreases |students|
  {
    if |students| > 0 {
      var s := students[0];
      var t := students[1..];
      if s.codigo in seen {
        DedupeFromDistinct(t, seen);
      } else {
        var rest := DedupeFrom(t, seen + {s.codigo});
        DedupeFromDistinct(t, seen + {s.codigo});
        var r := [s] + rest;
        forall i, j | 0 <= i < j < |r|
          ensures r[i].codigo != r[j].codigo
        {
          assert r[j] == rest[j - 1];
          if i > 0 {
            assert r[i] == rest[i - 1];
          }
        }
      }
    }
  }

  /** The scan keeps exactly the codes of the rows that are not in `seen`. */
  lemma {:induction false} DedupeFromCodes(students: seq<Student>, seen: set<string>)
    ensures forall c :: c in Codes(DedupeFrom(students, seen)) <==> c in Codes(students) && c !in seen
    decreases |students|
  {
    if |students| > 0 {
      var s := students[0];
      var t := students[1..];
      assert students == [s] + t;
      CodesCons(s, t);
      if s.codigo in seen {
        DedupeFromCodes(t, seen);
      } else {
        DedupeFromCodes(t, seen + {s.codigo});
        CodesCons(s, DedupeFrom(t, seen + {s.codigo}));
      }
    }
  }

  /** `drop_duplicates(subset=['codigo'], keep='first')`. */
  function Dedupe(students: seq<Student>): (r: seq<Student>)
    ensures DistinctCodes(r)
    ensures forall c :: c in Codes(r) <==> c in Codes(students)
  {
    DedupeFromDistinct(students, {});
    DedupeFromCodes(students, {});
    DedupeFrom(students, {})
  }

  /** The position of the first student with code `c`. */
  function FirstIndex(students: seq<Student>, c: string): (k: nat)
    requires c in Codes(students)
    ensures k < |students| && students[k].codigo == c
    ensures forall j :: 0 <= j < k ==> students[j].codigo != c
    decreases |students|
  {
    if students[0].codigo == c then 0
    else
      assert Codes(students) == [students[0].codigo] + Codes(students[1..]);
      1 + FirstIndex(students[1..], c)
  }

  /** Past the first student, first positions move by one. */
  lemma FirstIndexTail(students: seq<Student>, c: string)
    requires |students| > 0 && c in Codes(students[1..]) && c != students[0].codigo
    ensures c in Codes(students)
    ensures FirstIndex(students, c) == 1 + FirstIndex(students[1..], c)
    ensures students[FirstIndex(students, c)] == students[1..][FirstIndex(students[1..], c)]
  {
    assert Codes(students) == [students[0].codigo] + Codes(students[1..]);
  }

  /** A kept code comes from the rows scanned. */
  lemma KeptCodeScanned(students: seq<Student>, seen: set<string>, k: nat)
    requires k < |DedupeFrom(students, seen)|
    ensures var c := DedupeFrom(students, seen)[k].codigo;
      c in Codes(students) && c !in seen
  {
    var r := DedupeFrom(students, seen);
    DedupeFromCodes(students, seen);
    assert Codes(r)[k] == r[k].codigo;
  }

  /** What `keep='first'` promises: every kept student is the first row of its code. */
  lemma {:induction false} DedupeKeepsFirstRows(students: seq<Student>, seen: set<string>)
    ensures var r := DedupeFrom(students, seen);
      forall k :: 0 <= k < |r| ==>
        r[k].codigo in Codes(students) && r[k] == students[FirstIndex(students, r[k].codigo)]
    decreases |students|
  {
    var r := DedupeFrom(students, seen);
    if |students| > 0 {
      var s := students[0];
      var t := students[1..];
      var seen' := if s.codigo in seen then seen else seen + {s.codigo};
      var rest := DedupeFrom(t, seen');
      DedupeKeepsFirstRows(t, seen');
      var d := if s.codigo in seen then 0 else 1;
      assert |r| == |rest| + d;
      forall k | 0 <= k < |r|
        ensures r[k].codigo in Codes(students) && r[k] == students[FirstIndex(students, r[k].codigo)]
      {
        if k < d {
          assert r[k] == s;
          assert Codes(students)[0] == s.codigo;
        } else {
          assert r[k] == rest[k - d];
          KeptCodeScanned(t, seen', k - d);
          FirstIndexTail(students, rest[k - d].codigo);
        }
      }
    }
  }

  /** The kept students are in the order of their first rows. */
  lemma {:induction false} DedupeKeepsOrder(students: seq<Student>, seen: set<string>)
    ensures var r := DedupeFrom(students, seen);
      forall i, j :: 0 <= i < j < |r| ==>
        r[i].codigo in Codes(students) && r[j].codigo in Codes(students)
        && FirstIndex(students, r[i].codigo) < FirstIndex(students, r[j].codigo)
    decreases |students|
  {
    var r := DedupeFrom(students, seen);
    if |students| > 0 {
      var s := students[0];
      var t := students[1..];
      var seen' := if s.codigo in seen then seen else seen + {s.codigo};
      var rest := DedupeFrom(t, seen');
      DedupeKeepsOrder(t, seen');
      var d := if s.codigo in seen then 0 else 1;
      assert |r| == |rest| + d;
      forall k | d <= k < |r|
        ensures r[k] == rest[k - d] && r[k].codigo in Codes(students)
        ensures FirstIndex(students, r[k].codigo) == 1 + FirstIndex(t, r[k].codigo)
      {
        assert r[k] == rest[k - d];
        KeptCodeScanned(t, seen', k - d);
        FirstIndexTail(students, rest[k - d].codigo);
      }
      if d == 1 {
        assert r[0] == s && Codes(students)[0] == s.codigo;
      }
    }
  }

  /** The name `nombres` records for a code, by the dictionary built from the kept rows. */
  function NameFields(students: seq<Student>): (fs: seq<(string, Json)>)
    ensures |fs| == |students|
    ensures forall k :: 0 <= k < |students| ==> fs[k] == (students[k].codigo, JStr(students[k].nombre))
  {
    seq(|students|, k requires 0 <= k < |students| => (students[k].codigo, JStr(students[k].nombre)))
  }

  /** The codes as JSON strings: `df['codigo'].tolist()`. */
  function CodeItems(students: seq<Student>): (items: seq<Json>)
    ensures |items| == |students|
    ensures forall k :: 0 <= k < |students| ==> items[k] == JStr(students[k].codigo)
  {
    seq(|students|, k requires 0 <= k < |students| => JStr(students[k].codigo))
  }

  const DefaultComment1: string := "Datos de usuario para la aplicación web"
  const DefaultComment2: string := "Puedes agregar aquí información adicional para el frontend o administración"
  const DefaultComment3: string := "Puedes agregar más secciones según necesidades futuras"
  const DefaultContact: string := "soporte@iem_cauca.edu.co"

  /** The keys `create_usuarios_structure` writes itself, in the order it writes them.
      Every other key of the existing document is carried over after them. */
  const OwnKeys: seq<string> :=
    ["comentario_1", "usuarios_permitidos", "nombres", "comentario_2", "informacion", "comentario_3"]

  /** The own keys are six different keys. */
  lemma OwnKeysDistinct()
    ensures forall i, j :: 0 <= i < j < 6 ==> OwnKeys[i] != OwnKeys[j]
  {
    assert OwnKeys[0][11] == '1' && OwnKeys[3][11] == '2' && OwnKeys[5][11] == '3';
  }

  /** The members of the existing document that are carried over, in their order. */
  function Extras(fields: seq<(string, Json)>): (r: seq<(string, Json)>)
    ensures |r| <= |fields|
    ensures forall k :: 0 <= k < |r| ==> r[k].0 !in OwnKeys
    decreases |fields|
  {
    if |fields| == 0 then []
    else
      var rest := Extras(fields[1..]);
      if fields[0].0 in OwnKeys then rest else [fields[0]] + rest
  }

  /** One step of `Extras`. */
  lemma ExtrasCons(fields: seq<(string, Json)>)
    requires |fields| > 0
    ensures Extras(fields) == (if fields[0].0 in OwnKeys then [] else [fields[0]]) + Extras(fields[1..])
  {
  }

  /** A key that is not an own key has the same binding among the extras as in the
      existing document. */
  lemma {:induction false} ExtrasFind(fields: seq<(string, Json)>, key: string)
    requires key !in OwnKeys
    ensures Find(Extras(fields), key) == Find(fields, key)
    decreases |fields|
  {
    if |fields| > 0 {
      ExtrasCons(fields);
      ExtrasFind(fields[1..], key);
      if fields[0].0 !in OwnKeys {
        assert ([fields[0]] + Extras(fields[1..]))[1..] == Extras(fields[1..]);
      }
    }
  }

  /** Every extra member is a member of the existing document at or after position
      `k` of the scan. */
  lemma {:induction false} ExtrasFrom(fields: seq<(string, Json)>, k: nat) returns (i: nat)
    requires k < |Extras(fields)|
    ensures i < |fields| && fields[i] == Extras(fields)[k]
    decreases |fields|
  {
    ExtrasCons(fields);
    var rest := Extras(fields[1..]);
    if fields[0].0 in OwnKeys {
      var j := ExtrasFrom(fields[1..], k);
      i := j + 1;
    } else if k == 0 {
      i := 0;
    } else {
      var j := ExtrasFrom(fields[1..], k - 1);
      i := j + 1;
    }
  }

  /** The extras of a document without repeated keys have no repeated keys. */
  lemma {:induction false} ExtrasDistinct(fields: seq<(string, Json)>)
    requires DistinctKeys(fields)
    ensures DistinctKeys(Extras(fields))
    decreases |fields|
  {
    if |fields| > 0 {
      var t := fields[1..];
      assert DistinctKeys(t) by {
        forall i, j | 0 <= i < j < |t|
          ensures t[i].0 != t[j].0
        {
          assert t[i] == fields[i + 1] && t[j] == fields[j + 1];
        }
      }
      ExtrasDistinct(t);
      ExtrasCons(fields);
      var rest := Extras(t);
      var r := Extras(fields);
      if fields[0].0 !in OwnKeys {
        forall i, j | 0 <= i < j < |r|
          ensures r[i].0 != r[j].0
        {
          assert r[j] == rest[j - 1];
          if i == 0 {
            var m := ExtrasFrom(t, j - 1);
            assert fields[m + 1] == t[m];
          } else {
            assert r[i] == rest[i - 1];
          }
        }
      }
    }
  }

  /** The name Python gives a JSON value's type, as its `AttributeError` messages show. */
  function PyTypeName(j: Json): string {
    match j
    case JNull => "NoneType"
    case JBool(_) => "bool"
    case JNum(_) => "int"
    case JStr(_) => "str"
    case JArr(_) => "list"
    case JObj(_) => "dict"
  }

  /** The error raised by calling `.get` on a value that is not a dict. */
  function NoGet(j: Json): string {
    "'" + PyTypeName(j) + "' object has no attribute 'get'"
  }

  /** `existing_data.get(key, default)`: the stored value, even `null`, when the key is
      present. */
  function GetOrDefault(fields: seq<(string, Json)>, key: string, default: string): (v: Json)
    ensures Find(fields, key).Some? ==> v == Find(fields, key).value
    ensures Find(fields, key).None? ==> v == JStr(default)
  {
    Find(fields, key).GetOr(JStr(default))
  }

  /** `existing_data.get("informacion", {}).get("contacto_soporte", …)`: fails when
      `informacion` is present but not a dict. */
  function Contact(fields: seq<(string, Json)>): (r: Result<Json, string>)
    ensures r.Failure? <==> Find(fields, "informacion").Some? && !Find(fields, "informacion").value.JObj?
  {
    match Find(fields, "informacion")
    case None => Success(JStr(DefaultContact))
    case Some(info) =>
      if info.JObj? then Success(GetOrDefault(info.fields, "contacto_soporte", DefaultContact))
      else Failure(NoGet(info))
  }

  /** The values `create_usuarios_structure` writes under `OwnKeys`, in that order. */
  function OwnValues(students: seq<Student>, fields: seq<(string, Json)>, today: string, contact: Json): (vs: seq<Json>)
    ensures |vs| == 6
  {
    [GetOrDefault(fields, "comentario_1", DefaultComment1),
     JArr(CodeItems(students)),
     JObj(NameFields(students)),
     GetOrDefault(fields, "comentario_2", DefaultComment2),
     JObj([("ultima_actualizacion", JStr(today)),
           ("total_usuarios", JNum(|students|)),
           ("contacto_soporte", contact)]),
     GetOrDefault(fields, "comentario_3", DefaultComment3)]
  }

  /** The members of a dict literal with keys `keys` and values `values`. */
  function Members(keys: seq<string>, values: seq<Json>): (fs: seq<(string, Json)>)
    requires |keys| == |values|
    ensures |fs| == |keys| && forall k :: 0 <= k < |keys| ==> fs[k] == (keys[k], values[k])
  {
    seq(|keys|, k requires 0 <= k < |keys| => (keys[k], values[k]))
  }

  /** `create_usuarios_structure(df, existing_data)`, the students being the rows
      `load_csv_data` returns (distinct codes) and `today` the date `str(date.today())`
      gives: the own members, then every other member of the existing document. Fails,
      as Python does, when the existing document or its `informacion` is not a dict. */
  function CreateUsuariosStructure(students: seq<Student>, existing: Json, today: string): (r: Result<Json, string>)
    requires DistinctCodes(students)
    ensures r.Failure? <==> !existing.JObj? || Contact(existing.fields).Failure?
    ensures r.Success? ==> r.value.JObj? && |r.value.fields| == 6 + |Extras(existing.fields)|
  {
    if !existing.JObj? then Failure(NoGet(existing))
    else
      var fields := existing.fields;
      match Contact(fields)
      case Failure(e) => Failure(e)
      case Success(contact) =>
        Success(JObj(Members(OwnKeys, OwnValues(students, fields, today, contact)) + Extras(fields)))
  }

  /** Looking up the key at position `i`, when no earlier member has it, finds the value
      at `i`. */
  lemma {:induction false} FindFirstAt<T>(fields: seq<(string, T)>, i: nat)
    requires i < |fields|
    requires forall j :: 0 <= j < i ==> fields[j].0 != fields[i].0
    ensures Find(fields, fields[i].0) == Some(fields[i].1)
    decreases i
  {
    if i > 0 {
      assert fields[1..][i - 1] == fields[i];
      FindFirstAt(fields[1..], i - 1);
    }
  }

  /** The own keys are found at their own positions, with the values written there. */
  lemma MergeFindsOwnKey(students: seq<Student>, existing: Json, today: string, i: nat)
    requires DistinctCodes(students)
    requires CreateUsuariosStructure(students, existing, today).Success?
    requires i < 6
    ensures Find(CreateUsuariosStructure(students, existing, today).value.fields, OwnKeys[i])
            == Some(OwnValues(students, existing.fields, today, Contact(existing.fields).value)[i])
  {
    var fields := existing.fields;
    var own := Members(OwnKeys, OwnValues(students, fields, today, Contact(fields).value));
    var out := own + Extras(fields);
    OwnKeysDistinct();
    assert out[i] == own[i];
    forall j | 0 <= j < i
      ensures out[j].0 != out[i].0
    {
      assert out[j] == own[j];
    }
    FindFirstAt(out, i);
  }

  /** `usuarios_permitidos` and `nombres` come from the CSV, even when the existing
      document has them. */
  lemma MergeTakesListsFromCsv(students: seq<Student>, existing: Json, today: string)
    requires DistinctCodes(students)
    requires CreateUsuariosStructure(students, existing, today).Success?
    ensures var out := CreateUsuariosStructure(students, existing, today).value.fields;
      && Find(out, "usuarios_permitidos") == Some(JArr(CodeItems(students)))
      && Find(out, "nombres") == Some(JObj(NameFields(students)))
  {
    var vs := OwnValues(students, existing.fields, today, Contact(existing.fields).value);
    assert OwnKeys[1] == "usuarios_permitidos" && vs[1] == JArr(CodeItems(students));
    assert OwnKeys[2] == "nombres" && vs[2] == JObj(NameFields(students));
    MergeFindsOwnKey(students, existing, today, 1);
    MergeFindsOwnKey(students, existing, today, 2);
  }

  /** The comments come from the existing document when it has them and from the
      defaults otherwise; `informacion` holds the date, the number of students and the
      support contact. */
  lemma MergeKeepsComments(students: seq<Student>, existing: Json, today: string)
    requires DistinctCodes(students)
    requires CreateUsuariosStructure(students, existing, today).Success?
    ensures var out := CreateUsuariosStructure(students, existing, today).value.fields;
      var fields := existing.fields;
      && Find(out, "comentario_1") == Some(GetOrDefault(fields, "comentario_1", DefaultComment1))
      && Find(out, "comentario_2") == Some(GetOrDefault(fields, "comentario_2", DefaultComment2))
      && Find(out, "comentario_3") == Some(GetOrDefault(fields, "comentario_3", DefaultComment3))
  {
    MergeFindsOwnKey(students, existing, today, 0);
    MergeFindsOwnKey(students, existing, today, 3);
    MergeFindsOwnKey(students, existing, today, 5);
  }

  /** `informacion` holds the date, the number of students and the support contact,
      which is the existing one when there is one and the default otherwise. */
  lemma MergeWritesInformacion(students: seq<Student>, existing: Json, today: string)
    requires DistinctCodes(students)
    requires CreateUsuariosStructure(students, existing, today).Success?
    ensures var out := CreateUsuariosStructure(students, existing, today).value.fields;
      Find(out, "informacion") == Some(JObj([("ultima_actualizacion", JStr(today)),
                                             ("total_usuarios", JNum(|students|)),
                                             ("contacto_soporte", Contact(existing.fields).value)]))
  {
    MergeFindsOwnKey(students, existing, today, 4);
  }

  /** Every key `create_usuarios_structure` does not write itself is carried over from
      the existing document with its value. */
  lemma MergeCarriesOtherKeys(students: seq<Student>, existing: Json, today: string, key: string)
    requires DistinctCodes(students)
    requires CreateUsuariosStructure(students, existing, today).Success?
    requires key !in OwnKeys
    ensures Find(CreateUsuariosStructure(students, existing, today).value.fields, key)
            == Find(existing.fields, key)
  {
    var fields := existing.fields;
    var own := Members(OwnKeys, OwnValues(students, fields, today, Contact(fields).value));
    FindPastHead(own, Extras(fields), key);
    ExtrasFind(fields, key);
  }

  /** The written document has no key twice when the existing one has none. */
  lemma MergeIsDict(students: seq<Student>, existing: Json, today: string)
    requires DistinctCodes(students)
    requires CreateUsuariosStructure(students, existing, today).Success?
    requires DistinctKeys(existing.fields)
    ensures DistinctKeys(CreateUsuariosStructure(students, existing, today).value.fields)
  {
    var fields := existing.fields;
    var own := Members(OwnKeys, OwnValues(students, fields, today, Contact(fields).value));
    var extras := Extras(fields);
    var out := own + extras;
    OwnKeysDistinct();
    ExtrasDistinct(fields);
    forall i, j | 0 <= i < j < |out|
      ensures out[i].0 != out[j].0
    {
      if j < 6 {
        assert out[i] == own[i] && out[j] == own[j];
      } else if i < 6 {
        assert out[i] == own[i] && out[j] == extras[j - 6];
      } else {
        assert out[i] == extras[i - 6] && out[j] == extras[j - 6];
      }
    }
  }

  /** Looking up a key that the first part of an association list lacks finds it in the
      rest. */
  lemma {:induction false} FindPastHead<T>(head: seq<(string, T)>, rest: seq<(string, T)>, key: string)
    requires forall k :: 0 <= k < |head| ==> head[k].0 != key
    ensures Find(head + rest, key) == Find(rest, key)
    decreases |head|
  {
    if |head| > 0 {
      var all := head + rest;
      assert all[0] == head[0] && head[0].0 != key;
      assert all[1..] == head[1..] + rest;
      assert Find(all, key) == Find(all[1..], key);
      FindPastHead(head[1..], rest, key);
    } else {
      assert head + rest == rest;
    }
  }

  /** `nombres` has exactly the codes of `usuarios_permitidos` as keys, each bound to the
      name of its student, and `total_usuarios` is the length of the list. */
  lemma NombresMatchList(students: seq<Student>, k: nat)
    requires DistinctCodes(students) && k < |students|
    ensures var fs := NameFields(students);
      DistinctKeys(fs) && Find(fs, students[k].codigo) == Some(JStr(students[k].nombre))
    ensures forall c :: Find(NameFields(students), c).Some? <==> JStr(c) in CodeItems(students)
  {
    var fs := NameFields(students);
    FindAt(fs, k);
    forall c
      ensures Find(fs, c).Some? <==> JStr(c) in CodeItems(students)
    {
      if JStr(c) in CodeItems(students) {
        var i :| 0 <= i < |students| && CodeItems(students)[i] == JStr(c);
        assert fs[i].0 == c;
      }
    }
  }

  /** The missing-column check of `load_csv_data`: the required columns absent from the
      header, in the order `nombre`, `codigo`. */
  function MissingColumns(columns: seq<string>): (missing: seq<string>)
    ensures forall c :: c in missing <==> (c == "nombre" || c == "codigo") && c !in columns
    ensures |missing| <= 2
  {
    (if "nombre" in columns then [] else ["nombre"]) + (if "codigo" in columns then [] else ["codigo"])
  }

  /** Python's `repr` of a list of plain strings. */
  function PyListRepr(items: seq<string>): string
    decreases |items|
  {
    if |items| == 0 then "[]"
    else "[" + PyItems(items) + "]"
  }

  /** The items of a list repr, separated by `, `. */
  function PyItems(items: seq<string>): string
    requires |items| > 0
    decreases |items|
  {
    if |items| == 1 then "'" + items[0] + "'" else "'" + items[0] + "', " + PyItems(items[1..])
  }

  /** The message of the exception `load_csv_data` raises for missing columns. */
  function MissingColumnsMessage(missing: seq<string>): string {
    "Error procesando el archivo CSV: Columnas faltantes en el CSV: " + PyListRepr(missing)
  }

  /** `load_csv_data` after reading the file: the header check, then the cleaning and
      the de-duplication. */
  function LoadCsvData(columns: seq<string>, rows: seq<Row>): (r: Result<seq<Student>, string>)
    ensures r.Failure? <==> "nombre" !in columns || "codigo" !in columns
    ensures r.Failure? ==> r.error == MissingColumnsMessage(MissingColumns(columns))
    ensures r.Success? ==> DistinctCodes(r.value)
    ensures r.Success? ==> forall c :: c in Codes(r.value) <==> c in Codes(CleanRows(rows))
  {
    var missing := MissingColumns(columns);
    if |missing| > 0 then Failure(MissingColumnsMessage(missing))
    else
      assert "nombre" in columns && "codigo" in columns by {
        assert "nombre" !in missing && "codigo" !in missing;
      }
      Success(Dedupe(CleanRows(rows)))
  }

  /** The repr of a one-item list. */
  lemma PyListReprOne(x: string)
    ensures PyListRepr([x]) == "['" + x + "']"
  {
  }

  /** The missing-columns message names exactly the required columns the header lacks,
      `nombre` before `codigo`. */
  lemma MissingColumnMessages(columns: seq<string>)
    ensures "nombre" !in columns && "codigo" in columns ==>
              MissingColumnsMessage(MissingColumns(columns)) == MissingColumnsMessage(["nombre"])
    ensures "nombre" in columns && "codigo" !in columns ==>
              MissingColumnsMessage(MissingColumns(columns)) == MissingColumnsMessage(["codigo"])
    ensures "nombre" !in columns && "codigo" !in columns ==>
              MissingColumnsMessage(MissingColumns(columns)) == MissingColumnsMessage(["nombre", "codigo"])
    ensures "nombre" !in columns && "codigo" in columns ==>
              MissingColumnsMessage(MissingColumns(columns))
              == "Error procesando el archivo CSV: Columnas faltantes en el CSV: " + "['" + "nombre" + "']"
  {
    PyListReprOne("nombre");
  }

  /** `main` after reading both files: the new document, or the message of the
      exception that stops it. */
  function UpdateWhitelist(columns: seq<string>, rows: seq<Row>, existing: Json, today: string): (r: Result<Json, string>)
    ensures ("nombre" !in columns || "codigo" !in columns) ==>
              r == Failure(MissingColumnsMessage(MissingColumns(columns)))
  {
    match LoadCsvData(columns, rows)
    case Failure(e) => Failure(e)
    case Success(students) => CreateUsuariosStructure(students, existing, today)
  }

  /** A code is listed exactly when it is one of the students' codes. */
  lemma CodeItemsHas(students: seq<Student>, c: string)
    ensures JStr(c) in CodeItems(students) <==> c in Codes(students)
  {
    if JStr(c) in CodeItems(students) {
      var k :| 0 <= k < |students| && CodeItems(students)[k] == JStr(c);
      assert Codes(students)[k] == c;
    }
    if c in Codes(students) {
      var k :| 0 <= k < |students| && Codes(students)[k] == c;
      assert CodeItems(students)[k] == JStr(c);
    }
  }

  /** A cleaned code is among the codes of the cleaned rows exactly when some complete
      row has it. */
  lemma CleanedCodeFromRow(rows: seq<Row>, c: string)
    ensures c in Codes(CleanRows(rows)) <==>
              exists i :: 0 <= i < |rows| && Complete(rows[i]) && CleanCode(rows[i].1.value) == c
  {
    var r := CleanRows(rows);
    CleanRowsMembers(rows);
    if c in Codes(r) {
      var k :| 0 <= k < |r| && Codes(r)[k] == c;
      assert r[k] in r;
      var i :| 0 <= i < |rows| && Complete(rows[i]) && Clean(rows[i]) == r[k];
    }
    if exists i :: 0 <= i < |rows| && Complete(rows[i]) && CleanCode(rows[i].1.value) == c {
      var i :| 0 <= i < |rows| && Complete(rows[i]) && CleanCode(rows[i].1.value) == c;
      assert Clean(rows[i]) in r;
      var k :| 0 <= k < |r| && r[k] == Clean(rows[i]);
      assert Codes(r)[k] == c;
    }
  }

  /** The whole run: the written `usuarios_permitidos` lists each code once, and lists a
      code exactly when some complete CSV row has it once stripped and upper-cased;
      `total_usuarios` counts the listed codes. */
  lemma UpdateWhitelistLists(columns: seq<string>, rows: seq<Row>, existing: Json, today: string)
    requires UpdateWhitelist(columns, rows, existing, today).Success?
    ensures var out := UpdateWhitelist(columns, rows, existing, today).value.fields;
      var students := LoadCsvData(columns, rows).value;
      && Find(out, "usuarios_permitidos") == Some(JArr(CodeItems(students)))
      && (forall c :: JStr(c) in CodeItems(students) <==>
            exists i :: 0 <= i < |rows| && Complete(rows[i]) && CleanCode(rows[i].1.value) == c)
      && (forall i, j :: 0 <= i < j < |students| ==> CodeItems(students)[i] != CodeItems(students)[j])
  {
    var students := LoadCsvData(columns, rows).value;
    MergeTakesListsFromCsv(students, existing, today);
    forall c
      ensures JStr(c) in CodeItems(students) <==>
                exists i :: 0 <= i < |rows| && Complete(rows[i]) && CleanCode(rows[i].1.value) == c
    {
      CodeItemsHas(students, c);
      CleanedCodeFromRow(rows, c);
    }
  }
}

=== FILE: wrappers.dfy ===
/** Failure-compatible wrappers shared by every module of the portal model. */
module Wrappers {

  /** A value that may be absent: JavaScript `undefined`/`null`, a pandas NaN cell,
      or a missing key. */
  datatype Option<+T> = None | Some(value: T) {

    /** Returns the carried value, or `default` when there is none. */
    function GetOr(default: T): T {
      match this
      case Some(v) => v
      case None => default
    }
  }

  /** Either a computed value or the error that stopped the computation. */
  datatype Result<+R, +E> = Success(value: R) | Failure(error: E) {

    predicate IsFailure() {
      Failure?
    }

    function PropagateFailure<U>(): Result<U, E>
      requires Failure?
    {
      Failure(error)
    }

    function Extract(): R
      requires Success?
    {
      value
    }
  }
}
